=== FILE: README.md ===
# DecFloat in Dafny

A model of `DecFloat`, an immutable arbitrary-precision decimal number. A value
has three fields:

- a sign `neg`;
- a magnitude `num`, a little-endian sequence of base-256 limbs (`byte[]`);
- a count of decimal places `dp`, which may be negative.

It stands for (-1)^neg · Val(num) · 10^(-dp). The model covers:

- the text conversions: the string constructor with `Dec2Bin` and `AddDigit`, and
  `ToString` with `LeastSignificantDigit`;
- the limb arithmetic on `byte[]`: `Add`, `Sub`, `Mul` by one byte, and `Compare`;
- the signed operations `Add`, `Sub`, `Mul` and `Compare`;
- the long division `Div`;
- the two `Round` overloads;
- `Log2`.

Each operation is a Dafny method that does what the C# code does, loop for loop.
Its contract ties the result to a ghost meaning: `Val` for limbs, `DigitsVal` for
digit strings, `Format`/`FromText` for text and `Value` (a real) for a DecFloat.
Exceptions become `Result.Failure`. Arrays the code overwrites through `ref`
(`AddDigit`, `LeastSignificantDigit`) stay arrays, with `modifies` clauses. The
multiple table of `Div` is an array of limb sequences.

Modules, one per file:

| file | module | contents |
|---|---|---|
| `powers.dfy` | `Powers` | powers of two and ten, signed powers of ten as reals |
| `limbs.dfy` | `Limbs` | the byte-array helpers |
| `decfloat.dfy` | `DecimalFloat` | the value, its meaning, and the constants `Zero`, `One`, `Two`, `Half` |
| `text.dfy` | `DecimalText` | digit strings |
| `conversion.dfy` | `Conversion` | parsing, formatting, and their round trips |
| `arith.dfy` | `DecimalArith` | `Mul`, `Add`, `Sub`, `Compare` |
| `quotient.dfy`, `division.dfy` | `QuotientBounds`, `DecimalDivision` | `Div` |
| `rounding_spec.dfy`, `rounding.dfy` | `RoundingSpec`, `DecimalRounding` | `Round()` and `Round(int)` |
| `log_spec.dfy`, `log2.dfy` | `LogSpec`, `DecimalLog` | `Log2` |

`Log2`'s loops live in helper methods:

- `HalveBelowTwo` for the halving loop;
- `DoubleToOne` for the doubling loop;
- `Bits` for the fraction loop, with `NextBit` as its body.

`LogBits` holds what comes before the rounding. `Log2` rounds with `Round(int)` as written, and `Log2HalfAway` rounds with the corrected `Round(int)` (see Findings).

## Model

All source cells refer to `DecFloat/DecFloat.cs`.

| member | source | states |
|---|---|---|
| Limbs.AddDigit | DecFloat/DecFloat.cs:40-54 | for a digit d, the new magnitude is 10 · old + d. A canonical array stays canonical. The result is the caller's array or a fresh one grown by one limb. |
| Limbs.LeastSignificantDigit | DecFloat/DecFloat.cs:289-301 | returns the value mod 10 and leaves the value div 10. The top zero limbs are trimmed, so the result is canonical and no longer than before. |
| Limbs.Add | DecFloat/DecFloat.cs:79-97 | the limbs of Val(a) + Val(b). The length is the longer operand's, plus one exactly when the sum needs the carry limb. Canonical when the longer operand is. |
| Limbs.Sub | DecFloat/DecFloat.cs:99-116 | fails ("unexpected borrow") exactly when Val(a) < Val(b). Otherwise gives the canonical difference, no longer than the operands. |
| Limbs.Mul | DecFloat/DecFloat.cs:138-155 | Val(num) · b. One limb longer exactly when the product overflows the operand's width. Canonical for a nonzero byte. |
| Limbs.Compare | DecFloat/DecFloat.cs:303-313 | a longer array is larger. For equal lengths, and for any canonical pair, returns the sign of Val(a) - Val(b). |
| Conversion.Dec2Bin | DecFloat/DecFloat.cs:32-38 | the canonical limbs of the number a digit string denotes |
| Conversion.Parse | DecFloat/DecFloat.cs:14-23 | sign from a leading '-'; places = digits after the first point, up to any second point; canonical magnitude = the digits with the point dropped |
| Conversion.ToString | DecFloat/DecFloat.cs:268-287 | returns Format(x): digits peeled off with LeastSignificantDigit, the point placed or zeros appended, leading zeros trimmed, "0" for an empty text, the sign otherwise |
| Conversion.FormatZero | DecFloat/DecFloat.cs:284-286 | the text is "0" exactly when the magnitude is zero and there are no decimal places. This is the zero test Add relies on. |
| Conversion.FormatOfParse | DecFloat/DecFloat.cs:268-287 | formatting a parsed numeral gives the numeral with its integer zeros trimmed, "0" when nothing is left, and its sign kept otherwise |
| Conversion.ParseOfFormat | DecFloat/DecFloat.cs:14-23 | the text ToString produces parses back to the same number. With decimal places it gives the same sign and places and the canonical magnitude. |
| DecimalArith.Mul | DecFloat/DecFloat.cs:118-134 | sign = a.neg != b.neg, places add, magnitude = product, so the value is the product. Canonical for canonical nonzero operands. An empty left operand gives one zero limb fewer than b has limbs. |
| DecimalArith.ScaleUp | DecFloat/DecFloat.cs:63-66 | multiplying by the parsed "1" followed by k zeros scales the magnitude by 10^k and keeps sign and places |
| DecimalArith.Align | DecFloat/DecFloat.cs:63-66 | both magnitudes now count units of the larger number of places. Zero stays zero, canonical stays canonical, and a zero with places facing a value with more places gets the longer array. |
| DecimalArith.Combine | DecFloat/DecFloat.cs:68-76 | equal signs add. Otherwise the larger magnitude by Compare keeps its sign and loses the other; equal magnitudes give Zero. A borrow fails. A success is the exact signed sum. |
| DecimalArith.Add | DecFloat/DecFloat.cs:58-77 | returns a when b prints "0", else b when a prints "0". Otherwise the result has the larger number of places, or is Zero. Tidy opposite values give Zero. Any success is the exact sum. Tidy operands always succeed; a lost zero (see Findings) always fails. |
| DecimalArith.LostZeroExample | DecFloat/DecFloat.cs:61-62 | 0.0000001 and the zero parsed from "-0.0" (printing "-.0") meet Add's failing case |
| DecimalArith.AddCorrected | DecFloat/DecFloat.cs:58-77 | with the zero test on the magnitude, the sum of canonical values never fails, is exact, and is canonical (tidy for tidy operands) |
| DecimalArith.Sub | DecFloat/DecFloat.cs:56 | Add of the negated operand. Any success is the exact difference; tidy operands always succeed; subtracting a "0" returns a. |
| DecimalArith.Compare | DecFloat/DecFloat.cs:315-320 | a success is in {-1, 0, 1}: 0 only when the values are equal, -1 when a < b, 1 when a > b. Equal values that are not tidy may still give 1. On tidy values it never fails and 0 means exactly equal. Against a "0" it reads the sign of a. |
| DecimalDivision.Normalize | DecFloat/DecFloat.cs:189-204 | the scaling loops end with Val(bnum) <= Val(anum) < 10 · Val(bnum). Each is its operand times a power of ten, and rdp moves by the difference of the exponents. |
| DecimalDivision.Multiples | DecFloat/DecFloat.cs:206-210 | entry m of the table is m · divisor, canonical, for 0 <= m <= 10 |
| DecimalDivision.NextDigit | DecFloat/DecFloat.cs:215-226 | the digit is the largest i with i · divisor <= remainder (so at most 9). cmp is 0 exactly when the remainder is used up. The next remainder is ten times what is left, below 10 · divisor. |
| DecimalDivision.LongDivide | DecFloat/DecFloat.cs:212-228 | at most maxDigits digits, no leading zero. Dividend · 10^digits = 10 · divisor · quotient + remainder, the remainder below 10 · divisor. Stops early only on a zero remainder. A zero remainder ends the digits on a nonzero digit, so the digits' value is not a multiple of 10. |
| DecimalDivision.PlacePoint | DecFloat/DecFloat.cs:229-232 | the quotient text: zeros padded on either side for rdp, the point inserted at rdp, a minus sign for opposite signs |
| DecimalDivision.ReadQuotient | DecFloat/DecFloat.cs:229-233 | parsing that text gives the digits' value, scaled by the padding, at max(digit count - rdp, 0) places with the quotient's sign |
| DecimalDivision.Div | DecFloat/DecFloat.cs:157-234 | sign = a.neg != b.neg, canonical magnitude. The quotient is its n digits dv with the first digit at place 10^(point - 1), where 10^(point - 1) <= a / b < 10^point in magnitude, and it has max(n - point, 0) places. It is a / b truncated after n digits: r · b <= a < (r + 10^(point - n)) · b in magnitude. n is maxDigits unless the division is exact. An exact quotient does not end in a zero digit. It falls short of a by less than a · 10^(1 - maxDigits), and is nonzero when maxDigits >= 1. |
| DecimalDivision.WriteQuotient | DecFloat/DecFloat.cs:229-233 | the quotient text, parsed back, has the quotient's sign, the digits' value times the padding zeros, and max(digit count - rdp, 0) places |
| DecimalRounding.IndexOf | DecFloat/DecFloat.cs:332 | the first position of the character, or -1 when absent |
| DecimalRounding.RoundText | DecFloat/DecFloat.cs:331-335 | in the text of a value with places, the part before the first point parses to the signed integer part. The digit after the point is '5' or more exactly when the fraction is at least one half. |
| DecimalRounding.NoPoint | DecFloat/DecFloat.cs:333 | a value without places prints without a point |
| DecimalRounding.WholePart | DecFloat/DecFloat.cs:331-335 | finds a point exactly when dp > 0. It then returns the integer part and whether the fraction is at least one half. |
| DecimalRounding.Round | DecFloat/DecFloat.cs:329-338 | no places: the value itself. Otherwise a tidy whole number with 0 places, equal to RoundedAsWritten: the integer part plus one when the fraction is >= 1/2, whatever the sign. Within 1/2 of a nonnegative input. |
| DecimalRounding.PlusOne | DecFloat/DecFloat.cs:336 | num.Add(One) on the parsed integer part is one more, still tidy with 0 places |
| DecimalRounding.RoundHalfAway | DecFloat/DecFloat.cs:329-338 | corrected Round(): equals RoundedHalfAway, has 0 places when the input has places, and is within one half of the input for either sign |
| DecimalRounding.RoundTo | DecFloat/DecFloat.cs:322-327 | Round(k) = RoundedAsWritten of x · 10^k, times 10^(-k); k = 0 is Round(). It has k places when x has more than k, else x's places. It lies from half of 10^(-k) below x to less than 2 · 10^(-k) above it, and within half of 10^(-k) for x >= 0. |
| DecimalRounding.RoundToHalfAway | DecFloat/DecFloat.cs:322-327 | Round(k) built on the corrected Round(): a multiple of 10^(-k) within half of 10^(-k) of x, with k places when x has more than k, else x's places |
| DecimalRounding.Shift | DecFloat/DecFloat.cs:326 | multiplying by the value with one limb 1 and -k places keeps sign and magnitude and moves the point k places |
| RoundingSpec.HalfAwayMirrors | DecFloat/DecFloat.cs:329-338 | rounding half away is odd in the sign, and agrees with the code's rounding on nonnegative values |
| RoundingSpec.HalfAwayClose | DecFloat/DecFloat.cs:329-338 | rounding half away is within 1/2 of the number |
| RoundingSpec.AsWrittenNegativeGap | DecFloat/DecFloat.cs:335-336 | for a negative value whose fraction is at least one half, the code's result is at least 3/2 above the value |
| RoundingSpec.NegativeRoundExample | DecFloat/DecFloat.cs:335-336 | -2.7 rounds to -1 as written, and to -3 half away from zero |
| RoundingSpec.RoundedToNear | DecFloat/DecFloat.cs:322-327 | a rounding to k places half away is within half of 10^(-k) of the number |
| RoundingSpec.AsWrittenClose | DecFloat/DecFloat.cs:329-338 | the code's rounding lies from 1/2 below the number to less than 2 above it |
| RoundingSpec.AsWrittenToNear | DecFloat/DecFloat.cs:322-327 | the code's rounding to k places lies from half of 10^(-k) below the number to less than 2 · 10^(-k) above it |
| RoundingSpec.NonnegativeAgree | DecFloat/DecFloat.cs:329-338 | on a value that is not negative, the code's rounding equals rounding half away from zero |
| DecimalLog.ConstantValues | DecFloat/DecFloat.cs:9-12 | Zero prints "0"; One, Two and Half are tidy and stand for 1, 2 and 0.5 |
| DecimalLog.Positive | DecFloat/DecFloat.cs:238-239 | a canonical value is positive exactly when it has limbs and no minus sign; then it is tidy |
| DecimalLog.Order | DecFloat/DecFloat.cs:315-320 | Compare as Log2 reads it: >= 0 means a >= b, <= 0 means a <= b. On tidy values it never fails, is 0 exactly on equality and negative exactly when a < b. |
| DecimalLog.TimesHalf | DecFloat/DecFloat.cs:244 | num.Mul(Half) on a positive tidy value is a positive tidy half of it |
| DecimalLog.TimesTwo | DecFloat/DecFloat.cs:249 | num.Mul(Two) doubles the magnitude at the same places |
| DecimalLog.Plus | DecFloat/DecFloat.cs:245 | exp.Add on tidy values never fails and is tidy and exact |
| DecimalLog.Minus | DecFloat/DecFloat.cs:250 | exp.Sub(One) on tidy values never fails and is tidy and exact |
| DecimalLog.Square | DecFloat/DecFloat.cs:258 | num.Mul(num) is the square and canonical. It is tidy for a tidy num, and positive for a positive one. |
| DecimalLog.HalveTo | DecFloat/DecFloat.cs:262 | num.Div(Two, 2p) of a positive value is nonnegative with places >= 0. It is positive and tidy when 2p >= 1. It is tidy for a num of at least 2, even with no digits, because the quotient's first digit is at place 1 or higher. |
| DecimalLog.HalveBelowTwo | DecFloat/DecFloat.cs:242-246 | the halving loop ends. x = num · 2^e with num < 2, num >= 1 when any halving happened, and exp stands for e. |
| DecimalLog.DoubleToOne | DecFloat/DecFloat.cs:247-251 | the doubling loop ends with 1 <= num < 2. The number num · 2^e is unchanged and exp stands for e. |
| DecimalLog.Above | DecFloat/DecFloat.cs:255 | fract.Compare(limit) > 0 exactly when fract > 10^(-q) |
| DecimalLog.NextBit | DecFloat/DecFloat.cs:256-263 | one pass halves fract to 2^-(n+1). It keeps num tidy, and positive when p >= 1, and keeps e <= exp <= e + 1 - fract. |
| DecimalLog.Bits | DecFloat/DecFloat.cs:252-264 | the fraction loop ends for every p, with no failing comparison, and its exp lies in [e, e + 1) |
| DecimalLog.LogBits | DecFloat/DecFloat.cs:238-264 | non-positive input fails with the code's message. Otherwise e is the whole part of log2(x), with 2^e <= x < 2^(e+1). The result is tidy and lies in [e, e + 1). It is exactly e, returned before the fraction loop, exactly when x = 2^e. |
| DecimalLog.Log2 | DecFloat/DecFloat.cs:236-266 | non-positive input fails with the code's message. Every positive x gives a result, and an exact power gives e. Otherwise the result is Round(p) as written of the loop's bits in [e, e + 1), with p places when bits has more. It lies in [e - 10^(-p)/2, e + 1 + 2 · 10^(-p)), and within 10^(-p)/2 above e + 1 when e >= 0. |
| DecimalLog.Log2HalfAway | DecFloat/DecFloat.cs:236-266 | Log2 with the corrected rounding: the same failure and exact-power cases, and every result within half of 10^(-p) of [e, e + 1] |
| DecimalLog.Log2RoundExample | DecFloat/DecFloat.cs:265 | for x = 0.7 (e = -1), the hand-traced bits -0.75 round to 1 as written, outside [e, e + 1], and to -1 half away from zero |
| LogSpec.Bracket | DecFloat/DecFloat.cs:247-254 | x = num · 2^e with 1 <= num < 2 puts x in [2^e, 2^(e+1)), and x = 2^e exactly when num = 1 |
| LogSpec.UnitExponent | DecFloat/DecFloat.cs:247-254 | 2^0 is the only power of two in [1, 2), so the exponent e is unique |
| LogSpec.HalvingRoom | DecFloat/DecFloat.cs:242-246 | while num >= 2 the halving count stays below a bound fixed by x |
| LogSpec.BelowOne | DecFloat/DecFloat.cs:247-251 | a positive num below one has places, and its magnitude is below 10^dp, which bounds the doublings |
| LogSpec.FractRoom | DecFloat/DecFloat.cs:255 | while fract = 2^(-n) is above 10^(-q), q > 0 and n < 10^q, so the fraction loop ends |
| LogSpec.BitStep | DecFloat/DecFloat.cs:257-263 | adding the halved fract or not keeps e <= exp <= e + 1 - fract |

## Left out

- Clone (DecFloat/DecFloat.cs:340-345) is not modelled: values are immutable sequences here, so a copy is the value itself.
- The raw constructor `DecFloat(bool, byte[], int)` is the datatype's constructor.
- Exceptions are `Result.Failure` with the code's message. `Array.Resize`/`Array.Copy` are modelled by the contents they leave, and a resized array by `fresh`.
- `dp`, `rdp`, digit counts and `precisionDigits` are unbounded integers; 32-bit overflow of `int` is not modelled.
- Conversion.Parse: requires a numeral, an optional '-' then digits and points. The code subtracts '0' from any character without checking it.
- DecimalDivision.Div: requires canonical nonzero magnitudes. With exactly one empty magnitude the scaling loops never end. With a zero top limb the length-first Compare misjudges the scaling. With both magnitudes empty the code does end. Neither scaling loop runs, every multiple is empty, and the first digit step writes "10" and stops. So for equal places and maxDigits >= 1, 0 / 0 gives 1.0 rather than an error. The model does not cover this case.
- DecimalArith.Compare: for operands that are not tidy it promises only what a success means, not that there is one. Add can fail there, as Findings shows.
- DecimalLog.Log2: requires a canonical magnitude. A zero written with one zero limb passes the code's guard (Sub returns it unchanged and its length is 1), and the doubling loop then never ends.
- DecimalLog.Log2: states the bracket [2^e, 2^(e+1)) and bounds the result around [e, e + 1]. It claims nothing on how many digits of log2(x) are correct; that accuracy is not modelled.

## Findings

| source | as written | input that shows it | evidently intended | confidence | as-written member | corrected member |
|---|---|---|---|---|---|---|
| DecFloat/DecFloat.cs:61-62 | the zero test compares the text with "0". A zero with decimal places prints as ".0" or "-.0", so it is aligned like a number. Its empty magnitude is scaled to zero limbs longer than the other operand's, the length-first Compare ranks it larger, and Sub throws "unexpected borrow". | `new DecFloat("0.0000001").Add(new DecFloat("-0.0"))` | adding a zero returns the other operand | not executed | DecimalArith.LostZeroExample | DecimalArith.AddCorrected |
| DecFloat/DecFloat.cs:335-336 | Round() adds One whenever the first digit after the point is 5 or more. For a negative value that moves towards zero. | `new DecFloat("-2.7").Round()` gives -1 | round half away from zero: -3 | not executed | RoundingSpec.NegativeRoundExample | DecimalRounding.RoundHalfAway |
| DecFloat/DecFloat.cs:265 | Log2 rounds exp with Round(p), so for x < 1, whose exp is negative, the result lands two units of 10^(-p) above the half-away rounding of exp, which is 1.5 to under 2 units of 10^(-p) above exp itself. | `new DecFloat("0.7").Log2(0)`: e = -1 and the loop leaves -0.75, which Round() turns into 1 | -1, the logarithm -0.51 rounded to 0 places | not executed | DecimalLog.Log2RoundExample | DecimalLog.Log2HalfAway |

=== FILE: arith.dfy ===
/**
 * Arithmetic on DecFloat values: Mul, Add and Sub (DecFloat/DecFloat.cs:56-77,
 * 118-134) and the three-way comparison Compare(DecFloat) (DecFloat/DecFloat.cs:315-320).
 */
module DecimalArith {
  import opened Powers
  import opened Limbs
  import opened DecimalText
  import opened DecimalFloat
  import opened Conversion

  // ---------------------------------------------------------------------------
  // Multiplication
  // ---------------------------------------------------------------------------

  lemma LowBound(s: seq<byte>, i: nat)
    ensures Low(s, i) < Pow(256, i)
  {
    ValBound(s[..Min(i, |s|)]);
    PowMonotone(256, Min(i, |s|), i);
  }

  lemma MulLess(x: nat, xs: nat, y: nat, ys: nat)
    requires x < xs && y < ys
    ensures x * y < xs * ys
  {
    assert x * y <= x * ys by {
      assert x * ys - x * y == x * (ys - y);
    }
    assert xs * ys - x * ys == (xs - x) * ys;
  }

  lemma MulStep(v: int, lo: int, bi: int, p: int, shifted: int)
    requires shifted == v * bi * p
    ensures v * lo + shifted == v * (lo + bi * p)
  {
  }

  /** One row of the schoolbook product: the accumulator takes in the next limb's partial product. */
  lemma ProductRow(anum: seq<byte>, bnum: seq<byte>, i: nat, acc: seq<byte>, row: seq<byte>, acc2: seq<byte>)
    requires i < |bnum|
    requires Val(acc) == Val(anum) * Low(bnum, i) && |acc| <= |anum| + i
    requires Val(row) == Val(anum) * bnum[i] * Pow(256, i) && |row| <= |anum| + i + 1
    requires Val(acc2) == Val(acc) + Val(row)
    requires |acc2| == if Val(acc) + Val(row) < Pow(256, Max(|acc|, |row|)) then Max(|acc|, |row|) else Max(|acc|, |row|) + 1
    ensures Val(acc2) == Val(anum) * Low(bnum, i + 1) && |acc2| <= |anum| + i + 1
  {
    LowStep(bnum, i);
    MulStep(Val(anum), Low(bnum, i), bnum[i], Pow(256, i), Val(row));
    if Max(|acc|, |row|) == |anum| + i + 1 {
      ValBound(anum);
      LowBound(bnum, i + 1);
      MulLess(Val(anum), Pow(256, |anum|), Low(bnum, i + 1), Pow(256, i + 1));
      PowAdd(256, |anum|, i + 1);
    }
  }

  lemma SignMul(na: bool, nb: bool, va: int, vb: int, p: int)
    requires p == va * vb
    ensures (if na then -va else va) * (if nb then -vb else vb) == (if na != nb then -p else p)
  {
    if na && nb {
      assert (-va) * (-vb) == va * vb;
    } else if na {
      assert (-va) * vb == -(va * vb);
    } else if nb {
      assert va * (-vb) == -(va * vb);
    }
  }

  lemma SignedProduct(a: DecFloat, b: DecFloat, r: DecFloat)
    requires r.neg == (a.neg != b.neg) && Val(r.num) == Val(a.num) * Val(b.num)
    ensures SignedVal(r) == SignedVal(a) * SignedVal(b)
  {
    SignMul(a.neg, b.neg, Val(a.num), Val(b.num), Val(r.num));
  }

  lemma ScaledProduct(va: real, vb: real, vr: real, x: int, y: int, z: int, ea: int, eb: int, er: int)
    requires Scaled(va, x, ea) && Scaled(vb, y, eb) && Scaled(vr, z, er)
    requires z == x * y && er == ea + eb
    ensures vr == va * vb
  {
    Scale10Sum(ea, eb, er);
    assert z as real == x as real * y as real;
  }

  /** Signs multiply, and so do the numbers when the places add up. */
  lemma ProductValue(a: DecFloat, b: DecFloat, r: DecFloat)
    requires r.neg == (a.neg != b.neg) && r.dp == a.dp + b.dp
    requires Val(r.num) == Val(a.num) * Val(b.num)
    ensures Value(r) == Value(a) * Value(b)
  {
    SignedProduct(a, b, r);
    ProductOfSigned(a, b, r);
  }

  lemma ProductOfSigned(a: DecFloat, b: DecFloat, r: DecFloat)
    requires SignedVal(r) == SignedVal(a) * SignedVal(b) && r.dp == a.dp + b.dp
    ensures Value(r) == Value(a) * Value(b)
  {
    ValueIs(a, SignedVal(a));
    ValueIs(b, SignedVal(b));
    ValueIs(r, SignedVal(r));
    ProductScaled(a, b, r, SignedVal(a), SignedVal(b), SignedVal(r));
  }

  lemma ProductScaled(a: DecFloat, b: DecFloat, r: DecFloat, x: int, y: int, z: int)
    requires Scaled(Value(a), x, -a.dp) && Scaled(Value(b), y, -b.dp) && Scaled(Value(r), z, -r.dp)
    requires z == x * y && r.dp == a.dp + b.dp
    ensures Value(r) == Value(a) * Value(b)
  {
    ScaledProduct(Value(a), Value(b), Value(r), x, y, z, -a.dp, -b.dp, -r.dp);
  }

  /**
   * The schoolbook product: one partial product per limb of b, shifted up by its
   * position and added in; signs combine and decimal places add.
   */
  method Mul(a: DecFloat, b: DecFloat) returns (r: DecFloat)
    ensures r.neg == (a.neg != b.neg) && r.dp == a.dp + b.dp
    ensures Val(r.num) == Val(a.num) * Val(b.num)
    ensures Value(r) == Value(a) * Value(b)
    ensures |r.num| <= |a.num| + |b.num|
    ensures Canonical(a.num) && |a.num| > 0 && Canonical(b.num) ==> Canonical(r.num)
    ensures |a.num| == 0 ==> |r.num| == Max(|b.num| - 1, 0)
  {
    var acc: seq<byte> := [];
    for i := 0 to |b.num|
      invariant Val(acc) == Val(a.num) * Low(b.num, i) && |acc| <= |a.num| + i
      invariant i == 0 ==> acc == []
      invariant |a.num| == 0 ==> |acc| == Max(i - 1, 0)
      invariant i == |b.num| > 0 && Canonical(a.num) && |a.num| > 0 && Canonical(b.num) ==> Canonical(acc)
    {
      var partial := Limbs.Mul(a.num, b.num[i]);
      var row := partial;
      if i > 0 {
        // Array.Resize, Array.Copy and Array.Clear shift the partial product up i limbs
        row := ZeroLimbs(i) + partial;
      }
      ValShift(i, partial);
      assert row == ZeroLimbs(i) + partial;
      if i == |b.num| - 1 && Canonical(a.num) && |a.num| > 0 && Canonical(b.num) {
        ShiftCanonical(i, partial);
      }
      var acc2 := Limbs.Add(acc, row);
      ProductRow(a.num, b.num, i, acc, row, acc2);
      acc := acc2;
    }
    LowAll(b.num, |b.num|);
    r := DecFloat(a.neg != b.neg, acc, a.dp + b.dp);
    ProductValue(a, b, r);
  }

  // ---------------------------------------------------------------------------
  // Addition and subtraction
  // ---------------------------------------------------------------------------

  /** The power of ten Add parses to align decimal places: "1" followed by k zeros. */
  lemma PowerText(k: nat)
    ensures Numeral("1" + Zeros(k))
    ensures FromText("1" + Zeros(k)) == DecFloat(false, ToLimbs(Pow(10, k)), 0)
  {
    var t := "1" + Zeros(k);
    OneThenZeros(k);
    assert t[0] == '1';
    ReadWhole(false, t);
    assert SignText(false) + t == t;
  }

  /** "1" followed by k zeros reads as 10^k. */
  lemma {:induction false} OneThenZeros(k: nat)
    ensures AllDigits("1" + Zeros(k)) && DigitsVal("1" + Zeros(k)) == Pow(10, k)
  {
    var t := "1" + Zeros(k);
    if k == 0 {
      assert t == ['1'];
      DigitsValSingle('1');
    } else {
      OneThenZeros(k - 1);
      var u := "1" + Zeros(k - 1);
      assert t == u + ['0'];
      assert t[..|t| - 1] == u;
      assert AllDigits(t) by {
        forall i | 0 <= i < |t| ensures IsDigit(t[i]) {
          if i < |u| { assert t[i] == u[i]; }
        }
      }
    }
  }

  /** Rescaling by 10^k keeps the sign and scales the signed magnitude. */
  lemma ScaledBy(x: DecFloat, y: DecFloat, k: nat)
    requires y.neg == x.neg && Val(y.num) == Val(x.num) * Pow(10, k)
    ensures SignedVal(y) == SignedVal(x) * Pow(10, k)
  {
    SignedScale(x, y, Pow(10, k));
  }

  /**
   * x.Mul(new DecFloat("1" + new string('0', k))): the magnitude times 10^k with
   * sign and places kept, so that it reads as x at k more decimal places.
   */
  method ScaleUp(x: DecFloat, k: nat) returns (y: DecFloat)
    ensures y.neg == x.neg && y.dp == x.dp
    ensures Val(y.num) == Val(x.num) * Pow(10, k)
    ensures SignedVal(y) == SignedVal(x) * Pow(10, k)
    ensures Canonical(x.num) && |x.num| > 0 ==> Canonical(y.num)
    ensures |x.num| == 0 ==> |y.num| == Max(|ToLimbs(Pow(10, k))| - 1, 0)
    ensures Val(y.num) == 0 <==> Val(x.num) == 0
  {
    PowerText(k);
    var p := Parse("1" + Zeros(k));
    y := Mul(x, p);
    ScaledBy(x, y, k);
    ZeroProduct(Val(x.num), Pow(10, k));
  }

  lemma ZeroProduct(v: nat, p: nat)
    requires p > 0
    ensures v * p == 0 <==> v == 0
  {
    if v > 0 {
      NoSmaller(v, p);
    }
  }

  /** x stands for a's number written with d decimal places. */
  ghost predicate Aligned(x: DecFloat, a: DecFloat, d: int)
  {
    d >= a.dp && x.neg == a.neg && SignedVal(x) == SignedVal(a) * Pow(10, d - a.dp)
  }

  lemma ScaledSum(va: real, vb: real, vr: real, x: int, y: int, z: int, e: int)
    requires Scaled(va, x, e) && Scaled(vb, y, e) && Scaled(vr, z, e) && z == x + y
    ensures vr == va + vb
  {
    assert z as real == x as real + y as real;
  }

  /** Signed magnitudes aligned to r's places that add up give numbers that add up. */
  lemma SumAt(a: DecFloat, b: DecFloat, r: DecFloat)
    requires r.dp >= a.dp && r.dp >= b.dp
    requires SignedVal(r) == SignedVal(a) * Pow(10, r.dp - a.dp) + SignedVal(b) * Pow(10, r.dp - b.dp)
    ensures Value(r) == Value(a) + Value(b)
  {
    var ma, mb := SignedVal(a) * Pow(10, r.dp - a.dp), SignedVal(b) * Pow(10, r.dp - b.dp);
    ValueAt(a, r.dp, ma);
    ValueAt(b, r.dp, mb);
    ValueIs(r, ma + mb);
    ScaledSum(Value(a), Value(b), Value(r), ma, mb, ma + mb, -r.dp);
  }

  /**
   * Magnitudes aligned to d places whose signed sum is r's signed magnitude: the
   * numbers add up, whether r keeps the d places or is a cancelled zero.
   */
  lemma AlignedSum(a: DecFloat, b: DecFloat, x: DecFloat, y: DecFloat, r: DecFloat, d: int)
    requires Aligned(x, a, d) && Aligned(y, b, d)
    requires SignedVal(r) == SignedVal(x) + SignedVal(y)
    requires r.dp == d || Val(r.num) == 0
    ensures Value(r) == Value(a) + Value(b)
  {
    if r.dp == d {
      SumAt(a, b, r);
    } else {
      var z := DecFloat(false, [], d);
      SumAt(a, b, z);
      ValueZero(z);
      ValueZero(r);
    }
  }

  /** A value that formats as "0" is the number zero. */
  lemma ZeroText(x: DecFloat)
    requires Format(x) == "0"
    ensures Value(x) == 0.0
  {
    FormatZero(x);
    ValueZero(x);
  }

  /**
   * A zero with an empty magnitude and decimal places, facing a nonzero value with
   * more places and the other sign: the zero is rescaled to a magnitude of zero
   * limbs longer than the other one's, so the length comparison picks the wrong
   * operand and the subtraction borrows past the top ("unexpected borrow").
   */
  predicate LostZero(nonzero: DecFloat, zero: DecFloat)
  {
    nonzero.neg != zero.neg && Canonical(nonzero.num) && Val(nonzero.num) > 0
    && |zero.num| == 0 && zero.dp > 0 && nonzero.dp > zero.dp
    && |nonzero.num| < |ToLimbs(Pow(10, nonzero.dp - zero.dp))| - 1
  }

  /** A tidy value that does not format as "0" has a nonzero canonical magnitude. */
  lemma NonzeroTidy(x: DecFloat)
    requires Tidy(x) && Format(x) != "0"
    ensures Val(x.num) > 0 && |x.num| > 0
  {
    FormatZero(x);
    CanonicalZero(x.num);
  }

  /**
   * The operand with fewer decimal places is multiplied by a power of ten so that
   * both magnitudes count units of the larger number of places; the places field
   * itself is left as it was, as the product keeps it.
   */
  method Align(a: DecFloat, b: DecFloat) returns (x: DecFloat, y: DecFloat)
    ensures Aligned(x, a, Max(a.dp, b.dp)) && Aligned(y, b, Max(a.dp, b.dp))
    ensures Val(x.num) == 0 <==> Val(a.num) == 0
    ensures Val(y.num) == 0 <==> Val(b.num) == 0
    ensures Canonical(a.num) && |a.num| > 0 ==> Canonical(x.num)
    ensures Canonical(b.num) && |b.num| > 0 ==> Canonical(y.num)
    ensures LostZero(a, b) ==> |x.num| < |y.num|
    ensures LostZero(b, a) ==> |y.num| < |x.num|
  {
    x, y := a, b;
    if a.dp > b.dp {
      y := Rescaled(a, b);
    } else if a.dp < b.dp {
      x := Rescaled(b, a);
    } else {
      AlignedSelf(a);
      AlignedSelf(b);
    }
  }

  /** b, with fewer places than a, multiplied up to a's places. */
  method Rescaled(a: DecFloat, b: DecFloat) returns (y: DecFloat)
    requires a.dp > b.dp
    ensures Aligned(y, b, a.dp) && Aligned(a, a, a.dp)
    ensures Val(y.num) == 0 <==> Val(b.num) == 0
    ensures Canonical(b.num) && |b.num| > 0 ==> Canonical(y.num)
    ensures LostZero(a, b) ==> |a.num| < |y.num|
    ensures !LostZero(b, a)
  {
    y := ScaleUp(b, a.dp - b.dp);
    AlignedUp(a, b, y, a.dp - b.dp);
  }

  lemma AlignedSelf(a: DecFloat)
    ensures Aligned(a, a, a.dp)
  {
    assert Pow(10, 0) == 1;
  }

  /** The operand with fewer places, b, scaled up to a's places as y. */
  lemma AlignedUp(a: DecFloat, b: DecFloat, y: DecFloat, k: nat)
    requires k == a.dp - b.dp
    requires y.neg == b.neg && SignedVal(y) == SignedVal(b) * Pow(10, k)
    requires |b.num| == 0 ==> |y.num| == Max(|ToLimbs(Pow(10, k))| - 1, 0)
    ensures Aligned(y, b, a.dp) && Aligned(a, a, a.dp)
    ensures LostZero(a, b) ==> |a.num| < |y.num|
    ensures !LostZero(b, a)
  {
    AlignedSelf(a);
  }

  /**
   * The arithmetic on aligned magnitudes: equal signs add; otherwise the operand
   * Compare(byte[], byte[]) judges larger loses the other, and a borrow out of the
   * top limb is reported as an error. Equal magnitudes of opposite signs give Zero.
   */
  method Combine(x: DecFloat, y: DecFloat, dp: int) returns (r: Result<DecFloat>)
    ensures r.Ok? ==> SignedVal(r.value) == SignedVal(x) + SignedVal(y)
    ensures r.Ok? ==> r.value.dp == dp || r.value == Zero
    ensures Canonical(x.num) && Canonical(y.num) && Val(x.num) > 0 && Val(y.num) > 0 ==>
      (r.Ok? && Canonical(r.value.num) && Val(r.value.num) > 0) || r == Ok(Zero)
    ensures x.neg != y.neg && |x.num| < |y.num| && Val(y.num) == 0 < Val(x.num) ==> r.Failure?
    ensures x.neg != y.neg && |y.num| < |x.num| && Val(x.num) == 0 < Val(y.num) ==> r.Failure?
  {
    if x.neg == y.neg {
      var s := Limbs.Add(x.num, y.num);
      return Ok(DecFloat(x.neg, s, dp));
    }
    var cmp := Limbs.Compare(x.num, y.num);
    if cmp == 0 {
      return Ok(Zero);
    }
    var rneg := x.neg != (cmp < 0);
    var d: Option<seq<byte>>;
    if cmp > 0 {
      d := Limbs.Sub(x.num, y.num);
    } else {
      d := Limbs.Sub(y.num, x.num);
    }
    if d.None? {
      return Failure("unexpected borrow");
    }
    r := Ok(DecFloat(rneg, d.value, dp));
  }

  /**
   * Add: returns one operand when the other formats as "0"; otherwise aligns the
   * decimal places and combines the magnitudes at the larger number of places.
   */
  method Add(a: DecFloat, b: DecFloat) returns (r: Result<DecFloat>)
    ensures Format(b) == "0" ==> r == Ok(a)
    ensures Format(b) != "0" && Format(a) == "0" ==> r == Ok(b)
    ensures r.Ok? ==> Value(r.value) == Value(a) + Value(b)
    ensures Tidy(a) && Tidy(b) ==> r.Ok? && Tidy(r.value)
    ensures r.Ok? && Format(a) != "0" && Format(b) != "0" ==> r.value.dp == Max(a.dp, b.dp) || r.value == Zero
    ensures Tidy(a) && Tidy(b) && Format(a) != "0" && Format(b) != "0" && Value(a) + Value(b) == 0.0 ==> r == Ok(Zero)
    ensures LostZero(a, b) || LostZero(b, a) ==> r.Failure?
  {
    FormatZero(a);
    FormatZero(b);
    var sb := ToString(b);
    if sb == "0" {
      ZeroText(b);
      return Ok(a);
    }
    var sa := ToString(a);
    if sa == "0" {
      ZeroText(a);
      return Ok(b);
    }
    if Tidy(a) && Tidy(b) {
      NonzeroTidy(a);
      NonzeroTidy(b);
    }
    var x, y := Align(a, b);
    var dp := Max(a.dp, b.dp);
    if LostZero(a, b) || LostZero(b, a) {
      assert Val(x.num) == 0 || Val(y.num) == 0;
    }
    r := Combine(x, y, dp);
    if r.Ok? {
      AlignedSum(a, b, x, y, r.value, dp);
      ValueSign(r.value);
    }
  }

  /**
   * 0.0000001 + (-.0): the zero DecFloat(true, [], 1) prints as "-.0", not "0", so
   * Add does not return the other operand early, and the sum fails.
   */
  lemma LostZeroExample()
    ensures LostZero(DecFloat(false, [1], 7), DecFloat(true, [], 1))
    ensures Value(DecFloat(true, [], 1)) == 0.0
  {
    assert Val([1]) == 1;
    assert Pow(10, 6) == 1000000 by {
      assert Pow(10, 3) == 1000;
      PowAdd(10, 3, 3);
    }
    assert ToLimbs(1000000) == [64, 66, 15];
  }

  /**
   * Add as the code evidently intends it: the early return tests the magnitude for
   * zero instead of the text for "0", so a zero with decimal places is absorbed and
   * the sum of canonical values never fails.
   */
  method AddCorrected(a: DecFloat, b: DecFloat) returns (r: DecFloat)
    requires Canonical(a.num) && Canonical(b.num)
    ensures Value(r) == Value(a) + Value(b)
    ensures Canonical(r.num)
    ensures Tidy(a) && Tidy(b) ==> Tidy(r)
  {
    CanonicalZero(a.num);
    CanonicalZero(b.num);
    if |b.num| == 0 {
      ValueZero(b);
      return a;
    }
    if |a.num| == 0 {
      ValueZero(a);
      return b;
    }
    var x, y := Align(a, b);
    var dp := Max(a.dp, b.dp);
    var s := Combine(x, y, dp);
    r := s.value;
    AlignedSum(a, b, x, y, r, dp);
  }

  /** Sub: adds the operand with its sign flipped. */
  method Sub(a: DecFloat, b: DecFloat) returns (r: Result<DecFloat>)
    ensures r.Ok? ==> Value(r.value) == Value(a) - Value(b)
    ensures Tidy(a) && Tidy(b) ==> r.Ok? && Tidy(r.value)
    ensures Format(b) == "0" ==> r == Ok(a)
  {
    r := Add(a, Negate(b));
    assert Format(Negate(b)) == "0" <==> Format(b) == "0" by {
      FormatZero(b);
      FormatZero(Negate(b));
    }
  }

  /**
   * Compare: the sign of a - b, read off Sub's result: 0 for an empty magnitude,
   * otherwise -1 or 1 by its sign.
   */
  method Compare(a: DecFloat, b: DecFloat) returns (r: Result<int>)
    ensures r.Ok? ==> -1 <= r.value <= 1
    ensures r.Ok? && r.value == 0 ==> Value(a) == Value(b)
    ensures r.Ok? && Value(a) < Value(b) ==> r.value == -1
    ensures r.Ok? && Value(a) > Value(b) ==> r.value == 1
    ensures Tidy(a) && Tidy(b) ==> r.Ok? && (r.value == 0 <==> Value(a) == Value(b))
    ensures Format(b) == "0" ==> r == Ok(if |a.num| == 0 then 0 else if a.neg then -1 else 1)
  {
    var x := Sub(a, b);
    if x.Failure? {
      return Failure(x.error);
    }
    var d := x.value;
    ValueSign(d);
    if |d.num| == 0 {
      ValueZero(d);
      return Ok(0);
    }
    if Tidy(a) && Tidy(b) && Value(a) == Value(b) {
      CanonicalZero(d.num);
    }
    r := Ok(if d.neg then -1 else 1);
  }
}

=== FILE: conversion.dfy ===
/**
 * Text conversion of DecFloat values: the string constructor with Dec2Bin and
 * AddDigit (DecFloat/DecFloat.cs:14-54) and ToString with LeastSignificantDigit
 * (DecFloat/DecFloat.cs:268-301).
 */
module Conversion {
  import opened Powers
  import opened Limbs
  import opened DecimalText
  import opened DecimalFloat

  // ---------------------------------------------------------------------------
  // Formatting
  // ---------------------------------------------------------------------------

  /** The digits the formatting loop peels off the magnitude: none at all for an empty one. */
  function DigitText(num: seq<byte>): string
  {
    if |num| == 0 then "" else Digits(Val(num))
  }

  /** Left-pads with zeros to at least k characters. */
  function Pad(s: string, k: nat): (p: string)
    ensures |p| == Max(|s|, k)
  {
    if k > |s| then Zeros(k - |s|) + s else s
  }

  /** Inserts the point k characters from the right (the `s.Insert(s.Length - dp, ".")`). */
  function InsertPoint(p: string, k: nat): string
    requires k <= |p|
  {
    p[..|p| - k] + "." + p[|p| - k..]
  }

  /** The digits with the point placed for dp decimal places, or zeros appended for dp < 0. */
  function Placed(digits: string, dp: int): string
  {
    if dp == 0 then digits
    else if dp < 0 then digits + Zeros(-dp)
    else InsertPoint(Pad(digits, dp), dp)
  }

  function SignText(neg: bool): string
  {
    if neg then "-" else ""
  }

  /** Trims leading zeros, writes an empty result as "0" and otherwise adds the sign. */
  function Layout(digits: string, neg: bool, dp: int): string
  {
    var t := TrimLeadingZeros(Placed(digits, dp));
    if t == "" then "0" else SignText(neg) + t
  }

  /** The text ToString produces. */
  function Format(x: DecFloat): string
  {
    Layout(DigitText(x.num), x.neg, x.dp)
  }

  /**
   * ToString: peels decimal digits off a copy of the magnitude until it is empty,
   * then places the point, trims and signs.
   */
  method ToString(x: DecFloat) returns (s: string)
    ensures s == Format(x)
  {
    s := "";
    var n := new byte[|x.num|](i requires 0 <= i < |x.num| => x.num[i]);
    assert n[..] == x.num;
    while n.Length > 0
      invariant fresh(n)
      invariant n.Length > 0 ==> Digits(Val(n[..])) + s == DigitText(x.num)
      invariant n.Length == 0 ==> s == DigitText(x.num)
      decreases Val(n[..]), n.Length
    {
      ghost var v := Val(n[..]);
      var d, nn := LeastSignificantDigit(n);
      CanonicalZero(nn[..]);
      if nn.Length > 0 {
        assert Digits(v) == Digits(v / 10) + [DigitChar(d)];
        assert Digits(Val(nn[..])) + ([DigitChar(d)] + s) == Digits(v) + s;
      } else {
        assert Digits(v) == [DigitChar(d)];
      }
      n := nn;
      s := [DigitChar(d)] + s;
    }
    s := Layout(s, x.neg, x.dp);
  }

  // ---------------------------------------------------------------------------
  // Parsing
  // ---------------------------------------------------------------------------

  /** The text after an optional leading minus sign. */
  function Unsigned(s: string): string
  {
    if |s| > 0 && s[0] == '-' then s[1..] else s
  }

  /** The part before the first point (the first piece of `Split('.')`). */
  function BeforePoint(u: string): (r: string)
    ensures |r| <= |u| && r == u[..|r|]
    ensures forall i :: 0 <= i < |r| ==> r[i] != '.'
    ensures |r| < |u| ==> u[|r|] == '.'
  {
    if |u| == 0 || u[0] == '.' then "" else [u[0]] + BeforePoint(u[1..])
  }

  /** Everything after the first point, or "" when there is none. */
  function AfterPoint(u: string): string
  {
    var b := BeforePoint(u);
    if |b| == |u| then "" else u[|b| + 1..]
  }

  /** The integer digits: `ss[0]`. */
  function IntText(s: string): string
  {
    BeforePoint(Unsigned(s))
  }

  /** The fraction digits: `ss[1]` when there is a point, else "". */
  function FracText(s: string): string
  {
    BeforePoint(AfterPoint(Unsigned(s)))
  }

  predicate DigitsOrPoints(u: string)
  {
    forall i :: 0 <= i < |u| ==> IsDigit(u[i]) || u[i] == '.'
  }

  /** What the parser accepts: an optional minus sign, then digits and points. */
  predicate Numeral(s: string)
  {
    DigitsOrPoints(Unsigned(s))
  }

  lemma PointFree(u: string)
    requires DigitsOrPoints(u)
    ensures AllDigits(BeforePoint(u)) && DigitsOrPoints(AfterPoint(u))
  {
    var b := BeforePoint(u);
    forall i | 0 <= i < |b|
      ensures IsDigit(b[i])
    {
      assert b[i] == u[i];
    }
    if |b| < |u| {
      var a := AfterPoint(u);
      forall i | 0 <= i < |a|
        ensures IsDigit(a[i]) || a[i] == '.'
      {
        assert a[i] == u[|b| + 1 + i];
      }
    }
  }

  lemma NumeralParts(s: string)
    requires Numeral(s)
    ensures AllDigits(IntText(s)) && AllDigits(FracText(s))
    ensures AllDigits(TrimLeadingZeros(IntText(s)) + FracText(s))
  {
    PointFree(Unsigned(s));
    PointFree(AfterPoint(Unsigned(s)));
    TrimValue(IntText(s));
    DigitsValAppend(TrimLeadingZeros(IntText(s)), FracText(s));
  }

  /** The digit string handed to Dec2Bin: `bdp + adp`. */
  function ParsedDigits(s: string): (d: string)
    requires Numeral(s)
    ensures AllDigits(d)
  {
    NumeralParts(s);
    TrimLeadingZeros(IntText(s)) + FracText(s)
  }

  /** The value the string constructor builds. */
  function FromText(s: string): DecFloat
    requires Numeral(s)
  {
    DecFloat(|s| > 0 && s[0] == '-', ToLimbs(DigitsVal(ParsedDigits(s))), |FracText(s)|)
  }

  /** Dec2Bin: folds the digits in, most significant first, with AddDigit. */
  method Dec2Bin(s: string) returns (r: seq<byte>)
    requires AllDigits(s)
    ensures Canonical(r) && Val(r) == DigitsVal(s)
  {
    var b := new byte[0];
    for i := 0 to |s|
      invariant fresh(b)
      invariant Canonical(b[..]) && Val(b[..]) == DigitsVal(s[..i])
    {
      assert s[..i + 1][..i] == s[..i];
      b := AddDigit(DigitOf(s[i]), b);
    }
    assert s[..|s|] == s;
    r := b[..];
  }

  /**
   * The string constructor: sign, integer digits with leading zeros trimmed, and
   * the fraction digits, whose count becomes dp.
   */
  method Parse(s: string) returns (x: DecFloat)
    requires Numeral(s)
    ensures x.neg == (|s| > 0 && s[0] == '-') && x.dp == |FracText(s)|
    ensures Canonical(x.num) && Val(x.num) == DigitsVal(ParsedDigits(s))
    ensures x == FromText(s)
  {
    var neg := |s| > 0 && s[0] == '-';
    var u := if neg then s[1..] else s;
    var bdp := TrimLeadingZeros(BeforePoint(u));
    var adp := BeforePoint(AfterPoint(u));
    assert bdp + adp == ParsedDigits(s);
    var num := Dec2Bin(bdp + adp);
    x := DecFloat(neg, num, |adp|);
    CanonicalUnique(num, ToLimbs(DigitsVal(ParsedDigits(s))));
  }

  // ---------------------------------------------------------------------------
  // Properties of the text forms
  // ---------------------------------------------------------------------------

  lemma DigitTextFacts(num: seq<byte>)
    ensures AllDigits(DigitText(num)) && DigitsVal(DigitText(num)) == Val(num)
    ensures Val(num) > 0 ==> DigitText(num) == Digits(Val(num)) && DigitText(num)[0] != '0'
    ensures Val(num) == 0 ==> forall i :: 0 <= i < |DigitText(num)| ==> DigitText(num)[i] == '0'
  {
    if |num| > 0 {
      DigitsValue(Val(num));
    }
  }

  lemma ConcatAssoc(a: string, b: string, c: string)
    ensures a + b + c == a + (b + c)
  {
  }

  /** The magnitude's digits, padded to k places, still read as the magnitude. */
  lemma PaddedDigits(num: seq<byte>, k: nat)
    ensures AllDigits(Pad(DigitText(num), k)) && DigitsVal(Pad(DigitText(num), k)) == Val(num)
  {
    var d := DigitText(num);
    DigitTextFacts(num);
    if k > |d| {
      ZerosValue(k - |d|, d);
    }
  }

  lemma PlacedPoint(d: string, dp: int, h: string, l: string)
    requires dp > 0 && |Pad(d, dp)| - dp == |h| && Pad(d, dp) == h + l
    ensures Placed(d, dp) == h + ("." + l)
  {
    var p := Pad(d, dp);
    assert p[..|h|] == h && p[|h|..] == l;
  }

  /**
   * With decimal places, the text is the sign, the integer digits without leading
   * zeros, the point, and exactly dp fraction digits.
   */
  lemma FormatWithPoint(x: DecFloat)
    requires x.dp > 0
    ensures var p := Pad(DigitText(x.num), x.dp);
            var m := |p| - x.dp;
            m >= 0 && Format(x) == SignText(x.neg) + (TrimLeadingZeros(p[..m]) + ("." + p[m..]))
  {
    var p := Pad(DigitText(x.num), x.dp);
    var m := |p| - x.dp;
    var h, l := p[..m], p[m..];
    assert p == h + l;
    PlacedPoint(DigitText(x.num), x.dp, h, l);
    TrimAppend(h, "." + l);
  }

  /** The integer digits hold the magnitude divided by 10^dp, the fraction digits the rest. */
  lemma PointDigits(x: DecFloat)
    requires x.dp > 0
    ensures var p := Pad(DigitText(x.num), x.dp);
            var m := |p| - x.dp;
            m >= 0 && AllDigits(p) && p == p[..m] + p[m..]
            && AllDigits(p[..m]) && AllDigits(p[m..]) && |p[m..]| == x.dp
            && DigitsVal(p[..m]) == Val(x.num) / Pow(10, x.dp)
            && DigitsVal(p[m..]) == Val(x.num) % Pow(10, x.dp)
  {
    var p := Pad(DigitText(x.num), x.dp);
    PaddedDigits(x.num, x.dp);
    DigitsSplit(p, x.dp);
    assert p == p[..|p| - x.dp] + p[|p| - x.dp..];
  }

  /** Without decimal places, the text is "0" or the sign, the digits and -dp zeros. */
  lemma FormatWithoutPoint(x: DecFloat)
    requires x.dp <= 0
    ensures Format(x) == if Val(x.num) == 0 then "0"
                         else SignText(x.neg) + (Digits(Val(x.num)) + Zeros(-x.dp))
  {
    var d := DigitText(x.num);
    DigitTextFacts(x.num);
    var placed := Placed(d, x.dp);
    assert placed == d + Zeros(-x.dp);
    if Val(x.num) == 0 {
      TrimEmpty(placed);
    } else {
      assert placed[0] == d[0];
    }
  }

  lemma PointNotZero(x: DecFloat)
    requires x.dp > 0
    ensures Format(x) != "0"
  {
    LayoutWithPoint(DigitText(x.num), x.neg, x.dp);
  }

  lemma LayoutWithPoint(digits: string, neg: bool, dp: int)
    requires dp > 0
    ensures Layout(digits, neg, dp) != "0"
  {
    var p := Pad(digits, dp);
    var placed := InsertPoint(p, dp);
    assert Placed(digits, dp) == placed;
    assert placed[|p| - dp] == '.';
    KeepsPoint(placed, |p| - dp);
    SignedNotZero(neg, TrimLeadingZeros(placed));
  }

  /** Trimming leading zeros never removes a point. */
  lemma KeepsPoint(s: string, k: nat)
    requires k < |s| && s[k] == '.'
    ensures TrimLeadingZeros(s) != "" && TrimLeadingZeros(s) != "0"
  {
    var t := TrimLeadingZeros(s);
    var cut := |s| - |t|;
    assert k >= cut;
    assert t[k - cut] == '.';
  }

  lemma SignedNotZero(neg: bool, t: string)
    requires t != "" && t != "0"
    ensures SignText(neg) + t != "0"
  {
    if neg {
      assert (SignText(neg) + t)[0] == '-';
    } else {
      assert SignText(neg) + t == t;
    }
  }

  lemma WholeNotZero(x: DecFloat)
    requires x.dp <= 0 && Val(x.num) != 0
    ensures Format(x) != "0"
  {
    FormatWithoutPoint(x);
    DigitsValue(Val(x.num));
    var f := Format(x);
    var d := Digits(Val(x.num));
    assert f[0] == (if x.neg then '-' else d[0]);
  }

  /** ToString gives "0" exactly for a zero magnitude with no decimal places (the zero test of Add). */
  lemma FormatZero(x: DecFloat)
    ensures Format(x) == "0" <==> Val(x.num) == 0 && x.dp <= 0
  {
    if x.dp > 0 {
      PointNotZero(x);
    } else if Val(x.num) != 0 {
      WholeNotZero(x);
    } else {
      FormatWithoutPoint(x);
    }
  }

  /** The text a numeral formats back to, as the parser reads it. */
  function CanonicalText(s: string): string
    requires Numeral(s)
  {
    var frac := FracText(s);
    var t := TrimLeadingZeros(IntText(s)) + (if frac == "" then "" else "." + frac);
    if t == "" then "0" else SignText(|s| > 0 && s[0] == '-') + t
  }

  lemma TrimIdle(s: string)
    requires |s| > 0 && s[0] != '0'
    ensures TrimLeadingZeros(s) == s
  {
  }

  lemma LayoutOf(d: string, neg: bool, dp: int, t: string)
    requires TrimLeadingZeros(Placed(d, dp)) == t
    ensures Layout(d, neg, dp) == if t == "" then "0" else SignText(neg) + t
  {
  }

  /** The parse of a numeral, in the terms FormatOfParse needs. */
  lemma ParsedText(s: string)
    requires Numeral(s)
    ensures var i, f := TrimLeadingZeros(IntText(s)), FracText(s);
            AllDigits(i) && AllDigits(f) && (|i| > 0 ==> i[0] != '0')
            && DigitText(FromText(s).num) == TrimLeadingZeros(i + f)
            && FromText(s).dp == |f| && FromText(s).neg == (|s| > 0 && s[0] == '-')
  {
    NumeralParts(s);
    var i, f := TrimLeadingZeros(IntText(s)), FracText(s);
    var v := DigitsVal(i + f);
    TrimValue(IntText(s));
    CanonicalZero(ToLimbs(v));
    TrimmedDigits(i + f);
  }

  lemma FormatOfParts(d: string, neg: bool, i: string, f: string)
    requires AllDigits(i) && AllDigits(f) && (|i| > 0 ==> i[0] != '0')
    requires d == TrimLeadingZeros(i + f)
    ensures var t := i + (if f == "" then "" else "." + f);
            Layout(d, neg, |f|) == if t == "" then "0" else SignText(neg) + t
  {
    if f == "" {
      assert i + f == i;
      LayoutOf(d, neg, |f|, i);
      assert i + "" == i;
    } else if i != "" {
      FormatOfInt(d, neg, i, f);
    } else {
      assert i + f == f && i + ("." + f) == "." + f;
      FormatOfFrac(d, neg, f);
    }
  }

  lemma FormatOfInt(d: string, neg: bool, i: string, f: string)
    requires AllDigits(i) && AllDigits(f) && |i| > 0 && i[0] != '0' && f != ""
    requires d == TrimLeadingZeros(i + f)
    ensures Layout(d, neg, |f|) == SignText(neg) + (i + ("." + f))
  {
    assert (i + f)[0] == i[0];
    TrimIdle(i + f);
    PlacedPoint(d, |f|, i, f);
    var t := i + ("." + f);
    assert t[0] == i[0];
    TrimIdle(t);
    LayoutOf(d, neg, |f|, t);
  }

  /** Padding a trimmed string back to its length restores it. */
  lemma PadTrimmed(f: string)
    ensures Pad(TrimLeadingZeros(f), |f|) == f
  {
    TrimSplit(f);
  }

  lemma FormatOfFrac(d: string, neg: bool, f: string)
    requires AllDigits(f) && f != ""
    requires d == TrimLeadingZeros(f)
    ensures Layout(d, neg, |f|) == SignText(neg) + ("." + f)
  {
    PadTrimmed(f);
    assert "" + f == f;
    PlacedPoint(d, |f|, "", f);
    var t := "." + f;
    assert "" + t == t;
    TrimIdle(t);
    LayoutOf(d, neg, |f|, t);
  }

  /**
   * Parsing then formatting gives the numeral back with the integer part's leading
   * zeros trimmed, "0" for an empty result, and the sign kept otherwise
   * ("0.0000893473" formats as ".0000893473").
   */
  lemma FormatOfParse(s: string)
    requires Numeral(s)
    ensures Format(FromText(s)) == CanonicalText(s)
  {
    ParsedText(s);
    var x := FromText(s);
    FormatOfParts(DigitText(x.num), x.neg, TrimLeadingZeros(IntText(s)), FracText(s));
  }

  lemma {:induction false} BeforePointOf(a: string, b: string)
    requires AllDigits(a)
    ensures BeforePoint(a + ("." + b)) == a && AfterPoint(a + ("." + b)) == b
  {
    var u := a + ("." + b);
    if |a| > 0 {
      assert u[1..] == a[1..] + ("." + b);
      BeforePointOf(a[1..], b);
      assert a == [a[0]] + a[1..];
    }
    assert u[|a| + 1..] == b;
  }

  lemma {:induction false} BeforePointAll(a: string)
    requires AllDigits(a)
    ensures BeforePoint(a) == a && AfterPoint(a) == ""
  {
    if |a| > 0 {
      BeforePointAll(a[1..]);
      assert a == [a[0]] + a[1..];
    }
  }

  lemma UnsignedOf(neg: bool, u: string)
    requires |u| > 0 && u[0] != '-'
    ensures Unsigned(SignText(neg) + u) == u
    ensures (|SignText(neg) + u| > 0 && (SignText(neg) + u)[0] == '-') == neg
  {
    var s := SignText(neg) + u;
    if neg {
      assert s[1..] == u;
    } else {
      assert s == u;
    }
  }

  lemma TrimNone(a: string)
    requires |a| > 0 ==> a[0] != '0'
    ensures TrimLeadingZeros(a) == a
  {
  }

  lemma PointedChars(a: string, b: string)
    requires AllDigits(a) && AllDigits(b)
    ensures DigitsOrPoints(a + ("." + b))
  {
    var c := "." + b;
    var u := a + c;
    forall j | 0 <= j < |u|
      ensures IsDigit(u[j]) || u[j] == '.'
    {
      if j < |a| {
        assert u[j] == a[j];
      } else if j > |a| {
        assert u[j] == c[j - |a|] == b[j - |a| - 1];
      }
    }
  }

  /** The pieces the parser cuts from a sign, integer digits, a point and fraction digits. */
  lemma PointedParts(neg: bool, a: string, b: string)
    requires AllDigits(a) && AllDigits(b)
    ensures var s := SignText(neg) + (a + ("." + b));
            Numeral(s) && IntText(s) == a && FracText(s) == b && (|s| > 0 && s[0] == '-') == neg
  {
    var u := a + ("." + b);
    assert u[0] == if |a| > 0 then a[0] else '.';
    UnsignedOf(neg, u);
    PointedChars(a, b);
    BeforePointOf(a, b);
    BeforePointAll(b);
  }

  /** Leading zeros of the integer digits do not change the digits' value. */
  lemma TrimmedPlus(a: string, b: string)
    requires AllDigits(a) && AllDigits(b)
    ensures AllDigits(TrimLeadingZeros(a) + b)
    ensures DigitsVal(TrimLeadingZeros(a) + b) == DigitsVal(a + b)
  {
    var t := TrimLeadingZeros(a);
    var k := |a| - |t|;
    TrimSplit(a);
    TrimValue(a);
    ConcatAssoc(Zeros(k), t, b);
    DigitsValAppend(t, b);
    ZerosValue(k, t + b);
  }

  /** Reading a sign, integer digits that may start with zeros, a point and fraction digits. */
  lemma ReadPointedAny(neg: bool, a: string, b: string)
    requires AllDigits(a) && AllDigits(b)
    ensures Numeral(SignText(neg) + (a + ("." + b)))
    ensures FromText(SignText(neg) + (a + ("." + b))) == DecFloat(neg, ToLimbs(DigitsVal(a + b)), |b|)
  {
    PointedParts(neg, a, b);
    TrimmedPlus(a, b);
  }

  lemma ReadPointed(neg: bool, a: string, b: string)
    requires AllDigits(a) && AllDigits(b) && (|a| > 0 ==> a[0] != '0')
    ensures Numeral(SignText(neg) + (a + ("." + b)))
    ensures FromText(SignText(neg) + (a + ("." + b))) == DecFloat(neg, ToLimbs(DigitsVal(a + b)), |b|)
  {
    var u := a + ("." + b);
    assert u[0] == if |a| > 0 then a[0] else '.';
    UnsignedOf(neg, u);
    PointedChars(a, b);
    BeforePointOf(a, b);
    BeforePointAll(b);
    TrimNone(a);
  }

  /** Reading a sign and integer digits with no leading zero. */
  lemma ReadWhole(neg: bool, a: string)
    requires AllDigits(a) && |a| > 0 && a[0] != '0'
    ensures Numeral(SignText(neg) + a)
    ensures FromText(SignText(neg) + a) == DecFloat(neg, ToLimbs(DigitsVal(a)), 0)
  {
    UnsignedOf(neg, a);
    BeforePointAll(a);
    assert BeforePoint("") == "";
    TrimNone(a);
    assert a + "" == a;
  }

  /** A bare sign, or nothing at all, reads as a zero with that sign. */
  lemma ReadEmpty(neg: bool)
    ensures Numeral(SignText(neg))
    ensures FromText(SignText(neg)) == DecFloat(neg, ToLimbs(0), 0)
  {
    var s := SignText(neg);
    assert Unsigned(s) == "";
    assert BeforePoint("") == "" && AfterPoint("") == "";
    assert IntText(s) == "" && FracText(s) == "";
    assert TrimLeadingZeros("") == "";
    assert ParsedDigits(s) == "";
    assert DigitsVal("") == 0;
  }

  lemma ReadZero()
    ensures Numeral("0") && FromText("0") == Zero
  {
    BeforePointAll("0");
    assert BeforePoint("") == "";
    assert TrimLeadingZeros("0") == "";
    assert "" + "" == "";
  }

  lemma ZerosZero(k: nat)
    ensures AllDigits(Zeros(k)) && DigitsVal(Zeros(k)) == 0
  {
    ZerosValue(k, "");
    assert Zeros(k) + "" == Zeros(k);
  }

  lemma SameHead(th: string, h: string, l: string)
    requires AllDigits(th) && AllDigits(h) && AllDigits(l) && DigitsVal(th) == DigitsVal(h)
    ensures AllDigits(th + l) && DigitsVal(th + l) == DigitsVal(h + l)
  {
    DigitsValAppend(th, l);
    DigitsValAppend(h, l);
  }


  lemma SignedScale(x: DecFloat, y: DecFloat, p: nat)
    requires y.neg == x.neg && Val(y.num) == Val(x.num) * p
    ensures SignedVal(y) == SignedVal(x) * p
  {
    var v: int, w: int := Val(x.num), Val(y.num);
    if x.neg {
      NegateProduct(v, p, w);
      assert SignedVal(y) == -w && SignedVal(x) == -v;
    }
  }

  lemma NegateProduct(v: int, p: int, w: int)
    requires w == v * p
    ensures -w == (-v) * p
  {
  }

  /** Trailing zeros written out for negative places leave the number unchanged. */
  lemma WholeValue(x: DecFloat, y: DecFloat)
    requires x.dp <= 0 && y.dp == 0 && y.neg == x.neg
    requires Val(y.num) == Val(x.num) * Pow(10, -x.dp)
    ensures Value(y) == Value(x)
  {
    ValueAligned(x, 0);
    SignedScale(x, y, Pow(10, -x.dp));
  }

  /**
   * Formatting then parsing keeps the number: ToString's text read back by the
   * string constructor denotes the same value, with the same decimal places when
   * there are any.
   */
  lemma ParseOfFormat(x: DecFloat)
    ensures Numeral(Format(x))
    ensures Value(FromText(Format(x))) == Value(x)
    ensures x.dp > 0 ==> FromText(Format(x)) == DecFloat(x.neg, ToLimbs(Val(x.num)), x.dp)
  {
    if x.dp > 0 {
      ParsePointed(x);
    } else {
      ParseWhole(x);
    }
  }

  lemma ParsePointed(x: DecFloat)
    requires x.dp > 0
    ensures Numeral(Format(x))
    ensures FromText(Format(x)) == DecFloat(x.neg, ToLimbs(Val(x.num)), x.dp)
    ensures Value(FromText(Format(x))) == Value(x)
  {
    FormatWithPoint(x);
    PointDigits(x);
    var p := Pad(DigitText(x.num), x.dp);
    var m := |p| - x.dp;
    var h, l := p[..m], p[m..];
    var th := TrimLeadingZeros(h);
    TrimValue(h);
    ReadPointed(x.neg, th, l);
    SameHead(th, h, l);
    PaddedDigits(x.num, x.dp);
    SameValue(x, FromText(Format(x)));
  }

  lemma ParseWhole(x: DecFloat)
    requires x.dp <= 0
    ensures Numeral(Format(x))
    ensures Value(FromText(Format(x))) == Value(x)
  {
    if Val(x.num) == 0 {
      FormatWithoutPoint(x);
      ReadZero();
      ValueZero(x);
      ValueZero(Zero);
    } else {
      ParseDigits(x);
    }
  }

  lemma ParseDigits(x: DecFloat)
    requires x.dp <= 0 && Val(x.num) != 0
    ensures Numeral(Format(x))
    ensures Value(FromText(Format(x))) == Value(x)
  {
    ReadDigits(x);
    WholeValue(x, FromText(Format(x)));
  }

  /** The text of a nonzero whole value reads back with its sign and its trailing zeros multiplied in. */
  lemma ReadDigits(x: DecFloat)
    requires x.dp <= 0 && Val(x.num) != 0
    ensures Numeral(Format(x))
    ensures FromText(Format(x)).neg == x.neg && FromText(Format(x)).dp == 0
    ensures Val(FromText(Format(x)).num) == Val(x.num) * Pow(10, -x.dp)
  {
    var v := Val(x.num);
    FormatWithoutPoint(x);
    var a := Digits(v) + Zeros(-x.dp);
    DigitsThenZeros(v, -x.dp);
    ReadWhole(x.neg, a);
  }

  /** The digits of v followed by k zeros: a numeral without a leading zero, worth v * 10^k. */
  lemma DigitsThenZeros(v: nat, k: nat)
    requires v != 0
    ensures AllDigits(Digits(v) + Zeros(k)) && (Digits(v) + Zeros(k))[0] != '0'
    ensures DigitsVal(Digits(v) + Zeros(k)) == v * Pow(10, k)
  {
    var d := Digits(v);
    DigitsValue(v);
    ZerosZero(k);
    DigitsValAppend(d, Zeros(k));
    assert (d + Zeros(k))[0] == d[0];
  }
}

=== FILE: decfloat.dfy ===
/**
 * The DecFloat value: a sign, a base-256 magnitude and a count of decimal places.
 * It denotes (-1)^neg * Val(num) * 10^(-dp); dp may be negative, meaning trailing
 * zeros before the point.
 */
module DecimalFloat {
  import opened Powers
  import opened Limbs

  datatype DecFloat = DecFloat(neg: bool, num: seq<byte>, dp: int)

  /** The outcome of an operation that the C# code can abort with an exception. */
  datatype Result<T> = Ok(value: T) | Failure(error: string)

  const Zero := DecFloat(false, [], 0)
  const One := DecFloat(false, [1], 0)
  const Two := DecFloat(false, [2], 0)
  const Half := DecFloat(false, [5], 1)

  /** The signed magnitude, before the decimal point is placed. */
  function SignedVal(x: DecFloat): int
  {
    var v: int := Val(x.num);
    if x.neg then -v else v
  }

  /** The number x stands for. */
  ghost function Value(x: DecFloat): real
  {
    SignedVal(x) as real * Scale10(-x.dp)
  }

  /** The size of the number x stands for, its sign dropped. */
  ghost function Magnitude(x: DecFloat): real
  {
    Val(x.num) as real * Scale10(-x.dp)
  }

  lemma MagnitudeSign(x: DecFloat)
    ensures Magnitude(x) >= 0.0
    ensures Value(x) == if x.neg then -Magnitude(x) else Magnitude(x)
  {
    Scale10Positive(-x.dp);
  }

  lemma MagnitudeScaled(x: DecFloat)
    ensures Scaled(Magnitude(x), Val(x.num), -x.dp)
  {
  }

  /** The same DecFloat with its sign flipped (the operand Sub hands to Add). */
  function Negate(x: DecFloat): (r: DecFloat)
    ensures SignedVal(r) == -SignedVal(x) && Value(r) == -Value(x)
    ensures r.num == x.num && r.dp == x.dp
  {
    DecFloat(!x.neg, x.num, x.dp)
  }

  /**
   * A tidy value has a canonical magnitude and, when it is zero, no decimal
   * places: it is what the parser makes of any numeral without fraction zeros
   * only, and what Add keeps.
   */
  predicate Tidy(x: DecFloat)
  {
    Canonical(x.num) && (Val(x.num) == 0 ==> x.dp <= 0)
  }

  /**
   * Writing a value with D >= dp decimal places: its signed magnitude grows by
   * 10^(D - dp) and the number stays the same.
   */
  lemma ValueAligned(x: DecFloat, d: int)
    requires d >= x.dp
    ensures Value(x) == (SignedVal(x) * Pow(10, d - x.dp)) as real * Scale10(-d)
  {
    Realign(SignedVal(x), x.dp, d);
  }

  /** v is m times 10^e. */
  ghost predicate Scaled(v: real, m: int, e: int)
  {
    v == m as real * Scale10(e)
  }

  /** ValueAligned with the rescaled magnitude named. */
  lemma ValueAt(x: DecFloat, d: int, m: int)
    requires d >= x.dp && m == SignedVal(x) * Pow(10, d - x.dp)
    ensures Scaled(Value(x), m, -d)
  {
    ValueAligned(x, d);
  }

  lemma ValueIs(x: DecFloat, m: int)
    requires SignedVal(x) == m
    ensures Scaled(Value(x), m, -x.dp)
  {
  }

  lemma Realign(v: int, e: int, d: int)
    requires d >= e
    ensures v as real * Scale10(-e) == (v * Pow(10, d - e)) as real * Scale10(-d)
  {
    Scale10Sum(d - e, -d, -e);
    Scale10Natural(d - e);
    ScaleSplit(v, Pow(10, d - e), Scale10(-e), Scale10(d - e), Scale10(-d));
  }

  lemma ScaleSplit(v: int, p: nat, s: real, q: real, t: real)
    requires s == q * t && q == p as real
    ensures v as real * s == (v * p) as real * t
  {
    assert (v * p) as real == v as real * p as real;
  }

  /** Equal signs, magnitudes and places mean equal numbers. */
  lemma SameValue(x: DecFloat, y: DecFloat)
    requires y.neg == x.neg && y.dp == x.dp && Val(y.num) == Val(x.num)
    ensures Value(y) == Value(x)
  {
    assert SignedVal(y) == SignedVal(x);
    ValueDetermined(x, y);
  }

  lemma ValueDetermined(x: DecFloat, y: DecFloat)
    requires SignedVal(y) == SignedVal(x) && y.dp == x.dp
    ensures Value(y) == Value(x)
  {
  }

  /** Values with equal signed magnitudes and equal places are equal numbers. */
  lemma ValueZero(x: DecFloat)
    requires Val(x.num) == 0
    ensures Value(x) == 0.0
  {
  }

  /** The sign of a number is the sign of its signed magnitude. */
  lemma ValueSign(x: DecFloat)
    ensures Value(x) > 0.0 <==> SignedVal(x) > 0
    ensures Value(x) < 0.0 <==> SignedVal(x) < 0
  {
    Scale10Positive(-x.dp);
  }
}

=== FILE: division.dfy ===
/**
 * Long division of DecFloat values (DecFloat.Div): both magnitudes are scaled by
 * ten until the dividend lies between one and ten times the divisor, the multiples
 * 0..10 of the divisor are tabulated, and quotient digits are produced one at a
 * time until the requested number of digits is reached or the remainder vanishes.
 * The digits, the point and the sign are then written out and parsed back.
 */
module DecimalDivision {
  import opened Powers
  import opened Limbs
  import opened DecimalText
  import opened DecimalFloat
  import opened Conversion
  import opened QuotientBounds

  // ---------------------------------------------------------------------------
  // The quotient text
  // ---------------------------------------------------------------------------

  /**
   * The quotient digits with zeros put in front when the point falls before them
   * (rdp < 0) or behind when it falls after them (rdp beyond the digits).
   */
  function QuotientDigits(digits: string, rdp: int): (full: string)
    ensures |full| >= Max(rdp, 0)
  {
    var padded := if rdp < 0 then Zeros(-rdp) + digits else digits;
    var at := Max(rdp, 0);
    if at > |padded| then padded + Zeros(at - |padded|) else padded
  }

  /**
   * The text Div hands to the string constructor: the padded digits with the point
   * inserted rdp characters in (at the front when rdp < 0), and a minus sign for a
   * negative quotient.
   */
  function QuotientText(digits: string, rdp: int, neg: bool): string
  {
    PointAt(QuotientDigits(digits, rdp), Max(rdp, 0), neg)
  }

  /** The digits with a point inserted k characters in, and a minus sign when neg. */
  function PointAt(full: string, k: nat, neg: bool): string
    requires k <= |full|
  {
    var pointed := full[..k] + "." + full[k..];
    if neg then "-" + pointed else pointed
  }

  /** Padding keeps the digits' value, times 10^(rdp - |digits|) when zeros go behind. */
  lemma PaddedQuotient(digits: string, rdp: int)
    requires AllDigits(digits)
    ensures var full := QuotientDigits(digits, rdp);
            AllDigits(full) && |full| - Max(rdp, 0) == Max(|digits| - rdp, 0)
            && DigitsVal(full) == DigitsVal(digits) * Pow(10, Max(rdp - |digits|, 0))
  {
    var n := |digits|;
    if rdp < 0 {
      ZerosValue(-rdp, digits);
    } else if rdp > n {
      ZerosZero(rdp - n);
      DigitsValAppend(digits, Zeros(rdp - n));
    }
  }

  /** The quotient text parses to the digits' value, shifted by the point's position. */
  lemma ReadQuotient(digits: string, rdp: int, neg: bool)
    requires AllDigits(digits)
    ensures AllDigits(QuotientDigits(digits, rdp)) && Numeral(QuotientText(digits, rdp, neg))
    ensures FromText(QuotientText(digits, rdp, neg))
         == DecFloat(neg, ToLimbs(DigitsVal(QuotientDigits(digits, rdp))), Max(|digits| - rdp, 0))
    ensures DigitsVal(QuotientDigits(digits, rdp)) == DigitsVal(digits) * Pow(10, Max(rdp - |digits|, 0))
  {
    var full := QuotientDigits(digits, rdp);
    PaddedQuotient(digits, rdp);
    ReadPointAt(neg, full, Max(rdp, 0));
  }

  /** Digits with a point k characters in, and a sign, parse back to those digits at |full| - k places. */
  lemma ReadPointAt(neg: bool, full: string, k: nat)
    requires AllDigits(full) && k <= |full|
    ensures Numeral(PointAt(full, k, neg))
    ensures FromText(PointAt(full, k, neg)) == DecFloat(neg, ToLimbs(DigitsVal(full)), |full| - k)
  {
    var hi, lo := full[..k], full[k..];
    DigitParts(full, k);
    ReadPointedAny(neg, hi, lo);
    ConcatAssoc(hi, ".", lo);
    var u := hi + ("." + lo);
    if neg {
      assert SignText(neg) + u == "-" + u;
    } else {
      assert SignText(neg) + u == u;
    }
  }

  lemma DigitParts(s: string, k: nat)
    requires AllDigits(s) && k <= |s|
    ensures AllDigits(s[..k]) && AllDigits(s[k..]) && s[..k] + s[k..] == s
  {
    assert forall i :: 0 <= i < k ==> s[..k][i] == s[i];
    assert forall i :: 0 <= i < |s| - k ==> s[k..][i] == s[k + i];
  }

  /** Appending one digit: the digits read ten times larger plus the digit. */
  lemma PushDigit(s: string, d: nat)
    requires AllDigits(s) && d <= 9
    ensures Digits(d) == [DigitChar(d)]
    ensures AllDigits(s + Digits(d)) && DigitsVal(s + Digits(d)) == 10 * DigitsVal(s) + d
  {
    var t := s + [DigitChar(d)];
    assert t[..|t| - 1] == s;
    assert AllDigits(t) by {
      forall i | 0 <= i < |t| ensures IsDigit(t[i]) {
        if i < |s| { assert t[i] == s[i]; }
      }
    }
  }

  // ---------------------------------------------------------------------------
  // Div
  // ---------------------------------------------------------------------------

  /**
   * The two scaling loops of Div: the divisor is multiplied by ten while it
   * compares below the dividend, then the dividend while it compares below the
   * divisor, each step moving the quotient's point.
   */
  method Normalize(anum: seq<byte>, bnum: seq<byte>, rdp: int)
      returns (an: seq<byte>, bn: seq<byte>, rdp2: int, ghost i: nat, ghost j: nat)
    requires Canonical(anum) && Val(anum) > 0 && Canonical(bnum) && Val(bnum) > 0
    ensures Canonical(an) && Canonical(bn)
    ensures Val(bn) == Val(bnum) * Pow(10, i) && Val(an) == Val(anum) * Pow(10, j)
    ensures Val(bn) <= Val(an) < 10 * Val(bn)
    ensures rdp2 == rdp + i - j
  {
    an, bn, rdp2, i, j := anum, bnum, rdp, 0, 0;
    var c := Limbs.Compare(bn, an);
    while c < 0
      invariant Canonical(bn) && Val(bn) == Val(bnum) * Pow(10, i) && Val(bn) > 0
      invariant rdp2 == rdp + i
      invariant c == Sign(Val(bn) - Val(an))
      decreases Val(an) - Val(bn)
    {
      ghost var before := Val(bn);
      bn := Limbs.Mul(bn, 10);
      Tenfold(Val(bnum), Pow(10, i), Pow(10, i + 1), before, Val(bn));
      rdp2 := rdp2 + 1;
      i := i + 1;
      c := Limbs.Compare(bn, an);
    }
    while c > 0
      invariant Canonical(an) && Val(an) == Val(anum) * Pow(10, j) && Val(an) > 0
      invariant Val(an) < 10 * Val(bn)
      invariant rdp2 == rdp + i - j
      invariant c == Sign(Val(bn) - Val(an))
      decreases Val(bn) - Val(an)
    {
      ghost var before := Val(an);
      an := Limbs.Mul(an, 10);
      Tenfold(Val(anum), Pow(10, j), Pow(10, j + 1), before, Val(an));
      rdp2 := rdp2 - 1;
      j := j + 1;
      c := Limbs.Compare(bn, an);
    }
  }

  /** The table of multiples 0..10 of the divisor, each the previous one plus the divisor. */
  method Multiples(bnum: seq<byte>) returns (divs: array<seq<byte>>)
    requires Canonical(bnum)
    ensures fresh(divs) && divs.Length == 11
    ensures forall m :: 0 <= m <= 10 ==> Canonical(divs[m]) && Val(divs[m]) == m * Val(bnum)
  {
    divs := new seq<byte>[11](_ => []);
    divs[1] := bnum;
    for k := 2 to 11
      invariant divs[0] == [] && divs[1] == bnum
      invariant forall m :: 0 <= m < k ==> Canonical(divs[m]) && Val(divs[m]) == m * Val(bnum)
    {
      divs[k] := Limbs.Add(bnum, divs[k - 1]);
      NextMultiple(k, Val(bnum), Val(divs[k - 1]), Val(divs[k]));
    }
  }

  /**
   * One step of the digit loop: the multiples are tried from 10 down until one does
   * not exceed the remainder; that digit is written, its multiple subtracted and the
   * rest multiplied by ten.
   */
  method NextDigit(rem: seq<byte>, divs: array<seq<byte>>, ghost bv: nat) returns (i: nat, cmp: int, next: seq<byte>)
    requires divs.Length == 11 && bv > 0
    requires forall m :: 0 <= m <= 10 ==> Canonical(divs[m]) && Val(divs[m]) == m * bv
    requires Canonical(rem) && Val(rem) < 10 * bv
    ensures i <= 9 && i * bv <= Val(rem) < i * bv + bv
    ensures cmp == 0 <==> Val(rem) == i * bv
    ensures Canonical(next) && Val(next) == (Val(rem) - i * bv) * 10 && Val(next) < 10 * bv
  {
    i := 10;
    cmp := Limbs.Compare(rem, divs[i]);
    while cmp < 0
      invariant 0 <= i <= 10
      invariant cmp == Sign(Val(rem) - Val(divs[i]))
      invariant i < 10 ==> Val(rem) < Val(divs[i + 1])
      decreases i
    {
      i := i - 1;
      cmp := Limbs.Compare(rem, divs[i]);
    }
    MultipleGap(i, bv);
    var d := Limbs.Sub(rem, divs[i]);
    next := Limbs.Mul(d.value, 10);
  }

  /**
   * The digit loop of Div: each digit is the largest multiple in the table that the
   * remainder reaches (searched from 10 down), the remainder loses that multiple
   * and is multiplied by ten; it stops after maxDigits digits or on an exact step.
   */
  method LongDivide(anum: seq<byte>, divs: array<seq<byte>>, ghost bv: nat, maxDigits: int)
      returns (result: string, rem: seq<byte>)
    requires divs.Length == 11 && bv > 0
    requires forall m :: 0 <= m <= 10 ==> Canonical(divs[m]) && Val(divs[m]) == m * bv
    requires Canonical(anum) && bv <= Val(anum) < 10 * bv
    ensures AllDigits(result) && |result| <= Max(maxDigits, 0)
    ensures Val(anum) * Pow(10, |result|) == 10 * bv * DigitsVal(result) + Val(rem)
    ensures Val(rem) < 10 * bv
    ensures |result| < maxDigits ==> Val(rem) == 0 && |result| >= 1
    ensures Val(rem) == 0 ==> |result| >= 1 && result[|result| - 1] != '0' && DigitsVal(result) % 10 != 0
    ensures |result| >= 1 ==> result[0] != '0' && DigitsVal(result) >= Pow(10, |result| - 1)
  {
    result, rem := "", anum;
    ghost var a0 := Val(anum);
    while |result| < maxDigits
      invariant Canonical(rem) && Val(rem) < 10 * bv
      invariant AllDigits(result) && |result| <= Max(maxDigits, 0)
      invariant a0 * Pow(10, |result|) == 10 * bv * DigitsVal(result) + Val(rem)
      invariant |result| == 0 ==> Val(rem) == a0
      invariant |result| > 0 ==> result[0] != '0'
      invariant Val(rem) > 0
      decreases maxDigits - |result|
    {
      var i, cmp, next := NextDigit(rem, divs, bv);
      ghost var dv, x, p := DigitsVal(result), Val(rem), Pow(10, |result|);
      PushDigit(result, i);
      result := result + DecimalText.Digits(i);
      rem := next;
      DigitStep(a0, bv, dv, x, i, p, DigitsVal(result), Val(rem), Pow(10, |result|));
      if cmp == 0 {
        assert i >= 1 && result[|result| - 1] == DigitChar(i);
        DivMod(DigitsVal(result), dv, i, 10);
        break;
      }
    }
    if |result| >= 1 {
      LeadingDigitBound(result);
    }
  }

  /**
   * The end of Div: zeros in front when the point falls before the digits, zeros
   * behind when it falls after them, the point inserted rdp characters in, and the
   * sign.
   */
  method PlacePoint(digits: string, rdp: int, neg: bool) returns (text: string)
    ensures text == QuotientText(digits, rdp, neg)
  {
    text := digits;
    var at := rdp;
    if at < 0 {
      text := Zeros(-at) + text;
      at := 0;
    }
    if at > |text| {
      text := text + Zeros(at - |text|);
    }
    text := text[..at] + "." + text[at..];
    if neg {
      text := "-" + text;
    }
  }

  /**
   * Div: the quotient a / b written with at most maxDigits digits from its first
   * nonzero one, truncated toward zero, stopping early once a remainder is zero.
   * The ghost results name what the text it parses holds: n digits dv, the first
   * of them at place 10^(point - 1).
   */
  method Div(a: DecFloat, b: DecFloat, maxDigits: int) returns (r: DecFloat, ghost n: nat, ghost point: int, ghost dv: nat)
    requires Canonical(a.num) && Val(a.num) > 0
    requires Canonical(b.num) && Val(b.num) > 0
    ensures r.neg == (a.neg != b.neg) && Canonical(r.num) && r.dp == Max(n - point, 0)
    ensures DigitQuotient(Magnitude(a), Magnitude(b), Magnitude(r), maxDigits, n, point, dv)
    ensures TruncatedQuotient(Magnitude(a), Magnitude(b), Magnitude(r), maxDigits)
    ensures maxDigits >= 1 ==> Val(r.num) > 0
  {
    var anum, bnum, rdp, i, j := Normalize(a.num, b.num, -a.dp + b.dp + 1);
    var divs := Multiples(bnum);
    var digits, rem := LongDivide(anum, divs, Val(bnum), maxDigits);
    r := WriteQuotient(digits, rdp, a.neg != b.neg);
    n, point, dv := |digits|, rdp, DigitsVal(digits);
    DivOutcome(a, b, r, Val(anum), Val(bnum), i, j, n, dv, Val(rem), maxDigits, rdp, Val(r.num));
  }

  /** The quotient's digits written out with the point rdp places in, and read back. */
  method WriteQuotient(digits: string, rdp: int, neg: bool) returns (r: DecFloat)
    requires AllDigits(digits)
    ensures r.neg == neg && Canonical(r.num) && r.dp == Max(|digits| - rdp, 0)
    ensures Val(r.num) == DigitsVal(digits) * Pow(10, Max(rdp - |digits|, 0))
  {
    var text := PlacePoint(digits, rdp, neg);
    ReadQuotient(digits, rdp, neg);
    r := Parse(text);
    assert r.num == ToLimbs(DigitsVal(QuotientDigits(digits, rdp)));
  }

  /** What Div's integer work and the parsed quotient text amount to, as numbers. */
  lemma DivOutcome(a: DecFloat, b: DecFloat, r: DecFloat, an: int, bn: int, i: nat, j: nat,
                   n: nat, dv: nat, rem: nat, maxDigits: int, rdp: int, full: int)
    requires Val(a.num) > 0 && Val(b.num) > 0
    requires bn == Val(b.num) * Pow(10, i) && an == Val(a.num) * Pow(10, j) && rdp == -a.dp + b.dp + 1 + i - j
    requires an * Pow(10, n) == 10 * bn * dv + rem && rem < 10 * bn
    requires n >= 1 ==> dv >= Pow(10, n - 1)
    requires n < maxDigits ==> rem == 0 && n >= 1
    requires bn <= an < 10 * bn && n <= Max(maxDigits, 0)
    requires rem == 0 ==> n >= 1 && dv % 10 != 0
    requires Val(r.num) == full && full == dv * Pow(10, Max(rdp - n, 0)) && r.dp == Max(n - rdp, 0)
    ensures TruncatedQuotient(Magnitude(a), Magnitude(b), Magnitude(r), maxDigits)
    ensures DigitQuotient(Magnitude(a), Magnitude(b), Magnitude(r), maxDigits, n, rdp, dv)
    ensures maxDigits >= 1 ==> Val(r.num) > 0
  {
    MagnitudeScaled(a);
    MagnitudeScaled(b);
    MagnitudeScaled(r);
    DivDigits(Magnitude(a), Magnitude(b), Magnitude(r), Val(a.num), Val(b.num), Val(r.num), a.dp, b.dp, r.dp,
              an, bn, i, j, n, dv, rem, maxDigits, rdp);
    DivValue(Magnitude(a), Magnitude(b), Magnitude(r), Val(a.num), Val(b.num), Val(r.num), a.dp, b.dp, r.dp,
             an, bn, i, j, n, dv, rem, maxDigits, rdp);
  }
}

=== FILE: limbs.dfy ===
/**
 * Magnitudes of DecFloat values: little-endian sequences of base-256 limbs
 * (the C# `byte[]`), with the limb-level carry, borrow, scaling and comparison
 * loops of DecFloat/DecFloat.cs.
 */
module Limbs {
  import opened Powers

  /** One limb: an unsigned 8-bit value. */
  type byte = x: int | 0 <= x < 256

  datatype Option<T> = None | Some(value: T)

  function Max(a: int, b: int): int { if a >= b then a else b }

  function Min(a: int, b: int): int { if a <= b then a else b }

  /** The non-negative integer a limb sequence denotes, least significant limb first. */
  function Val(s: seq<byte>): nat
  {
    if |s| == 0 then 0 else s[0] + 256 * Val(s[1..])
  }

  /** No most-significant zero limb; the empty sequence is the canonical zero. */
  predicate Canonical(s: seq<byte>)
  {
    |s| == 0 || s[|s| - 1] != 0
  }

  /** The value of the limbs below position i, reading missing limbs as zero. */
  function Low(s: seq<byte>, i: nat): nat
  {
    Val(s[..Min(i, |s|)])
  }

  /** Limbs of the zero value of length k (what Array.Resize leaves before a shifted product). */
  function ZeroLimbs(k: nat): (z: seq<byte>)
    ensures |z| == k && forall i :: 0 <= i < k ==> z[i] == 0
  {
    seq(k, _ => 0)
  }

  lemma {:induction false} ValBound(s: seq<byte>)
    ensures Val(s) < Pow(256, |s|)
  {
    if |s| > 0 {
      ValBound(s[1..]);
    }
  }

  lemma {:induction false} ValAppend(s: seq<byte>, x: byte)
    ensures Val(s + [x]) == Val(s) + x * Pow(256, |s|)
  {
    if |s| == 0 {
      assert (s + [x])[1..] == [];
    } else {
      var t := s[1..];
      assert (s + [x])[1..] == t + [x];
      ValAppend(t, x);
      var p := Pow(256, |t|);
      assert Pow(256, |s|) == 256 * p;
      Distribute(Val(t), x, p);
    }
  }

  lemma Distribute(v: int, x: int, p: int)
    ensures 256 * (v + x * p) == 256 * v + x * (256 * p)
  {
  }

  /** Growing a prefix by one limb adds that limb at its weight. */
  lemma ValPrefixStep(s: seq<byte>, i: nat)
    requires i < |s|
    ensures Val(s[..i + 1]) == Val(s[..i]) + s[i] * Pow(256, i)
  {
    assert s[..i + 1] == s[..i] + [s[i]];
    ValAppend(s[..i], s[i]);
  }

  /** A zero top limb adds nothing to a prefix. */
  lemma DropZeroTop(s: seq<byte>, k: nat)
    requires k < |s| && s[k] == 0
    ensures Val(s[..k + 1]) == Val(s[..k])
  {
    ValPrefixStep(s, k);
  }

  lemma LowStep(s: seq<byte>, i: nat)
    ensures Low(s, i + 1) == Low(s, i) + (if i < |s| then s[i] else 0) * Pow(256, i)
  {
    if i < |s| {
      ValPrefixStep(s, i);
    }
  }

  lemma LowAll(s: seq<byte>, n: nat)
    requires |s| <= n
    ensures Low(s, n) == Val(s)
  {
    assert s[..|s|] == s;
  }

  /** Value of a canonical sequence pins down its length. */
  lemma CanonicalBound(s: seq<byte>)
    ensures Canonical(s) <==> (|s| == 0 || Val(s) >= Pow(256, |s| - 1))
  {
    if |s| > 0 {
      var p := s[..|s| - 1];
      assert s == p + [s[|s| - 1]];
      ValAppend(p, s[|s| - 1]);
      ValBound(p);
    }
  }

  /** A canonical sequence is empty exactly when its value is zero. */
  lemma CanonicalZero(s: seq<byte>)
    requires Canonical(s)
    ensures |s| == 0 <==> Val(s) == 0
  {
    CanonicalBound(s);
  }

  /** For canonical magnitudes the longer one is the larger (the first test of Compare). */
  lemma LongerIsLarger(a: seq<byte>, b: seq<byte>)
    requires Canonical(a) && |a| > |b|
    ensures Val(a) > Val(b)
  {
    CanonicalBound(a);
    ValBound(b);
    PowMonotone(256, |b|, |a| - 1);
  }

  lemma {:induction false} ValSplit(s: seq<byte>, k: nat)
    requires k <= |s|
    ensures Val(s) == Val(s[..k]) + Val(s[k..]) * Pow(256, k)
  {
    if k > 0 {
      ValSplit(s[1..], k - 1);
      assert s[1..][..k - 1] == s[..k][1..];
      assert s[1..][k - 1..] == s[k..];
      var lo, hi, p := Val(s[..k][1..]), Val(s[k..]), Pow(256, k - 1);
      assert Val(s[..k]) == s[0] + 256 * lo;
      SplitArith(s[0], lo, hi, p);
    }
  }

  lemma SplitArith(x: int, lo: int, hi: int, p: int)
    ensures x + 256 * (lo + hi * p) == (x + 256 * lo) + hi * (256 * p)
  {
  }

  /** Prefixing k zero limbs multiplies the value by 256^k (the limb shift in Mul). */
  lemma {:induction false} ValShift(k: nat, s: seq<byte>)
    ensures Val(ZeroLimbs(k) + s) == Val(s) * Pow(256, k)
  {
    if k > 0 {
      assert (ZeroLimbs(k) + s)[1..] == ZeroLimbs(k - 1) + s;
      ValShift(k - 1, s);
      var v, p := Val(s), Pow(256, k - 1);
      assert Val(ZeroLimbs(k) + s) == 256 * (v * p);
      assert Pow(256, k) == 256 * p;
    } else {
      assert ZeroLimbs(k) + s == s;
    }
  }

  lemma ShiftCanonical(k: nat, s: seq<byte>)
    requires Canonical(s) && |s| > 0
    ensures Canonical(ZeroLimbs(k) + s)
  {
  }

  /** Two canonical magnitudes with the same value are the same sequence. */
  lemma {:induction false} CanonicalUnique(a: seq<byte>, b: seq<byte>)
    requires Canonical(a) && Canonical(b) && Val(a) == Val(b)
    ensures a == b
  {
    if |a| > 0 && |b| > 0 {
      LowLimb(a[0], Val(a[1..]), b[0], Val(b[1..]));
      if |a| > 1 { assert a[1..][|a| - 2] == a[|a| - 1]; }
      if |b| > 1 { assert b[1..][|b| - 2] == b[|b| - 1]; }
      CanonicalUnique(a[1..], b[1..]);
      assert a == [a[0]] + a[1..];
      assert b == [b[0]] + b[1..];
    } else {
      CanonicalZero(a);
      CanonicalZero(b);
    }
  }

  /** The lowest limb and the rest of a value are determined by the value. */
  lemma LowLimb(x: byte, v: int, y: byte, w: int)
    requires x + 256 * v == y + 256 * w
    ensures x == y && v == w
  {
  }

  /** The canonical limbs of n. */
  function ToLimbs(n: nat): (s: seq<byte>)
    ensures Canonical(s) && Val(s) == n
  {
    if n == 0 then [] else [n % 256] + ToLimbs(n / 256)
  }

  function Sign(x: int): int
  {
    if x > 0 then 1 else if x < 0 then -1 else 0
  }

  /** The limb at position i, zero past the end (the `i < a.Length ? a[i] : 0` of the loops). */
  function LimbAt(s: seq<byte>, i: nat): byte
  {
    if i < |s| then s[i] else 0
  }

  /** Splitting r into a limb and a carry keeps its weight. */
  lemma CarrySplit(r: int, p: int)
    ensures (r % 256) * p + (r / 256) * (256 * p) == r * p
  {
    assert r == r % 256 + 256 * (r / 256);
  }

  lemma LowStepAt(s: seq<byte>, i: nat)
    ensures Low(s, i + 1) == Low(s, i) + LimbAt(s, i) * Pow(256, i)
  {
    LowStep(s, i);
  }

  /** The arithmetic of one carrying position, free of the sequences around it. */
  lemma SumArith(v: int, la: int, lb: int, ai: int, bi: int, c: int, r: int, p: int)
    requires v + c * p == la + lb && r == ai + bi + c
    ensures v + (r % 256) * p + (r / 256) * (256 * p) == (la + ai * p) + (lb + bi * p)
  {
    CarrySplit(r, p);
    assert r * p == ai * p + bi * p + c * p;
  }

  /** One position of the carrying sum keeps Val(r) + carry = Low(a) + Low(b). */
  lemma SumStep(a: seq<byte>, b: seq<byte>, done: seq<byte>, c: int, r: int)
    requires 0 <= c <= 1 && Val(done) + c * Pow(256, |done|) == Low(a, |done|) + Low(b, |done|)
    requires r == LimbAt(a, |done|) + LimbAt(b, |done|) + c
    ensures 0 <= r / 256 <= 1 && 0 <= r % 256 < 256
    ensures Val(done + [r % 256]) + (r / 256) * Pow(256, |done| + 1)
            == Low(a, |done| + 1) + Low(b, |done| + 1)
  {
    var i, p := |done|, Pow(256, |done|);
    ValAppend(done, r % 256);
    LowStepAt(a, i);
    LowStepAt(b, i);
    assert Pow(256, i + 1) == 256 * p;
    SumArith(Val(done), Low(a, i), Low(b, i), LimbAt(a, i), LimbAt(b, i), c, r, p);
  }

  lemma DiffArith(v: int, la: int, lb: int, ai: int, bi: int, c: int, r: int, c2: int, p: int)
    requires v == la - lb + c * p && r == ai - bi - c + 256 * c2
    ensures v + r * p == (la + ai * p) - (lb + bi * p) + c2 * (256 * p)
  {
    assert r * p == ai * p - bi * p - c * p + c2 * (256 * p);
  }

  /** One position of the borrowing difference keeps Val(r) = Low(a) - Low(b) + borrow. */
  lemma DiffStep(a: seq<byte>, b: seq<byte>, done: seq<byte>, c: int, r: int, c2: int)
    requires Val(done) == Low(a, |done|) - Low(b, |done|) + c * Pow(256, |done|)
    requires 0 <= r < 256 && r == LimbAt(a, |done|) - LimbAt(b, |done|) - c + 256 * c2
    ensures Val(done + [r]) == Low(a, |done| + 1) - Low(b, |done| + 1) + c2 * Pow(256, |done| + 1)
  {
    var i, p := |done|, Pow(256, |done|);
    ValAppend(done, r);
    LowStepAt(a, i);
    LowStepAt(b, i);
    assert Pow(256, i + 1) == 256 * p;
    DiffArith(Val(done), Low(a, i), Low(b, i), LimbAt(a, i), LimbAt(b, i), c, r, c2, p);
  }

  lemma ScaleArith(v: int, ln: int, x: int, w: int, e: int, c: int, r: int, p: int,
                    v1: int, ln1: int, p1: int)
    requires v + c * p == ln * w + e && r == x * w + c
    requires v1 == v + (r % 256) * p && ln1 == ln + x * p && p1 == 256 * p
    ensures v1 + (r / 256) * p1 == ln1 * w + e
  {
    CarrySplit(r, p);
    assert r * p == (x * w) * p + c * p;
    assert (ln + x * p) * w == ln * w + (x * w) * p;
  }

  lemma ScaleBound(x: int, w: int, c: int, r: int)
    requires 0 <= x <= 255 && 0 <= c <= w && r == x * w + c
    ensures 0 <= r / 256 <= w && 0 <= r % 256 < 256
  {
    var q, m := r / 256, r % 256;
    assert r == 256 * q + m;
    assert (255 - x) * w >= 0;
    assert 255 * w - x * w == (255 - x) * w;
  }

  /** One position of the scaling by w: Val(r) + carry = w * Val(num[..i]) + e. */
  lemma ScaleStep(num: seq<byte>, w: nat, e: int, done: seq<byte>, c: int, r: int)
    requires |done| < |num| && 0 <= c <= w
    requires Val(done) + c * Pow(256, |done|) == Val(num[..|done|]) * w + e
    requires r == num[|done|] * w + c && w <= 255
    ensures 0 <= r / 256 <= w && 0 <= r % 256 < 256
    ensures Val(done + [r % 256]) + (r / 256) * Pow(256, |done| + 1) == Val(num[..|done| + 1]) * w + e
  {
    var i, p := |done|, Pow(256, |done|);
    ScaleBound(num[i], w, c, r);
    ValAppend(done, r % 256);
    ValPrefixStep(num, i);
    assert Pow(256, i + 1) == 256 * p;
    ScaleArith(Val(done), Val(num[..i]), num[i], w, e, c, r, p,
      Val(done + [r % 256]), Val(num[..i + 1]), Pow(256, i + 1));
  }

  /** A final carry (or borrow) c above a value v below p. */
  lemma CarryOut(v: int, total: int, c: int, p: int)
    requires 0 <= v < p && 0 <= c
    ensures v + c * p == total ==> (c > 0 <==> total >= p)
    ensures v == total + c * p ==> (c > 0 <==> total < 0)
  {
    if c > 0 {
      assert c * p == p + (c - 1) * p;
    }
  }

  /** The finished buffer, with the carry appended as a new top limb when it is not zero. */
  lemma AppendCarry(buf: seq<byte>, c: byte, total: int)
    requires Val(buf) + c * Pow(256, |buf|) == total
    ensures c > 0 <==> total >= Pow(256, |buf|)
    ensures Val(if c > 0 then buf + [c] else buf) == total
  {
    ValBound(buf);
    CarryOut(Val(buf), total, c, Pow(256, |buf|));
    ValAppend(buf, c);
  }

  /** The borrow left after the last limb is set exactly when b exceeds a. */
  lemma BorrowOut(a: seq<byte>, b: seq<byte>, buf: seq<byte>, c: int)
    requires |buf| == Max(|a|, |b|) && 0 <= c
    requires Val(buf) == Low(a, |buf|) - Low(b, |buf|) + c * Pow(256, |buf|)
    ensures Val(buf) == Val(a) - Val(b) + c * Pow(256, |buf|)
    ensures c > 0 <==> Val(a) < Val(b)
  {
    LowAll(a, |buf|);
    LowAll(b, |buf|);
    ValBound(buf);
    CarryOut(Val(buf), Val(a) - Val(b), c, Pow(256, |buf|));
  }

  /**
   * The carry left after the last limb escapes exactly when the sum outgrows the
   * buffer, and is then appended as the top limb. Without a carry, a canonical
   * operand at least as long as the other leaves the buffer canonical.
   */
  lemma CarryOutSum(a: seq<byte>, b: seq<byte>, buf: seq<byte>, c: byte)
    requires |buf| == Max(|a|, |b|)
    requires Val(buf) + c * Pow(256, |buf|) == Low(a, |buf|) + Low(b, |buf|)
    ensures c > 0 <==> Val(a) + Val(b) >= Pow(256, |buf|)
    ensures Val(if c > 0 then buf + [c] else buf) == Val(a) + Val(b)
    ensures c == 0 && ((Canonical(a) && |a| >= |b|) || (Canonical(b) && |b| >= |a|)) ==> Canonical(buf)
  {
    LowAll(a, |buf|);
    LowAll(b, |buf|);
    AppendCarry(buf, c, Val(a) + Val(b));
    if c == 0 && |buf| > 0 {
      CanonicalBound(a);
      CanonicalBound(b);
      CanonicalBound(buf);
    }
  }

  /**
   * Limb-wise sum with carry, into a fresh buffer one limb longer only when the
   * last carry escapes (DecFloat.Add(byte[], byte[])).
   */
  method Add(a: seq<byte>, b: seq<byte>) returns (r: seq<byte>)
    ensures Val(r) == Val(a) + Val(b)
    ensures |r| == if Val(a) + Val(b) < Pow(256, Max(|a|, |b|)) then Max(|a|, |b|) else Max(|a|, |b|) + 1
    ensures Canonical(a) && |a| >= |b| ==> Canonical(r)
    ensures Canonical(b) && |b| >= |a| ==> Canonical(r)
  {
    var n := Max(|a|, |b|);
    var buf := new byte[n];
    var c := 0;
    for i := 0 to n
      invariant 0 <= c <= 1
      invariant Val(buf[..i]) + c * Pow(256, i) == Low(a, i) + Low(b, i)
    {
      var ai: int := if i < |a| then a[i] else 0;
      var bi: int := if i < |b| then b[i] else 0;
      var ri := ai + bi + c;
      ghost var done := buf[..i];
      SumStep(a, b, done, c, ri);
      c := ri / 256;
      buf[i] := ri % 256;
      assert buf[..i + 1] == done + [ri % 256];
    }
    assert buf[..n] == buf[..];
    CarryOutSum(a, b, buf[..], c);
    if c > 0 {
      r := buf[..] + [c];
    } else {
      r := buf[..];
    }
  }

  /**
   * Limb-wise difference with borrow, trimmed of top zero limbs. The source throws
   * "unexpected borrow" when a borrow is left over; here that is None.
   */
  method Sub(a: seq<byte>, b: seq<byte>) returns (r: Option<seq<byte>>)
    ensures r.None? <==> Val(a) < Val(b)
    ensures r.Some? ==> Val(r.value) == Val(a) - Val(b) && Canonical(r.value)
    ensures r.Some? ==> |r.value| <= Max(|a|, |b|)
  {
    var n := Max(|a|, |b|);
    var buf := new byte[n];
    var c := 0;
    for i := 0 to n
      invariant 0 <= c <= 1
      invariant Val(buf[..i]) == Low(a, i) - Low(b, i) + c * Pow(256, i)
    {
      var ai: int := if i < |a| then a[i] else 0;
      var bi: int := if i < |b| then b[i] else 0;
      var ri := ai - bi - c;
      ghost var done, cin := buf[..i], c;
      c := 0;
      if ri < 0 {
        ri := ri + 256;
        c := 1;
      }
      DiffStep(a, b, done, cin, ri, c);
      buf[i] := ri;
      assert buf[..i + 1] == done + [ri];
    }
    assert buf[..n] == buf[..];
    BorrowOut(a, b, buf[..], c);
    if c != 0 {
      return None;
    }
    ghost var raw := buf[..];
    var rl := n;
    while rl > 0 && buf[rl - 1] == 0
      invariant 0 <= rl <= n
      invariant buf[..] == raw
      invariant Val(buf[..rl]) == Val(raw)
    {
      DropZeroTop(raw, rl - 1);
      rl := rl - 1;
    }
    assert rl > 0 ==> buf[..rl][rl - 1] == buf[rl - 1];
    r := Some(buf[..rl]);
  }

  /** The magnitude scaled by one limb value (DecFloat.Mul(byte[], byte)). */
  method Mul(num: seq<byte>, b: byte) returns (r: seq<byte>)
    ensures Val(r) == Val(num) * b
    ensures |r| == if Val(num) * b < Pow(256, |num|) then |num| else |num| + 1
    ensures Canonical(num) && b > 0 ==> Canonical(r)
  {
    var n := |num|;
    var buf := new byte[n];
    var c := 0;
    for i := 0 to n
      invariant 0 <= c <= b
      invariant Val(buf[..i]) + c * Pow(256, i) == Val(num[..i]) * b + 0
    {
      var ai: int := num[i];
      var ri := ai * b + c;
      ghost var done := buf[..i];
      ScaleStep(num, b, 0, done, c, ri);
      c := ri / 256;
      buf[i] := ri % 256;
      assert buf[..i + 1] == done + [ri % 256];
    }
    assert num[..n] == num;
    assert buf[..n] == buf[..];
    AppendCarry(buf[..], c, Val(num) * b);
    if c > 0 {
      r := buf[..] + [c];
    } else {
      r := buf[..];
      if n > 0 && Canonical(num) && b > 0 {
        NoSmaller(Val(num), b);
        CanonicalBound(num);
        CanonicalBound(r);
      }
    }
  }

  lemma NoSmaller(v: nat, b: nat)
    requires b > 0
    ensures v * b >= v
  {
    assert v * b == v + v * (b - 1);
  }

  lemma HigherWeightWins(la: nat, ha: nat, lb: nat, hb: nat, p: nat)
    requires lb < p && ha >= hb + 1
    ensures la + ha * p > lb + hb * p
  {
    var d := ha - hb - 1;
    assert ha * p == hb * p + p + d * p;
  }

  /** Equal upper parts and a larger limb at k make the larger value. */
  lemma HigherLimbWins(a: seq<byte>, b: seq<byte>, k: nat)
    requires |a| == |b| && k < |a|
    requires a[k + 1..] == b[k + 1..] && a[k] > b[k]
    ensures Val(a) > Val(b)
  {
    ValSplit(a, k);
    ValSplit(b, k);
    assert a[k..][1..] == a[k + 1..];
    assert b[k..][1..] == b[k + 1..];
    ValBound(b[..k]);
    HigherWeightWins(Val(a[..k]), Val(a[k..]), Val(b[..k]), Val(b[k..]), Pow(256, k));
  }

  /**
   * Magnitude comparison: a longer sequence ranks higher, equal lengths compare
   * limb by limb from the top (DecFloat.Compare(byte[], byte[])).
   */
  method Compare(a: seq<byte>, b: seq<byte>) returns (c: int)
    ensures |a| > |b| ==> c == 1
    ensures |a| < |b| ==> c == -1
    ensures |a| == |b| ==> c == Sign(Val(a) - Val(b))
    ensures Canonical(a) && Canonical(b) ==> c == Sign(Val(a) - Val(b))
  {
    if |a| > |b| {
      if Canonical(a) { LongerIsLarger(a, b); }
      return 1;
    }
    if |a| < |b| {
      if Canonical(b) { LongerIsLarger(b, a); }
      return -1;
    }
    for i := |a| downto 0
      invariant a[i..] == b[i..]
    {
      if a[i] > b[i] {
        HigherLimbWins(a, b, i);
        return 1;
      }
      if a[i] < b[i] {
        HigherLimbWins(b, a, i);
        return -1;
      }
      assert a[i..] == [a[i]] + a[i + 1..];
      assert b[i..] == [b[i]] + b[i + 1..];
    }
    assert a == a[0..] && b == b[0..];
    return 0;
  }

  /**
   * Folds one decimal digit into a magnitude in place, v := 10 v + d, growing the
   * buffer by one limb when a carry escapes (DecFloat.AddDigit).
   */
  method AddDigit(d: int, b: array<byte>) returns (nb: array<byte>)
    requires 0 <= d <= 9
    modifies b
    ensures Val(nb[..]) == 10 * Val(old(b[..])) + d
    ensures Canonical(old(b[..])) ==> Canonical(nb[..])
    ensures nb == b || fresh(nb)
  {
    ghost var b0 := b[..];
    var c := d;
    for i := 0 to b.Length
      invariant 0 <= c <= 10
      invariant b[i..] == b0[i..]
      invariant Val(b[..i]) + c * Pow(256, i) == Val(b0[..i]) * 10 + d
    {
      var r := b[i] * 10 + c;
      ghost var done := b[..i];
      assert b[i] == b0[i];
      ScaleStep(b0, 10, d, done, c, r);
      c := r / 256;
      b[i] := r % 256;
      assert b[..i + 1] == done + [r % 256];
      assert b[i + 1..] == b0[i + 1..];
    }
    assert b[..b.Length] == b[..] && b0[..b.Length] == b0;
    ghost var low := b[..];
    AppendCarry(low, c, 10 * Val(b0) + d);
    if c > 0 {
      nb := new byte[b.Length + 1];
      forall j | 0 <= j < b.Length {
        nb[j] := b[j];
      }
      nb[b.Length] := c;
      assert nb[..] == low + [c];
    } else {
      nb := b;
      if b.Length > 0 && Canonical(b0) {
        CanonicalBound(b0);
        CanonicalBound(b[..]);
      }
    }
  }

  /** One position of the division by ten, taken from the top limb down. */
  lemma TenStep(rest: seq<byte>, x: byte, q: seq<byte>, m: int, v: int)
    requires Val(rest) == 10 * Val(q) + m && v == x + m * 256 && 0 <= m < 10
    ensures 0 <= v / 10 < 256 && 0 <= v % 10 < 10
    ensures Val([x] + rest) == 10 * Val([v / 10] + q) + v % 10
  {
    assert ([x] + rest)[1..] == rest;
    assert ([v / 10] + q)[1..] == q;
    assert v == 10 * (v / 10) + v % 10;
  }

  lemma DivideByTen(x: int, q: int, m: int)
    requires x == 10 * q + m && 0 <= m < 10
    ensures q == x / 10 && m == x % 10
  {
  }

  /**
   * Divides a magnitude by ten in place, from the top limb down, returns the
   * remainder and drops the zero limbs left on top (DecFloat.LeastSignificantDigit).
   */
  method LeastSignificantDigit(n: array<byte>) returns (digit: int, nn: array<byte>)
    modifies n
    ensures 0 <= digit < 10
    ensures digit == Val(old(n[..])) % 10
    ensures Val(nn[..]) == Val(old(n[..])) / 10
    ensures Canonical(nn[..])
    ensures nn.Length <= n.Length
    ensures nn == n || fresh(nn)
  {
    ghost var n0 := n[..];
    var m := 0;
    for i := n.Length downto 0
      invariant n[..i] == n0[..i]
      invariant 0 <= m < 10
      invariant Val(n0[i..]) == 10 * Val(n[i..]) + m
    {
      var v: int := n[i] + m * 256;
      ghost var above := n[i + 1..];
      assert n[i] == n0[i];
      assert n0[i..] == [n0[i]] + n0[i + 1..];
      TenStep(n0[i + 1..], n0[i], above, m, v);
      m := v % 10;
      n[i] := v / 10;
      assert n[i..] == [v / 10] + above;
      assert n[..i] == n0[..i];
    }
    assert n0[0..] == n0 && n[0..] == n[..];
    DivideByTen(Val(n0), Val(n[..]), m);
    digit := m;
    ghost var quotient := n[..];
    var len := n.Length;
    assert n[..len] == quotient;
    while len > 0 && n[len - 1] == 0
      invariant 0 <= len <= n.Length
      invariant n[..] == quotient
      invariant Val(n[..len]) == Val(quotient)
    {
      ValPrefixStep(n[..], len - 1);
      len := len - 1;
    }
    assert len > 0 ==> n[..len][len - 1] == n[len - 1];
    if len != n.Length {
      ghost var kept := n[..len];
      nn := new byte[len];
      forall j | 0 <= j < len {
        nn[j] := n[j];
      }
      assert nn[..] == kept;
    } else {
      nn := n;
      assert n[..len] == n[..];
    }
  }
}

=== FILE: log2.dfy ===
/**
 * Log2 (DecFloat/DecFloat.cs:236-266): the base-2 logarithm of a positive value.
 * The value is written as num * 2^exp with num in [1, 2) by halving or doubling
 * it; a num of exactly one ends there. Otherwise num is squared repeatedly and
 * every square of at least two contributes the current fraction 2^(-n) to exp and
 * is halved with Div. The loop stops once the fraction is no more than
 * 10^(-(p + 4)); exp is then rounded to p places.
 */
module DecimalLog {
  import opened Powers
  import opened Limbs
  import opened DecimalFloat
  import opened Conversion
  import DecimalArith
  import opened DecimalDivision
  import opened RoundingSpec
  import opened DecimalRounding
  import opened LogSpec

  /** The message of the exception Log2 throws for zero and negative values. */
  const NotPositive := "Cannot take log of 0 or negative number"

  /** The constants Log2 works with, as numbers. */
  lemma ConstantValues()
    ensures Tidy(Zero) && Format(Zero) == "0"
    ensures Tidy(One) && Value(One) == 1.0
    ensures Tidy(Two) && Val(Two.num) == 2 && Value(Two) == 2.0
    ensures Tidy(Half) && Value(Half) == 0.5
  {
    FormatZero(Zero);
    assert Val([1]) == 1 && Val([2]) == 2 && Val([5]) == 5;
    assert Scale10(-1) == 0.1;
  }

  /** A canonical value is positive exactly when it has limbs and no minus sign. */
  lemma Positive(x: DecFloat)
    requires Canonical(x.num)
    ensures Value(x) > 0.0 <==> |x.num| > 0 && !x.neg
    ensures Value(x) > 0.0 ==> Tidy(x) && Val(x.num) > 0
  {
    ValueSign(x);
    CanonicalZero(x.num);
  }

  /** A whole number no smaller than the positive value x. */
  function Ceiling(x: DecFloat): nat
  {
    Val(x.num) * Pow(10, if x.dp < 0 then -x.dp else 0)
  }

  lemma CeilingBound(x: DecFloat)
    requires !x.neg
    ensures Value(x) <= Ceiling(x) as real
  {
    ValueIs(x, Val(x.num));
    ScaledAtMost(Value(x), Val(x.num), x.dp, Ceiling(x));
  }

  /** num.Mul(Half) on a positive tidy value. */
  method TimesHalf(a: DecFloat) returns (r: DecFloat)
    requires Tidy(a) && !a.neg && Val(a.num) > 0
    ensures Tidy(r) && !r.neg && Val(r.num) > 0 && Value(r) == Value(a) * 0.5
  {
    ConstantValues();
    r := DecimalArith.Mul(a, Half);
  }

  /** num.Mul(Two) on a positive tidy value: the places stay, the magnitude doubles. */
  method TimesTwo(a: DecFloat) returns (r: DecFloat)
    requires Tidy(a) && !a.neg && Val(a.num) > 0
    ensures Tidy(r) && !r.neg && r.dp == a.dp && Val(r.num) == 2 * Val(a.num)
    ensures Value(r) == Value(a) * 2.0
  {
    ConstantValues();
    r := DecimalArith.Mul(a, Two);
  }

  /** exp.Add(fract) and exp.Add(One) on tidy values, where Add cannot fail. */
  method Plus(a: DecFloat, b: DecFloat) returns (r: DecFloat)
    requires Tidy(a) && Tidy(b)
    ensures Tidy(r) && Value(r) == Value(a) + Value(b)
  {
    var sum := DecimalArith.Add(a, b);
    r := sum.value;
  }

  /** exp.Sub(One) on tidy values, where Sub cannot fail. */
  method Minus(a: DecFloat, b: DecFloat) returns (r: DecFloat)
    requires Tidy(a) && Tidy(b)
    ensures Tidy(r) && Value(r) == Value(a) - Value(b)
  {
    var diff := DecimalArith.Sub(a, b);
    r := diff.value;
  }

  /**
   * Compare as Log2 reads it: a nonnegative answer means a >= b, a negative one
   * a <= b; on tidy values it never fails and is exact.
   */
  method Order(a: DecFloat, b: DecFloat) returns (r: Result<int>)
    ensures r.Ok? && r.value >= 0 ==> Value(a) >= Value(b)
    ensures r.Ok? && r.value <= 0 ==> Value(a) <= Value(b)
    ensures Tidy(a) && Tidy(b) ==> r.Ok? && (r.value == 0 <==> Value(a) == Value(b))
    ensures Tidy(a) && Tidy(b) && r.Ok? ==> (r.value < 0 <==> Value(a) < Value(b))
  {
    r := DecimalArith.Compare(a, b);
  }

  /**
   * The first loop of Log2 (DecFloat/DecFloat.cs:242-246): while num is at least
   * two it is multiplied by Half and exp grows by One.
   */
  method HalveBelowTwo(x: DecFloat) returns (num: DecFloat, exp: DecFloat, ghost e: nat)
    requires Tidy(x) && !x.neg && Val(x.num) > 0
    ensures Tidy(num) && !num.neg && Val(num.num) > 0
    ensures Tidy(exp) && Value(exp) == e as real
    ensures TimesPow2(Value(x), Value(num), e)
    ensures Value(num) < 2.0
    ensures e > 0 ==> 1.0 <= Value(num)
  {
    ConstantValues();
    CeilingBound(x);
    NoPow2(Value(x));
    num, exp, e := x, Zero, 0;
    while true
      invariant Tidy(num) && !num.neg && Val(num.num) > 0
      invariant Tidy(exp) && Value(exp) == e as real
      invariant TimesPow2(Value(x), Value(num), e)
      invariant e > 0 ==> 1.0 <= Value(num)
      decreases Ceiling(x) - e
    {
      var c := Order(num, Two);
      if c.value < 0 {
        break;
      }
      HalvingRoom(e, Value(x), Value(num), Ceiling(x));
      var half := TimesHalf(num);
      var sum := Plus(exp, One);
      HalfStep(Value(x), Value(num), Value(half), e);
      num, exp, e := half, sum, e + 1;
    }
  }

  /**
   * The second loop of Log2 (DecFloat/DecFloat.cs:247-251): while num is below one
   * it is multiplied by Two and exp drops by One. vx is the number num * 2^exp.
   */
  method DoubleToOne(num0: DecFloat, exp0: DecFloat, ghost e0: int, ghost vx: real)
    returns (num: DecFloat, exp: DecFloat, ghost e: int)
    requires Tidy(num0) && !num0.neg && Val(num0.num) > 0 && Value(num0) < 2.0
    requires Tidy(exp0) && Value(exp0) == e0 as real
    requires TimesPow2(vx, Value(num0), e0)
    ensures Tidy(num) && !num.neg && Val(num.num) > 0
    ensures Tidy(exp) && Value(exp) == e as real
    ensures TimesPow2(vx, Value(num), e)
    ensures 1.0 <= Value(num) < 2.0
  {
    ConstantValues();
    num, exp, e := num0, exp0, e0;
    while true
      invariant Tidy(num) && !num.neg && Val(num.num) > 0 && num.dp == num0.dp
      invariant Tidy(exp) && Value(exp) == e as real
      invariant TimesPow2(vx, Value(num), e)
      invariant Value(num) < 2.0
      decreases Pow(10, if num0.dp > 0 then num0.dp else 0) - Val(num.num)
    {
      var c := Order(num, One);
      if c.value >= 0 {
        break;
      }
      ValueIs(num, Val(num.num));
      BelowOne(Val(num.num), num.dp, Value(num));
      var twice := TimesTwo(num);
      var diff := Minus(exp, One);
      DoubleStep(vx, Value(num), Value(twice), e);
      num, exp, e := twice, diff, e - 1;
    }
  }

  /**
   * The fraction loop of Log2 (DecFloat/DecFloat.cs:252-264) for a num in [1, 2)
   * and an exp worth the whole number e: halves fract until it is no more than
   * 10^(-(p + 4)), squares num at each step and, when the square is at least two,
   * adds fract to exp and halves num with Div to 2p digits. The exp it returns
   * lies in [e, e + 1). num stays tidy for every p, even when 2p < 1 leaves Div no
   * digits, so no comparison fails.
   */
  method Bits(num0: DecFloat, exp0: DecFloat, ghost e: int, p: int) returns (r: DecFloat)
    requires Tidy(num0) && !num0.neg && Val(num0.num) > 0
    requires Tidy(exp0) && Value(exp0) == e as real
    ensures Tidy(r) && e as real <= Value(r) < (e + 1) as real
  {
    PowerValue(0);
    var limit := DecFloat(false, [1], p + 4);
    var fract := One;
    NoPow2(1.0);
    var num := num0;
    var exp := exp0;
    ghost var n: nat := 0;
    while true
      invariant Tidy(fract) && !fract.neg && Val(fract.num) > 0
      invariant TimesPow2(1.0, Value(fract), n)
      invariant Tidy(num) && !num.neg && (p >= 1 ==> Val(num.num) > 0)
      invariant Tidy(exp) && e as real <= Value(exp) <= (e + 1) as real - Value(fract)
      decreases Pow(10, if p + 4 > 0 then p + 4 else 0) - n
    {
      var above := Above(fract, limit, p + 4);
      if !above {
        break;
      }
      FractRoom(n, Value(fract), p + 4);
      var half, square, next := NextBit(fract, num, exp, e, n, p);
      fract, num, exp, n := half, square, next, n + 1;
    }
    r := exp;
  }

  /** fract.Compare(limit) > 0, for the limit 10^(-q). */
  method Above(fract: DecFloat, limit: DecFloat, q: int) returns (above: bool)
    requires Tidy(fract) && limit == DecFloat(false, [1], q)
    ensures above <==> Value(fract) > Scale10(-q)
  {
    PowerValue(q);
    var c := Order(fract, limit);
    above := c.value > 0;
  }

  /**
   * One pass of the fraction loop: fract halved, num squared, and, when the square
   * is at least two, the halved fract added to exp and the square halved.
   */
  method NextBit(fract: DecFloat, num: DecFloat, exp: DecFloat, ghost e: int, ghost n: nat, p: int)
    returns (half: DecFloat, num2: DecFloat, next: DecFloat)
    requires Tidy(fract) && !fract.neg && Val(fract.num) > 0
    requires TimesPow2(1.0, Value(fract), n)
    requires Tidy(num) && !num.neg && (p >= 1 ==> Val(num.num) > 0)
    requires Tidy(exp) && e as real <= Value(exp) <= (e + 1) as real - Value(fract)
    ensures Tidy(half) && !half.neg && Val(half.num) > 0
    ensures TimesPow2(1.0, Value(half), n + 1)
    ensures Tidy(num2) && !num2.neg && (p >= 1 ==> Val(num2.num) > 0)
    ensures Tidy(next) && e as real <= Value(next) <= (e + 1) as real - Value(half)
  {
    half := TimesHalf(fract);
    FractHalve(Value(fract), Value(half), n);
    var square := Square(num);
    var d := Order(square, Two);
    next := exp;
    num2 := square;
    assert d.Ok?;
    if d.value >= 0 {
      next := Plus(exp, half);
      num2 := HalveTo(square, p * 2);
    }
    BitStep(e, Value(exp), Value(fract), Value(half), Value(next), d.value >= 0);
  }

  /** num.Div(Two, digits) on a positive canonical value. */
  method HalveTo(a: DecFloat, digits: int) returns (r: DecFloat)
    requires Canonical(a.num) && !a.neg && Val(a.num) > 0
    ensures Canonical(r.num) && !r.neg && r.dp >= 0
    ensures digits >= 1 ==> Tidy(r) && Val(r.num) > 0
    ensures Value(a) >= 2.0 ==> Tidy(r)
  {
    ConstantValues();
    ghost var n, point, dv;
    r, n, point, dv := Div(a, Two, digits);
    MagnitudeSign(a);
    if Value(a) >= 2.0 {
      FirstPlace(Magnitude(a), 2.0, point);
    }
  }

  /** A quotient of at least one has its first digit at place 1 or higher. */
  lemma FirstPlace(ma: real, mb: real, point: int)
    requires 0.0 < mb <= ma < Scale10(point) * mb
    ensures point >= 1
  {
    if point <= 0 {
      Scale10Monotone(point, 0);
      PowerValue(0);
    }
  }

  /** num.Mul(num) on a canonical nonnegative value. */
  method Square(a: DecFloat) returns (r: DecFloat)
    requires Canonical(a.num) && !a.neg
    ensures Canonical(r.num) && !r.neg && Value(r) == Value(a) * Value(a)
    ensures Tidy(a) ==> Tidy(r)
    ensures Tidy(a) && Val(a.num) > 0 ==> Val(r.num) > 0
  {
    r := DecimalArith.Mul(a, a);
    if Tidy(a) {
      assert r.dp == 2 * a.dp;
    }
  }

  /**
   * Log2 up to its rounding (DecFloat/DecFloat.cs:238-264): a failure for zero and
   * negative values; exactly e for the power 2^e, returned at once (exact); and
   * otherwise the exp the fraction loop leaves, in [e, e + 1), e being the whole
   * part of the logarithm.
   */
  method LogBits(x: DecFloat, p: int) returns (r: Result<DecFloat>, ghost e: int, exact: bool)
    requires Canonical(x.num)
    ensures Value(x) <= 0.0 ==> r == Failure(NotPositive)
    ensures Value(x) > 0.0 ==> r.Ok? && Scale2(e) <= Value(x) < Scale2(e + 1)
    ensures r.Ok? ==> Tidy(r.value) && e as real <= Value(r.value) < (e + 1) as real
    ensures r.Ok? ==> (exact <==> Value(x) == Scale2(e))
    ensures r.Ok? && exact ==> Value(r.value) == e as real
  {
    ConstantValues();
    var sign := DecimalArith.Compare(x, Zero);
    Positive(x);
    if sign.value <= 0 {
      return Failure(NotPositive), 0, false;
    }
    var num, exp, e1 := HalveBelowTwo(x);
    num, exp, e := DoubleToOne(num, exp, e1, Value(x));
    Bracket(Value(x), Value(num), e);
    var c := Order(num, One);
    if c.value == 0 {
      return Ok(exp), e, true;
    }
    var bits := Bits(num, exp, e, p);
    r, exact := Ok(bits), false;
  }

  /**
   * Log2 as written: the exp of the fraction loop, bits, is rounded with the code's
   * Round(p). For x >= 1 the result is within half of 10^(-p) of bits; for x < 1,
   * where bits is negative, Round(p) can land up to two units of 10^(-p) above it
   * (see RoundTo), so the result may leave [e, e + 1] by that much.
   */
  method Log2(x: DecFloat, p: int) returns (r: Result<DecFloat>, ghost e: int, ghost bits: DecFloat)
    requires Canonical(x.num)
    ensures Value(x) <= 0.0 ==> r == Failure(NotPositive)
    ensures Value(x) > 0.0 ==> r.Ok? && Scale2(e) <= Value(x) < Scale2(e + 1)
    ensures Value(x) == Scale2(e) ==> r.Ok? && Value(r.value) == e as real
    ensures r.Ok? && Value(x) != Scale2(e) ==> Tidy(bits) && e as real <= Value(bits) < (e + 1) as real
    ensures r.Ok? && Value(x) != Scale2(e) ==>
              Scaled(Value(r.value), RoundedAsWritten(bits.neg, Val(bits.num), bits.dp - p), -p)
              && r.value.dp == if bits.dp > p then p else bits.dp
    ensures r.Ok? ==> e as real - 0.5 * Scale10(-p) <= Value(r.value) < (e + 1) as real + 2.0 * Scale10(-p)
    ensures r.Ok? && e >= 0 ==> Value(r.value) <= (e + 1) as real + 0.5 * Scale10(-p)
  {
    var exact;
    r, e, exact := LogBits(x, p);
    bits := Zero;
    if r.Failure? || exact {
      Scale10Positive(-p);
      return;
    }
    var loop := r.value;
    bits := loop;
    var rounded := RoundTo(loop, p);
    WidenedOpen(e, Value(loop), Value(rounded), Scale10(-p));
    r := Ok(rounded);
  }

  /**
   * Log2 with the corrected rounding: the same loops, the exp they leave rounded
   * half away from zero, so the result is within half of 10^(-p) of a number in
   * [e, e + 1) for x < 1 as well.
   */
  method Log2HalfAway(x: DecFloat, p: int) returns (r: Result<DecFloat>, ghost e: int)
    requires Canonical(x.num)
    ensures Value(x) <= 0.0 ==> r == Failure(NotPositive)
    ensures Value(x) > 0.0 ==> r.Ok? && Scale2(e) <= Value(x) < Scale2(e + 1)
    ensures Value(x) == Scale2(e) ==> r.Ok? && Value(r.value) == e as real
    ensures r.Ok? ==> e as real - 0.5 * Scale10(-p) <= Value(r.value) <= (e + 1) as real + 0.5 * Scale10(-p)
  {
    var exact;
    r, e, exact := LogBits(x, p);
    if r.Failure? || exact {
      Scale10Positive(-p);
      return;
    }
    var bits := r.value;
    var rounded := RoundToHalfAway(bits, p);
    Widened(e, Value(bits), Value(rounded), 0.5 * Scale10(-p));
    r := Ok(rounded);
  }

  /**
   * Log2 of 0.7 to 0 places, traced by hand: e = -1, and the fraction loop leaves
   * -0.75 (1.4 squared is 1.96, then 3.8416 adds 1/4 and Div to 0 digits leaves 0).
   * Round(0) as written turns -0.75 into 1, outside [e, e + 1]; half away from zero
   * gives -1.
   */
  lemma Log2RoundExample()
    ensures Scale2(-1) <= 0.7 < Scale2(0)
    ensures Value(DecFloat(true, [75], 2)) == -0.75
    ensures RoundedAsWritten(true, 75, 2 - 0) == 1
    ensures RoundedHalfAway(true, 75, 2 - 0) == -1
  {
    assert Pow(10, 2) == 100;
    assert Val([75]) == 75 by {
      ValSingle(75);
    }
    assert Scale10(-2) == 0.01;
  }
}

=== FILE: log_spec.dfy ===
/**
 * Powers of two on signed exponents, and the steps of arithmetic that the loops
 * of Log2 (DecFloat/DecFloat.cs:236-266) take, stated on plain numbers.
 */
module LogSpec {
  import opened Powers
  import opened DecimalFloat

  /** 2 raised to a signed power, as a real. */
  ghost function Scale2(e: int): (r: real)
    ensures r > 0.0
  {
    if e >= 0 then Pow(2, e) as real else 1.0 / Pow(2, -e) as real
  }

  /** v is m times 2^e. */
  ghost predicate TimesPow2(v: real, m: real, e: int)
  {
    v == m * Scale2(e)
  }

  /** Raising the exponent by one doubles the power, on both sides of zero. */
  lemma Scale2Step(e: int, f: int)
    requires f == e + 1
    ensures Scale2(f) == 2.0 * Scale2(e)
  {
    if e < 0 {
      var k: nat := -e;
      var q := Pow(2, k - 1);
      assert Pow(2, k) == 2 * q;
      HalfOfReciprocal(q as real, (2 * q) as real);
      if f < 0 {
        assert Scale2(f) == 1.0 / q as real;
      } else {
        assert q == 1;
      }
    }
  }

  lemma HalfOfReciprocal(q: real, d: real)
    requires q > 0.0 && d == 2.0 * q
    ensures 1.0 / q == 2.0 * (1.0 / d)
  {
  }

  /** A larger exponent gives at least twice the power. */
  lemma {:induction false} Scale2Grows(m: int, n: int)
    requires m < n
    ensures 2.0 * Scale2(m) <= Scale2(n)
    decreases n - m
  {
    Scale2Step(m, m + 1);
    if m + 1 < n {
      Scale2Grows(m + 1, n);
    }
  }

  /** The only power of two in [1, 2) is 2^0. */
  lemma UnitExponent(m: int)
    requires 1.0 <= Scale2(m) < 2.0
    ensures m == 0
  {
    assert Scale2(0) == 1.0;
    if m > 0 {
      Scale2Grows(0, m);
    } else if m < 0 {
      Scale2Grows(m, 0);
    }
  }

  /**
   * A number vx = vn * 2^e with 1 <= vn < 2 lies in [2^e, 2^(e+1)), and it is
   * the power 2^e itself exactly when vn is one.
   */
  lemma Bracket(vx: real, vn: real, e: int)
    requires TimesPow2(vx, vn, e) && 1.0 <= vn < 2.0
    ensures Scale2(e) <= vx < Scale2(e + 1)
    ensures vx == Scale2(e) <==> vn == 1.0
  {
    Scale2Step(e, e + 1);
    Between(vn, Scale2(e));
  }

  lemma Between(vn: real, s: real)
    requires s > 0.0 && 1.0 <= vn < 2.0
    ensures s <= vn * s < 2.0 * s
    ensures vn * s == s <==> vn == 1.0
  {
    assert vn * s - s == (vn - 1.0) * s;
    assert 2.0 * s - vn * s == (2.0 - vn) * s;
    if vn != 1.0 {
      assert (vn - 1.0) * s > 0.0;
    }
  }

  /** Halving the mantissa and raising the exponent by one keeps the number. */
  lemma HalfStep(vx: real, vn: real, vn2: real, e: int)
    requires TimesPow2(vx, vn, e) && vn2 == vn * 0.5
    ensures TimesPow2(vx, vn2, e + 1)
  {
    Scale2Step(e, e + 1);
  }

  /** Doubling the mantissa and lowering the exponent by one keeps the number. */
  lemma DoubleStep(vx: real, vn: real, vn2: real, e: int)
    requires TimesPow2(vx, vn, e) && vn2 == vn * 2.0
    ensures TimesPow2(vx, vn2, e - 1)
  {
    Scale2Step(e - 1, e);
  }

  /** Any number is itself times 2^0. */
  lemma NoPow2(v: real)
    ensures TimesPow2(v, v, 0)
  {
    assert Scale2(0) == 1.0;
  }

  /**
   * While vx = vn * 2^e with vn >= 2 stays below the whole number b, the count e
   * of halvings stays below b - 1: the first loop of Log2 ends.
   */
  lemma HalvingRoom(e: nat, vx: real, vn: real, b: nat)
    requires TimesPow2(vx, vn, e) && vn >= 2.0 && vx <= b as real
    ensures e + 1 < b
  {
    PowTwoExceeds(e + 1);
    var p := Pow(2, e);
    assert Pow(2, e + 1) == 2 * p;
    assert vx - (2 * p) as real == (vn - 2.0) * p as real;
  }

  /** A positive v * 10^(-dp) is at most v * 10^(-dp) when dp < 0, and at most v otherwise. */
  lemma ScaledAtMost(vx: real, v: nat, dp: int, b: nat)
    requires Scaled(vx, v, -dp) && b == v * Pow(10, if dp < 0 then -dp else 0)
    ensures vx <= b as real
  {
    if dp < 0 {
      Scale10Natural(-dp);
      assert (v * Pow(10, -dp)) as real == v as real * Pow(10, -dp) as real;
    } else {
      Scale10Monotone(-dp, 0);
      Scale10Positive(-dp);
      assert Scale10(0) == 1.0;
      assert Pow(10, 0) == 1;
      assert v as real - vx == v as real * (1.0 - Scale10(-dp));
    }
  }

  /** A nonzero v * 10^(-dp) below one has decimal places, and v < 10^dp. */
  lemma BelowOne(v: nat, dp: int, vx: real)
    requires Scaled(vx, v, -dp) && vx < 1.0 && v > 0
    ensures dp > 0 && v < Pow(10, dp)
  {
    if dp <= 0 {
      assert Scale10(0) == 1.0;
      Scale10Monotone(0, -dp);
      AtLeastOne(v as real, Scale10(-dp));
    } else {
      Scale10Sum(-dp, dp, 0);
      Scale10Natural(dp);
      assert Scale10(0) == 1.0;
      assert v as real == vx * Pow(10, dp) as real;
      Scale10Positive(dp);
    }
  }

  lemma AtLeastOne(a: real, b: real)
    requires a >= 1.0 && b >= 1.0
    ensures a * b >= 1.0
  {
    assert a * b - 1.0 == (a - 1.0) * b + (b - 1.0);
  }

  /** Halving the fraction 2^(-n) gives 2^(-(n + 1)). */
  lemma FractHalve(vf: real, vf2: real, n: nat)
    requires TimesPow2(1.0, vf, n) && vf2 == vf * 0.5
    ensures TimesPow2(1.0, vf2, n + 1)
  {
    Scale2Step(n, n + 1);
  }

  /**
   * While the fraction 2^(-n) is above the limit 10^(-q), q is positive and n stays
   * below 10^q: the fraction loop of Log2 ends.
   */
  lemma FractRoom(n: nat, vf: real, q: int)
    requires TimesPow2(1.0, vf, n) && vf > Scale10(-q)
    ensures q > 0 && n < Pow(10, q)
  {
    var a := Pow(2, n) as real;
    assert Scale2(n) == a;
    Scale10Positive(-q);
    PowMonotone(2, 0, n);
    AtMostOne(vf, a);
    PositivePlaces(vf, q);
    Scale10Sum(-q, q, 0);
    Scale10Natural(q);
    Reciprocals(vf, Scale10(-q), a, Pow(10, q) as real);
    PowTwoExceeds(n);
  }

  lemma AtMostOne(vf: real, a: real)
    requires vf * a == 1.0 && a >= 1.0 && vf > 0.0
    ensures vf <= 1.0
  {
    assert vf * (a - 1.0) >= 0.0;
  }

  /** A fraction of at most one above 10^(-q) needs a positive q. */
  lemma PositivePlaces(vf: real, q: int)
    requires vf <= 1.0 && vf > Scale10(-q)
    ensures q > 0
  {
    assert Scale10(0) == 1.0;
    if -q >= 0 {
      Scale10Monotone(0, -q);
    }
  }

  lemma Reciprocals(vf: real, s: real, a: real, b: real)
    requires vf * a == 1.0 && s * b == 1.0 && vf > s > 0.0
    ensures b > a
  {
    assert vf * b > s * b;
    assert vf * b > vf * a;
  }

  /**
   * One step of the fraction loop: with the fraction halved and added to the
   * exponent or not, the exponent stays in [e, e + 1 - fraction].
   */
  lemma BitStep(e: int, ve: real, vf: real, vf2: real, ve2: real, add: bool)
    requires e as real <= ve <= (e + 1) as real - vf && vf2 == vf * 0.5 && vf2 > 0.0
    requires ve2 == if add then ve + vf2 else ve
    ensures e as real <= ve2 <= (e + 1) as real - vf2
  {
  }

  /** A value within h of a number in [e, e + 1] lies in [e - h, e + 1 + h]. */
  lemma Widened(e: int, v: real, w: real, h: real)
    requires e as real <= v <= (e + 1) as real && -h <= w - v <= h
    ensures e as real - h <= w <= (e + 1) as real + h
  {
  }

  /** A value from h below to less than 2h above a number in [e, e + 1) lies in [e - h, e + 1 + 2h). */
  lemma WidenedOpen(e: int, v: real, w: real, h: real)
    requires e as real <= v < (e + 1) as real && -0.5 * h <= w - v < 2.0 * h
    ensures e as real - 0.5 * h <= w < (e + 1) as real + 2.0 * h
    ensures e >= 0 && w - v <= 0.5 * h ==> w <= (e + 1) as real + 0.5 * h
  {
  }
}

=== FILE: powers.dfy ===
/** Natural powers and signed powers of ten, shared by every layer of the model. */
module Powers {

  /** b raised to the natural power e. */
  function Pow(b: nat, e: nat): (r: nat)
    ensures b > 0 ==> r > 0
  {
    if e == 0 then 1 else b * Pow(b, e - 1)
  }

  lemma {:induction false} PowAdd(b: nat, m: nat, n: nat)
    ensures Pow(b, m + n) == Pow(b, m) * Pow(b, n)
  {
    if m > 0 {
      PowAdd(b, m - 1, n);
      assert Pow(b, m + n) == b * Pow(b, m - 1 + n);
    }
  }

  lemma {:induction false} PowMonotone(b: nat, m: nat, n: nat)
    requires b > 0 && m <= n
    ensures Pow(b, m) <= Pow(b, n)
  {
    if m < n {
      PowMonotone(b, m, n - 1);
    }
  }

  lemma {:induction false} PowStrictMonotone(b: nat, m: nat, n: nat)
    requires b > 1 && m < n
    ensures Pow(b, m) < Pow(b, n)
  {
    PowMonotone(b, m, n - 1);
    var q := Pow(b, n - 1);
    assert Pow(b, n) == b * q;
    Grows(b, q);
  }

  lemma Grows(b: int, q: int)
    requires b > 1 && q > 0
    ensures b * q > q
  {
    assert (b - 1) * q > 0;
  }

  /** 2^n outgrows n: used to bound the normalisation loops of Log2. */
  lemma {:induction false} PowTwoExceeds(n: nat)
    ensures n < Pow(2, n)
  {
    if n > 0 {
      PowTwoExceeds(n - 1);
    }
  }

  /** 10^k as a real, built by repeated multiplication. */
  ghost function TenUp(k: nat): real
  {
    if k == 0 then 1.0 else 10.0 * TenUp(k - 1)
  }

  /** 10^(-k) as a real, built by repeated division. */
  ghost function TenDown(k: nat): real
  {
    if k == 0 then 1.0 else TenDown(k - 1) / 10.0
  }

  /** 10 raised to a signed power, as a real. */
  ghost function Scale10(e: int): real
  {
    if e >= 0 then TenUp(e) else TenDown(-e)
  }

  lemma {:induction false} TenDownPositive(k: nat)
    ensures TenDown(k) > 0.0
  {
    if k > 0 {
      TenDownPositive(k - 1);
    }
  }

  /** On natural exponents the real power agrees with the natural one. */
  lemma {:induction false} Scale10Natural(k: nat)
    ensures Scale10(k) == Pow(10, k) as real
  {
    if k > 0 {
      Scale10Natural(k - 1);
      assert (10 * Pow(10, k - 1)) as real == 10.0 * Pow(10, k - 1) as real;
    }
  }

  lemma Scale10Positive(e: int)
    ensures Scale10(e) > 0.0
  {
    if e >= 0 {
      Scale10Natural(e);
    } else {
      TenDownPositive(-e);
    }
  }

  /** Raising the exponent by one multiplies by ten, on both sides of zero. */
  lemma Scale10Step(e: int, f: int)
    requires f == e + 1
    ensures Scale10(f) == 10.0 * Scale10(e)
  {
    if e < 0 {
      assert TenDown(-e) == TenDown(-f) / 10.0;
    }
  }

  lemma TenTimes(p: real, a: real, b: real, q: real, r: real)
    requires p == a * b && q == 10.0 * p && r == 10.0 * a
    ensures q == r * b
  {
  }

  lemma {:induction false} Scale10Add(m: int, n: int)
    ensures Scale10(m + n) == Scale10(m) * Scale10(n)
    decreases if m >= 0 then m else -m
  {
    if m > 0 {
      Scale10Add(m - 1, n);
      Scale10Step(m - 1 + n, m + n);
      Scale10Step(m - 1, m);
      TenTimes(Scale10(m - 1 + n), Scale10(m - 1), Scale10(n), Scale10(m + n), Scale10(m));
    } else if m < 0 {
      Scale10Add(m + 1, n);
      Scale10Step(m + n, m + 1 + n);
      Scale10Step(m, m + 1);
      TenTimes(Scale10(m + n), Scale10(m), Scale10(n), Scale10(m + 1 + n), Scale10(m + 1));
      Scale10Positive(n);
    } else {
      assert Scale10(m) == 1.0;
    }
  }

  /** Scale10Add with the sum named, so that callers need no arithmetic on the argument. */
  lemma Scale10Sum(m: int, n: int, s: int)
    requires s == m + n
    ensures Scale10(s) == Scale10(m) * Scale10(n)
  {
    Scale10Add(m, n);
  }

  lemma Scale10Monotone(m: int, n: int)
    requires m <= n
    ensures Scale10(m) <= Scale10(n)
  {
    var k: nat := n - m;
    Scale10Sum(m, k, n);
    Scale10Positive(m);
    Scale10Natural(k);
    PowMonotone(10, 0, k);
    assert Pow(10, 0) == 1;
    ScaleUp(Scale10(m), Scale10(k), Scale10(n));
  }

  lemma ScaleUp(a: real, p: real, r: real)
    requires a > 0.0 && p >= 1.0 && r == a * p
    ensures r >= a
  {
    assert a * p == a + a * (p - 1.0);
  }
}

=== FILE: quotient.dfy ===
/**
 * The arithmetic behind DecFloat.Div: the integer identities each step of the long
 * division keeps, and how they turn into bounds on the numbers the operands and
 * the quotient stand for.
 */
module QuotientBounds {
  import opened Powers
  import opened Limbs
  import opened DecimalFloat

  // ---------------------------------------------------------------------------
  // Arithmetic steps
  // ---------------------------------------------------------------------------

  /** One more scaling by ten of a magnitude that tracks v * 10^k. */
  lemma Tenfold(v: int, p: int, q: int, before: int, after: int)
    requires before == v * p && after == before * 10 && q == 10 * p
    ensures after == v * q
  {
  }

  /** The next multiple of the divisor in the table. */
  lemma NextMultiple(m: int, b: int, prev: int, next: int)
    requires prev == (m - 1) * b && next == b + prev
    ensures next == m * b
  {
  }

  lemma MultipleGap(m: int, b: int)
    ensures (m + 1) * b == m * b + b
  {
  }

  /**
   * One long-division step keeps dividend * 10^|digits| = 10 * divisor * digits +
   * remainder, where the new remainder is ten times what is left after subtracting
   * the digit's multiple.
   */
  lemma DigitStep(a0: int, b: int, dv: int, x: int, i: int, p: int, dv2: int, x2: int, p2: int)
    requires a0 * p == 10 * b * dv + x
    requires dv2 == 10 * dv + i && x2 == (x - i * b) * 10 && p2 == 10 * p
    ensures a0 * p2 == 10 * b * dv2 + x2
  {
    assert a0 * p2 == 10 * (a0 * p);
    assert 10 * b * dv2 == 10 * (10 * b * dv) + 10 * (i * b);
  }

  // ---------------------------------------------------------------------------
  // From integers to numbers
  // ---------------------------------------------------------------------------

  /** Scaled numbers multiply: the magnitudes multiply and the exponents add. */
  lemma ScaledMul(va: real, vb: real, x: int, y: int, ea: int, eb: int, e: int)
    requires Scaled(va, x, ea) && Scaled(vb, y, eb) && e == ea + eb
    ensures Scaled(va * vb, x * y, e)
  {
    Scale10Sum(ea, eb, e);
    assert (x * y) as real == x as real * y as real;
  }

  /** The same number written with k more digits: the magnitude grows by 10^k. */
  lemma Rescale(v: real, m: int, f: int, k: nat, mk: int, g: int)
    requires Scaled(v, m, f) && mk == m * Pow(10, k) && g == f - k
    ensures Scaled(v, mk, g)
  {
    Realign(m, -f, -f + k);
  }

  /** A magnitude of dv * 10^k at d places is dv at exponent k - d. */
  lemma ShiftScale(m: real, v: int, d: int, dv: int, k: nat, e: int)
    requires Scaled(m, v, -d) && v == dv * Pow(10, k) && e == k - d
    ensures Scaled(m, dv, e)
  {
    Scale10Natural(k);
    Scale10Sum(k, -d, e);
    ScaleSplit(dv, Pow(10, k), Scale10(e), Scale10(k), Scale10(-d));
  }

  lemma TenShift(b: int, p: int, d: int, x: int, p1: int)
    requires x == 10 * (b * p) * d && p1 == 10 * p
    ensures x == d * b * p1
  {
  }

  lemma Regroup(v: int, p: int, q: int, pq: int, y: int)
    requires pq == p * q && y == v * p * q
    ensures y == v * pq
  {
  }

  /** The remainder, weighted by 10^(n-1), stays below the dividend's digits. */
  lemma RemainderSmall(r: int, b: int, dv: int, q: int, x: int, y: int)
    requires 0 <= r < 10 * b && dv >= q > 0 && x == 10 * b * dv && y == x + r
    ensures r * q < y
  {
    assert (10 * b - r) * q > 0;
    assert 10 * b * (dv - q) >= 0;
  }

  lemma RelativeError(r: int, y: int, q: int, s: real, t: real)
    requires q > 0 && r * q < y && s > 0.0 && t * q as real == 1.0
    ensures r as real * s < y as real * s * t
  {
    assert (r * q) as real == r as real * q as real;
    assert r as real * q as real < y as real;
    assert r as real < y as real * t by {
      assert r as real == r as real * q as real * t;
    }
  }

  lemma TenthPower(k: nat, e: int)
    requires e + k == 0
    ensures Scale10(e) * Pow(10, k) as real == 1.0
  {
    Scale10Natural(k);
    Scale10Sum(e, k, 0);
  }

  /** The dividend, of magnitude va at da places, written at exponent -da - j - n. */
  lemma DividendAt(ma: real, va: int, da: int, j: nat, n: nat, y: int)
    requires Scaled(ma, va, -da) && y == va * Pow(10, j) * Pow(10, n)
    ensures Scaled(ma, y, -da - j - n)
  {
    PowAdd(10, j, n);
    Regroup(va, Pow(10, j), Pow(10, n), Pow(10, j + n), y);
    Rescale(ma, va, -da, j + n, y, -da - j - n);
  }

  /** The quotient times the divisor, written at the same exponent as the dividend. */
  lemma ProductAt(mr: real, mb: real, vr: int, vb: int, dr: int, db: int, da: int,
                  i: nat, j: nat, n: nat, dv: nat, rdp: int, x: int)
    requires Scaled(mr, vr, -dr) && Scaled(mb, vb, -db)
    requires rdp == -da + db + 1 + i - j
    requires vr == dv * Pow(10, Max(rdp - n, 0)) && dr == Max(n - rdp, 0)
    requires x == 10 * (vb * Pow(10, i)) * dv
    ensures Scaled(mr * mb, x, -da - j - n)
  {
    ShiftScale(mr, vr, dr, dv, Max(rdp - n, 0), rdp - n);
    assert Pow(10, i + 1) == 10 * Pow(10, i);
    TenShift(vb, Pow(10, i), dv, x, Pow(10, i + 1));
    ProductRescaled(mr, mb, dv, vb, rdp - n, -db, i + 1, x, -da - j - n);
  }

  /** ScaledMul followed by Rescale: the product written k digits further down. */
  lemma ProductRescaled(mr: real, mb: real, dv: int, b0: int, er: int, eb: int, k: nat, x: int, g: int)
    requires Scaled(mr, dv, er) && Scaled(mb, b0, eb)
    requires x == dv * b0 * Pow(10, k) && g == er + eb - k
    ensures Scaled(mr * mb, x, g)
  {
    ScaledMul(mr, mb, dv, b0, er, eb, er + eb);
    Rescale(mr * mb, dv * b0, er + eb, k, x, g);
  }

  /**
   * Two numbers y and x at a common exponent, y = x + rem: x does not exceed y,
   * and when rem * 10^(m-1) < y the shortfall is below y * 10^(1-m).
   */
  lemma ShortfallBound(va: real, vp: real, x: int, y: int, rem: int, e: int, m: int)
    requires Scaled(va, y, e) && Scaled(vp, x, e) && y == x + rem && rem >= 0 && y > 0
    requires m >= 1 ==> rem * Pow(10, m - 1) < y
    ensures vp <= va
    ensures m >= 1 ==> va - vp < va * Scale10(1 - m)
  {
    var s := Scale10(e);
    Scale10Positive(e);
    assert (x + rem) as real * s == x as real * s + rem as real * s;
    if m >= 1 {
      var t := Scale10(1 - m);
      var q := Pow(10, m - 1);
      TenthPower(m - 1, 1 - m);
      RelativeError(rem, y, q, s, t);
    }
  }

  /**
   * mr is ma / mb truncated: times mb it does not exceed ma, and when m >= 1 digits
   * are asked for, it falls short of ma by less than ma * 10^(1 - m).
   */
  ghost predicate TruncatedQuotient(ma: real, mb: real, mr: real, m: int)
  {
    mr * mb <= ma && (m >= 1 ==> ma - mr * mb < ma * Scale10(1 - m))
  }

  /**
   * The integer facts the long division leaves behind, read as numbers: with the
   * dividend ma, the divisor mb and the quotient mr (magnitudes va, vb, vr at da, db,
   * dr places), the quotient times the divisor does not exceed the dividend, and
   * falls short of it by less than the dividend times 10^(1 - maxDigits).
   */
  lemma DivValue(ma: real, mb: real, mr: real, va: int, vb: int, vr: int, da: int, db: int, dr: int,
                 an: int, bn: int, i: nat, j: nat, n: nat, dv: nat, rem: nat, maxDigits: int, rdp: int)
    requires Scaled(ma, va, -da) && Scaled(mb, vb, -db) && Scaled(mr, vr, -dr)
    requires va > 0 && vb > 0
    requires bn == vb * Pow(10, i) && an == va * Pow(10, j) && rdp == -da + db + 1 + i - j
    requires an * Pow(10, n) == 10 * bn * dv + rem && rem < 10 * bn
    requires n >= 1 ==> dv >= Pow(10, n - 1)
    requires n < maxDigits ==> rem == 0 && n >= 1
    requires vr == dv * Pow(10, Max(rdp - n, 0)) && dr == Max(n - rdp, 0)
    ensures TruncatedQuotient(ma, mb, mr, maxDigits)
    ensures maxDigits >= 1 ==> vr > 0
  {
    var x := 10 * bn * dv;
    var y := an * Pow(10, n);
    DividendAt(ma, va, da, j, n, y);
    ProductAt(mr, mb, vr, vb, dr, db, da, i, j, n, dv, rdp, x);
    PositiveProduct(va, Pow(10, j), Pow(10, n));
    RemainderWeight(rem, bn, dv, n, maxDigits, x, y);
    ShortfallBound(ma, mr * mb, x, y, rem, -da - j - n, maxDigits);
    if maxDigits >= 1 {
      PositiveProduct(dv, Pow(10, Max(rdp - n, 0)), 1);
    }
  }

  /** The remainder left after maxDigits digits, weighted by 10^(maxDigits-1), is below the dividend. */
  lemma RemainderWeight(rem: int, bb: int, dv: int, n: nat, m: int, x: int, y: int)
    requires 0 <= rem < 10 * bb && x == 10 * bb * dv && y == x + rem && y > 0
    requires n >= 1 ==> dv >= Pow(10, n - 1)
    requires n < m ==> rem == 0 && n >= 1
    ensures m >= 1 ==> rem * Pow(10, m - 1) < y
  {
    if m >= 1 && rem > 0 {
      PowMonotone(10, m - 1, n - 1);
      RemainderSmall(rem, bb, dv, Pow(10, m - 1), x, y);
    }
  }

  lemma PositiveProduct(a: int, b: int, c: int)
    requires a > 0 && b > 0 && c > 0
    ensures a * b * c > 0
  {
  }

  // ---------------------------------------------------------------------------
  // The quotient digit by digit
  // ---------------------------------------------------------------------------

  /**
   * mr is ma / mb written with n digits dv whose last place is 10^(rdp - n), the
   * first digit standing for 10^(rdp - 1): ma / mb lies in [10^(rdp - 1), 10^rdp),
   * mr is ma / mb truncated to that last place, n is m digits unless the division
   * came out exact earlier, and an exact quotient does not end in a zero digit, so
   * no shorter one would have been exact.
   */
  ghost predicate DigitQuotient(ma: real, mb: real, mr: real, m: int, n: nat, rdp: int, dv: nat)
  {
    n <= Max(m, 0) && (n >= 1 ==> Pow(10, n - 1) <= dv < Pow(10, n))
    && Scaled(mr, dv, rdp - n)
    && mr * mb <= ma < (mr + Scale10(rdp - n)) * mb
    && (n < m ==> mr * mb == ma)
    && (mr * mb == ma ==> n >= 1 && dv % 10 != 0)
    && Scale10(rdp - 1) * mb <= ma < Scale10(rdp) * mb
  }

  /**
   * All the long division leaves behind, read as numbers: the n digits dv of the
   * quotient mr, the place rdp of its first digit, and how mr falls short of ma / mb.
   */
  lemma DivDigits(ma: real, mb: real, mr: real, va: int, vb: int, vr: int, da: int, db: int, dr: int,
                  an: int, bn: int, i: nat, j: nat, n: nat, dv: nat, rem: nat, m: int, rdp: int)
    requires Scaled(ma, va, -da) && Scaled(mb, vb, -db) && Scaled(mr, vr, -dr)
    requires bn == vb * Pow(10, i) && an == va * Pow(10, j) && rdp == -da + db + 1 + i - j
    requires 0 < bn <= an < 10 * bn
    requires an * Pow(10, n) == 10 * bn * dv + rem && rem < 10 * bn
    requires n <= Max(m, 0) && (n >= 1 ==> dv >= Pow(10, n - 1))
    requires n < m ==> rem == 0
    requires rem == 0 ==> n >= 1 && dv % 10 != 0
    requires vr == dv * Pow(10, Max(rdp - n, 0)) && dr == Max(n - rdp, 0)
    ensures DigitQuotient(ma, mb, mr, m, n, rdp, dv)
  {
    DigitsBelow(an, bn, n, dv, rem);
    ShiftScale(mr, vr, dr, dv, Max(rdp - n, 0), rdp - n);
    QuotientGap(ma, mb, mr, va, vb, vr, da, db, dr, an, bn, i, j, n, dv, rem, rdp);
    QuotientPlace(ma, mb, va, vb, da, db, an, bn, i, j, rdp);
  }

  /** n digits taken from a dividend below ten divisors make a number below 10^n. */
  lemma DigitsBelow(an: int, bn: int, n: nat, dv: nat, rem: nat)
    requires 0 < bn && an < 10 * bn && an * Pow(10, n) == 10 * bn * dv + rem
    ensures dv < Pow(10, n)
  {
    var p := Pow(10, n);
    assert an * p < (10 * bn) * p;
    assert (10 * bn) * dv < (10 * bn) * p;
  }

  /** Numbers at one exponent compare as their integers. */
  lemma ScaledOrder(u: real, v: real, p: int, q: int, e: int)
    requires Scaled(u, p, e) && Scaled(v, q, e)
    ensures p < q ==> u < v
    ensures p <= q ==> u <= v
    ensures u == v <==> p == q
  {
    Scale10Positive(e);
    assert v - u == (q - p) as real * Scale10(e);
  }

  lemma ScaledPlus(u: real, v: real, p: int, q: int, e: int)
    requires Scaled(u, p, e) && Scaled(v, q, e)
    ensures Scaled(u + v, p + q, e)
  {
  }

  lemma UnitScaled(e: int)
    ensures Scaled(Scale10(e), 1, e)
  {
  }

  /**
   * The quotient mr, its last place 10^(rdp - n) added, times mb exceeds the
   * dividend, and mr times mb is the dividend exactly when no remainder is left.
   */
  lemma QuotientGap(ma: real, mb: real, mr: real, va: int, vb: int, vr: int, da: int, db: int, dr: int,
                    an: int, bn: int, i: nat, j: nat, n: nat, dv: nat, rem: int, rdp: int)
    requires Scaled(ma, va, -da) && Scaled(mb, vb, -db) && Scaled(mr, vr, -dr)
    requires bn == vb * Pow(10, i) && an == va * Pow(10, j) && rdp == -da + db + 1 + i - j
    requires an * Pow(10, n) == 10 * bn * dv + rem && 0 <= rem < 10 * bn
    requires vr == dv * Pow(10, Max(rdp - n, 0)) && dr == Max(n - rdp, 0)
    ensures mr * mb <= ma < (mr + Scale10(rdp - n)) * mb
    ensures mr * mb == ma <==> rem == 0
  {
    var x := 10 * bn * dv;
    var y := an * Pow(10, n);
    var e := -da - j - n;
    assert Scaled(ma, y, e) by { DividendAt(ma, va, da, j, n, y); }
    assert Scaled(mr * mb, x, e) by { ProductAt(mr, mb, vr, vb, dr, db, da, i, j, n, dv, rdp, x); }
    assert Scaled(Scale10(rdp - n) * mb, 10 * bn, e) by {
      TenMore(vb, i, bn);
      PowerTimes(mb, vb, db, i + 1, 10 * bn, e, rdp - n);
    }
    GapOrder(ma, mr, mb, Scale10(rdp - n), x, y, 10 * bn, rem, e);
  }

  /** A dividend y lying rem past the product x, short of one more divisor step b. */
  lemma GapOrder(ma: real, mr: real, mb: real, u: real, x: int, y: int, b: int, rem: int, e: int)
    requires Scaled(ma, y, e) && Scaled(mr * mb, x, e) && Scaled(u * mb, b, e)
    requires y == x + rem && 0 <= rem < b
    ensures mr * mb <= ma < (mr + u) * mb
    ensures mr * mb == ma <==> rem == 0
  {
    ScaledPlus(mr * mb, u * mb, x, b, e);
    assert (mr + u) * mb == mr * mb + u * mb;
    ScaledOrder(ma, (mr + u) * mb, y, x + b, e);
    ScaledOrder(mr * mb, ma, x, y, e);
  }

  /** With bn <= an < 10 * bn, the quotient's first digit stands for 10^(rdp - 1). */
  lemma QuotientPlace(ma: real, mb: real, va: int, vb: int, da: int, db: int,
                      an: int, bn: int, i: nat, j: nat, rdp: int)
    requires Scaled(ma, va, -da) && Scaled(mb, vb, -db)
    requires bn == vb * Pow(10, i) && an == va * Pow(10, j) && rdp == -da + db + 1 + i - j
    requires bn <= an < 10 * bn
    ensures Scale10(rdp - 1) * mb <= ma < Scale10(rdp) * mb
  {
    Rescale(ma, va, -da, j, an, -da - j);
    PlaceBelow(ma, mb, vb, db, an, bn, i, -da - j, rdp - 1);
    TenMore(vb, i, bn);
    PlaceAbove(ma, mb, vb, db, an, 10 * bn, i + 1, -da - j, rdp);
  }

  lemma PlaceBelow(ma: real, mb: real, vb: int, db: int, an: int, bn: int, i: nat, e: int, f: int)
    requires Scaled(ma, an, e) && Scaled(mb, vb, -db) && bn == vb * Pow(10, i) && e == f - db - i
    requires bn <= an
    ensures Scale10(f) * mb <= ma
  {
    PowerTimes(mb, vb, db, i, bn, e, f);
    ScaledOrder(Scale10(f) * mb, ma, bn, an, e);
  }

  lemma PlaceAbove(ma: real, mb: real, vb: int, db: int, an: int, bn: int, i: nat, e: int, f: int)
    requires Scaled(ma, an, e) && Scaled(mb, vb, -db) && bn == vb * Pow(10, i) && e == f - db - i
    requires an < bn
    ensures ma < Scale10(f) * mb
  {
    PowerTimes(mb, vb, db, i, bn, e, f);
    ScaledOrder(ma, Scale10(f) * mb, an, bn, e);
  }

  /** 10^f times the divisor mb, written at exponent e as its magnitude times 10^i. */
  lemma PowerTimes(mb: real, vb: int, db: int, i: nat, bn: int, e: int, f: int)
    requires Scaled(mb, vb, -db) && bn == vb * Pow(10, i) && e == f - db - i
    ensures Scaled(Scale10(f) * mb, bn, e)
  {
    UnitScaled(f);
    ProductRescaled(Scale10(f), mb, 1, vb, f, -db, i, bn, e);
  }

  lemma TenMore(vb: int, i: nat, bn: int)
    requires bn == vb * Pow(10, i)
    ensures 10 * bn == vb * Pow(10, i + 1)
  {
    assert Pow(10, i + 1) == 10 * Pow(10, i);
  }
}

=== FILE: rounding.dfy ===
/**
 * Rounding: Round() to a whole number (DecFloat/DecFloat.cs:329-338) and
 * Round(int) to a number of decimal places (DecFloat/DecFloat.cs:322-327).
 *
 * Round() works on the text: it formats the value, cuts it at the point, reads
 * the part before it back and adds One when the first digit after it is 5 or
 * more. For a negative value adding One moves towards zero, so -2.7 becomes -1;
 * RoundedAsWritten and Round keep that behaviour, RoundedHalfAway and
 * RoundHalfAway are the rounding the code evidently means.
 */
module DecimalRounding {
  import opened Powers
  import opened Limbs
  import opened DecimalText
  import opened DecimalFloat
  import opened Conversion
  import opened DecimalArith
  import opened RoundingSpec

  /** The first position of c in s, or -1 when s has none (`string.IndexOf`). */
  function IndexOf(s: string, c: char): (i: int)
    ensures -1 <= i < |s|
    ensures i >= 0 ==> s[i] == c && forall j :: 0 <= j < i ==> s[j] != c
    ensures i < 0 ==> forall j :: 0 <= j < |s| ==> s[j] != c
  {
    if |s| == 0 then -1
    else if s[0] == c then 0
    else
      var k := IndexOf(s[1..], c);
      if k < 0 then -1 else k + 1
  }

  /** In a sign, digits, a point and digits, the first point follows the integer digits. */
  lemma PointPosition(sg: string, a: string, b: string)
    requires forall j :: 0 <= j < |sg| ==> sg[j] == '-'
    requires AllDigits(a)
    ensures var s := sg + (a + ("." + b));
            IndexOf(s, '.') == |sg| + |a| && s[..|sg| + |a|] == sg + a
            && (|b| > 0 ==> |sg| + |a| + 1 < |s| && s[|sg| + |a| + 1] == b[0])
  {
    var s := sg + (a + ("." + b));
    var k := |sg| + |a|;
    assert s[k] == '.';
    forall j | 0 <= j < k
      ensures s[j] != '.'
    {
      if j < |sg| {
        assert s[j] == sg[j];
      } else {
        assert s[j] == a[j - |sg|];
      }
    }
    assert s[..k] == sg + a;
    if |b| > 0 {
      assert s[k + 1] == b[0];
    }
  }

  /** The sign and the integer digits, even none at all, read as a whole number. */
  lemma ReadInteger(neg: bool, a: string)
    requires AllDigits(a) && (|a| > 0 ==> a[0] != '0')
    ensures Numeral(SignText(neg) + a)
    ensures FromText(SignText(neg) + a) == DecFloat(neg, ToLimbs(DigitsVal(a)), 0)
  {
    if |a| > 0 {
      ReadWhole(neg, a);
    } else {
      assert SignText(neg) + a == SignText(neg);
      ReadEmpty(neg);
    }
  }

  /** The first of several digits is 5 or more exactly when they are at least half of 10^|l|. */
  lemma FirstDigitHalf(l: string)
    requires AllDigits(l) && |l| > 0
    ensures l[0] >= '5' <==> 2 * DigitsVal(l) >= Pow(10, |l|)
  {
    var h, t := l[..1], l[1..];
    assert l == h + t;
    assert AllDigits(h) && AllDigits(t);
    DigitsValAppend(h, t);
    assert h == [l[0]];
    DigitsValSingle(l[0]);
    var q := Pow(10, |t|);
    assert Pow(10, |l|) == 10 * q;
    HalfBound(DigitOf(l[0]), DigitsVal(t), q);
  }

  lemma HalfBound(d: int, r: int, q: int)
    requires 0 <= d <= 9 && 0 <= r < q
    ensures d >= 5 <==> 2 * (d * q + r) >= 10 * q
  {
    if d >= 5 {
      assert d * q >= 5 * q;
    } else {
      assert d * q <= 4 * q;
    }
  }

  /**
   * Reading a sign, integer digits, a point and fraction digits the way Round()
   * does: the point follows the integer digits, the text before it reads as the
   * signed integer, and the digit after it is 5 or more exactly when the
   * fraction digits are at least half of 10^|l|.
   */
  lemma PointedText(neg: bool, a: string, l: string)
    requires AllDigits(a) && (|a| > 0 ==> a[0] != '0') && AllDigits(l) && |l| > 0
    ensures var s := SignText(neg) + (a + ("." + l));
            var i := IndexOf(s, '.');
            0 <= i && i + 1 < |s| && Numeral(s[..i])
            && FromText(s[..i]) == DecFloat(neg, ToLimbs(DigitsVal(a)), 0)
            && (s[i + 1] >= '5' <==> 2 * DigitsVal(l) >= Pow(10, |l|))
  {
    PointPosition(SignText(neg), a, l);
    ReadInteger(neg, a);
    FirstDigitHalf(l);
  }

  /**
   * With decimal places, the formatted text has a point; before it stand the sign
   * and the integer part, and the digit after it is 5 or more exactly when the
   * fraction is at least one half.
   */
  lemma RoundText(x: DecFloat)
    requires x.dp > 0
    ensures var s := Format(x);
            var i := IndexOf(s, '.');
            0 <= i && i + 1 < |s| && Numeral(s[..i])
            && FromText(s[..i]) == DecFloat(x.neg, ToLimbs(IntPart(Val(x.num), x.dp)), 0)
            && (s[i + 1] >= '5' <==> RoundsUp(Val(x.num), x.dp))
  {
    FormatWithPoint(x);
    PointDigits(x);
    var p := Pad(DigitText(x.num), x.dp);
    var m := |p| - x.dp;
    var h, l := p[..m], p[m..];
    TrimValue(h);
    PointedText(x.neg, TrimLeadingZeros(h), l);
  }

  /** Without decimal places, the formatted text has no point. */
  lemma NoPoint(x: DecFloat)
    requires x.dp <= 0
    ensures IndexOf(Format(x), '.') < 0
  {
    FormatWithoutPoint(x);
    if Val(x.num) != 0 {
      var sg, d, z := SignText(x.neg), Digits(Val(x.num)), Zeros(-x.dp);
      var s := sg + (d + z);
      forall j | 0 <= j < |s|
        ensures s[j] != '.'
      {
        if j < |sg| {
          assert s[j] == sg[j];
        } else if j < |sg| + |d| {
          assert s[j] == d[j - |sg|];
        } else {
          assert s[j] == z[j - |sg| - |d|];
        }
      }
    }
  }

  /** Without decimal places a value is already the whole number both roundings give. */
  lemma WholeExact(x: DecFloat)
    requires x.dp <= 0
    ensures Value(x) == RoundedAsWritten(x.neg, Val(x.num), x.dp) as real
    ensures Value(x) == RoundedHalfAway(x.neg, Val(x.num), x.dp) as real
  {
    var w := Val(x.num) * Pow(10, -x.dp);
    var y := DecFloat(x.neg, ToLimbs(w), 0);
    WholeValue(x, y);
    WholeAt(x.neg, w);
  }

  /**
   * The steps both roundings share: format, find the point, read back the text
   * before it and look at the digit after it. Without a point there is nothing
   * to do.
   */
  method WholePart(x: DecFloat) returns (pointed: bool, whole: DecFloat, up: bool)
    ensures pointed == (x.dp > 0)
    ensures pointed ==> whole == DecFloat(x.neg, ToLimbs(IntPart(Val(x.num), x.dp)), 0)
    ensures pointed ==> (up <==> RoundsUp(Val(x.num), x.dp))
  {
    var s := ToString(x);
    var i := IndexOf(s, '.');
    if x.dp > 0 {
      RoundText(x);
    } else {
      NoPoint(x);
    }
    if i < 0 {
      return false, x, false;
    }
    up := s[i + 1] >= '5';
    whole := Parse(s[..i]);
    pointed := true;
  }

  /** The number Round() builds from the integer part and the rounding digit. */
  lemma AsWrittenRounded(x: DecFloat, up: bool, w: real, r: real)
    requires x.dp > 0 && up == RoundsUp(Val(x.num), x.dp)
    requires w == Signed(x.neg, IntPart(Val(x.num), x.dp)) as real
    requires r == if up then w + 1.0 else w
    ensures r == RoundedAsWritten(x.neg, Val(x.num), x.dp) as real
    ensures !x.neg ==> -0.5 <= r - Value(x) <= 0.5
  {
    RoundStep(x.neg, Val(x.num), x.dp, up, w, r, 1.0);
    if !x.neg {
      HalfAwayMirrors(x.neg, Val(x.num), x.dp);
      Near(x, r);
    }
  }

  /**
   * Round(): the value itself when it has no decimal places; otherwise the signed
   * integer part, plus One when the fraction is at least one half.
   */
  method Round(x: DecFloat) returns (r: DecFloat)
    ensures x.dp <= 0 ==> r == x
    ensures x.dp > 0 ==> Tidy(r) && r.dp == 0
    ensures Value(r) == RoundedAsWritten(x.neg, Val(x.num), x.dp) as real
    ensures !x.neg ==> -0.5 <= Value(r) - Value(x) <= 0.5
  {
    var pointed, whole, up := WholePart(x);
    if !pointed {
      WholeExact(x);
      return x;
    }
    WholeAt(x.neg, IntPart(Val(x.num), x.dp));
    UnitValues();
    r := whole;
    if up {
      r := PlusOne(whole);
    }
    AsWrittenRounded(x, up, Value(whole), Value(r));
  }

  /** num.Add(One) on a tidy whole number: one more, still whole and tidy. */
  method PlusOne(w: DecFloat) returns (r: DecFloat)
    requires Tidy(w) && w.dp == 0
    ensures Tidy(r) && r.dp == 0 && Value(r) == Value(w) + 1.0
  {
    UnitValues();
    FormatZero(One);
    var sum := DecimalArith.Add(w, One);
    r := sum.value;
  }

  /**
   * Round() as evidently meant: the magnitude is rounded as Round() rounds a
   * positive number and the sign is put back, so halves move away from zero.
   */
  method RoundHalfAway(x: DecFloat) returns (r: DecFloat)
    ensures x.dp <= 0 ==> r == x
    ensures x.dp > 0 ==> Tidy(r) && r.dp == 0
    ensures Value(r) == RoundedHalfAway(x.neg, Val(x.num), x.dp) as real
    ensures -0.5 <= Value(r) - Value(x) <= 0.5
  {
    var m := Round(DecFloat(false, x.num, x.dp));
    r := if x.neg then Negate(m) else m;
    HalfAwayMirrors(x.neg, Val(x.num), x.dp);
    Near(x, Value(r));
  }

  /**
   * Round(int) as written: Round() itself for no places, otherwise the value is
   * multiplied by 10^k, rounded with Round() and multiplied back by 10^(-k).
   */
  method RoundTo(x: DecFloat, k: int) returns (r: DecFloat)
    ensures Scaled(Value(r), RoundedAsWritten(x.neg, Val(x.num), x.dp - k), -k)
    ensures r.dp == if x.dp > k then k else x.dp
    ensures -0.5 * Scale10(-k) <= Value(r) - Value(x) < 2.0 * Scale10(-k)
    ensures Value(x) >= 0.0 ==> Value(r) - Value(x) <= 0.5 * Scale10(-k)
  {
    if k == 0 {
      r := Round(x);
      Unscaled(Value(r), RoundedAsWritten(x.neg, Val(x.num), x.dp - k), k);
    } else {
      var y := Shift(x, k);
      var z := Round(y);
      r := Shift(z, -k);
      AsWrittenBack(x, y, z, r, k);
    }
    AsWrittenToNear(x, r, k);
    if Value(x) >= 0.0 {
      NonnegativeAgree(x, x.dp - k);
      RoundedToNear(x, r, k);
    }
  }

  /** Round(int) built on the corrected Round(): within half a unit of the k-th place. */
  method RoundToHalfAway(x: DecFloat, k: int) returns (r: DecFloat)
    ensures Scaled(Value(r), RoundedHalfAway(x.neg, Val(x.num), x.dp - k), -k)
    ensures -0.5 * Scale10(-k) <= Value(r) - Value(x) <= 0.5 * Scale10(-k)
    ensures r.dp == if x.dp > k then k else x.dp
  {
    if k == 0 {
      r := RoundHalfAway(x);
      Unscaled(Value(r), RoundedHalfAway(x.neg, Val(x.num), x.dp - k), k);
      RoundedToNear(x, r, k);
      return;
    }
    var y := Shift(x, k);
    var z := RoundHalfAway(y);
    r := Shift(z, -k);
    HalfAwayBack(x, y, z, r, k);
    RoundedToNear(x, r, k);
  }

  /**
   * `x.Mul(new DecFloat(false, new byte[] { 1 }, -k))`: the same sign and digits
   * with the point moved k places to the right, that is x times 10^k.
   */
  method Shift(x: DecFloat, k: int) returns (y: DecFloat)
    ensures y.neg == x.neg && Val(y.num) == Val(x.num) && y.dp == x.dp - k
  {
    var p := DecFloat(false, [1], -k);
    y := DecimalArith.Mul(x, p);
    ShiftFacts(x, p, y, k);
  }

  lemma ShiftFacts(x: DecFloat, p: DecFloat, y: DecFloat, k: int)
    requires p == DecFloat(false, [1], -k)
    requires y.neg == (x.neg != p.neg) && y.dp == x.dp + p.dp
    requires Val(y.num) == Val(x.num) * Val(p.num) && Value(y) == Value(x) * Value(p)
    ensures y.neg == x.neg && Val(y.num) == Val(x.num) && y.dp == x.dp - k
  {
    TenToThe(k);
  }
}

=== FILE: rounding_spec.dfy ===
/**
 * What rounding computes, on plain numbers: a DecFloat's sign, magnitude and
 * decimal places go in, a whole number comes out. Round() as written
 * (DecFloat/DecFloat.cs:329-338) and the rounding half away from zero it
 * evidently means, with how far each result lies from the number rounded.
 */
module RoundingSpec {
  import opened Powers
  import opened Limbs
  import opened DecimalFloat

  function Signed(neg: bool, v: int): int
  {
    if neg then -v else v
  }

  /** The integer part of v * 10^(-dp), for dp > 0. */
  function IntPart(v: nat, dp: nat): nat
  {
    v / Pow(10, dp)
  }

  /**
   * v * 10^(-dp) has a fraction of at least one half: the first digit after
   * the point is 5 or more.
   */
  predicate RoundsUp(v: nat, dp: int)
  {
    dp > 0 && 2 * (v % Pow(10, dp)) >= Pow(10, dp)
  }

  /**
   * The whole number Round() makes of (-1)^neg * v * 10^(-dp): the number itself
   * when it has no decimal places, otherwise its integer part with the sign, plus
   * one when the fraction is at least one half, whatever the sign.
   */
  function RoundedAsWritten(neg: bool, v: nat, dp: int): int
  {
    if dp <= 0 then Signed(neg, v * Pow(10, -dp))
    else Signed(neg, IntPart(v, dp)) + (if RoundsUp(v, dp) then 1 else 0)
  }

  /**
   * Rounding half away from zero: the magnitude is rounded as Round() rounds a
   * positive number, and the sign is put back afterwards.
   */
  function RoundedHalfAway(neg: bool, v: nat, dp: int): int
  {
    if dp <= 0 then Signed(neg, v * Pow(10, -dp))
    else Signed(neg, IntPart(v, dp) + (if RoundsUp(v, dp) then 1 else 0))
  }

  /** Rounding half away from zero is the source's rounding of the magnitude, signed. */
  lemma HalfAwayMirrors(neg: bool, v: nat, dp: int)
    ensures RoundedHalfAway(neg, v, dp) == Signed(neg, RoundedAsWritten(false, v, dp))
    ensures RoundedHalfAway(!neg, v, dp) == -RoundedHalfAway(neg, v, dp)
    ensures !neg ==> RoundedHalfAway(neg, v, dp) == RoundedAsWritten(neg, v, dp)
  {
  }

  /** Scaled by 10^dp, the corrected rounding is at most half a unit from the number. */
  lemma HalfAwayGap(neg: bool, v: nat, dp: int)
    requires dp > 0
    ensures var p: int := Pow(10, dp);
            -p <= 2 * (RoundedHalfAway(neg, v, dp) * p - Signed(neg, v)) <= p
  {
    var p := Pow(10, dp);
    var w, f := v / p, v % p;
    assert v == w * p + f;
    var u := if RoundsUp(v, dp) then 1 else 0;
    assert (w + u) * p - v == u * p - f;
    if neg {
      assert RoundedHalfAway(neg, v, dp) * p - Signed(neg, v) == -((w + u) * p - v);
    }
  }

  /** The corrected rounding is within one half of the number it rounds. */
  lemma HalfAwayClose(neg: bool, v: nat, dp: int)
    ensures -0.5 <= RoundedHalfAway(neg, v, dp) as real - Signed(neg, v) as real * Scale10(-dp) <= 0.5
  {
    if dp <= 0 {
      WholeClose(neg, v, dp);
    } else {
      HalfAwayGap(neg, v, dp);
      Nearest(RoundedHalfAway(neg, v, dp), Signed(neg, v), dp, Pow(10, dp));
    }
  }

  lemma WholeClose(neg: bool, v: nat, dp: int)
    requires dp <= 0
    ensures RoundedHalfAway(neg, v, dp) as real - Signed(neg, v) as real * Scale10(-dp) == 0.0
  {
    var q := Pow(10, -dp);
    Scale10Natural(-dp);
    SignedTimes(neg, v, q);
    Exact(Signed(neg, v), q, RoundedHalfAway(neg, v, dp), Scale10(-dp));
  }

  lemma SignedTimes(neg: bool, v: int, q: int)
    ensures Signed(neg, v * q) == Signed(neg, v) * q
  {
    if neg {
      assert -(v * q) == (-v) * q;
    }
  }

  lemma Exact(s: int, q: nat, n: int, t: real)
    requires n == s * q && t == q as real
    ensures n as real - s as real * t == 0.0
  {
  }

  /** An integer n with |n * 10^dp - s| <= 10^dp / 2 is within one half of s * 10^(-dp). */
  lemma Nearest(n: int, s: int, dp: int, p: int)
    requires dp > 0 && p == Pow(10, dp)
    requires -p <= 2 * (n * p - s) <= p
    ensures -0.5 <= n as real - s as real * Scale10(-dp) <= 0.5
  {
    var t := Scale10(-dp);
    Scale10Sum(dp, -dp, 0);
    Scale10Natural(dp);
    Scale10Positive(-dp);
    assert p as real * t == 1.0;
    var d := n * p - s;
    assert n as real - s as real * t == d as real * t by {
      assert d as real == n as real * p as real - s as real;
    }
    Bounded(d as real, p as real, t);
  }

  lemma Bounded(d: real, p: real, t: real)
    requires t > 0.0 && p * t == 1.0 && -p <= 2.0 * d <= p
    ensures -0.5 <= d * t <= 0.5
  {
    assert 2.0 * d * t <= p * t;
    assert -(p * t) <= 2.0 * d * t;
  }

  /**
   * The source's rounding of a negative number whose fraction is at least one
   * half lands more than one whole unit above the number.
   */
  lemma AsWrittenNegativeGap(v: nat, dp: int)
    requires dp > 0 && RoundsUp(v, dp)
    ensures var p := Pow(10, dp);
            2 * (RoundedAsWritten(true, v, dp) * p - Signed(true, v)) >= 3 * p
  {
    var p := Pow(10, dp);
    var w, f := v / p, v % p;
    assert v == w * p + f;
    assert (-w + 1) * p + v == p + f;
  }

  /** -2.7 rounds to -1 as written, and to -3 half away from zero. */
  lemma NegativeRoundExample()
    ensures Value(DecFloat(true, [27], 1)) == -2.7
    ensures RoundedAsWritten(true, 27, 1) == -1
    ensures RoundedHalfAway(true, 27, 1) == -3
  {
    assert Pow(10, 1) == 10;
    assert Val([27]) == 27 by {
      ValSingle(27);
    }
    assert Scale10(-1) == 0.1;
  }

  lemma ValSingle(b: byte)
    ensures Val([b]) == b as nat
  {
    assert [b][1..] == [];
  }

  /** A whole number read back from its digits: its value, and it is tidy. */
  lemma WholeAt(neg: bool, w: nat)
    ensures Tidy(DecFloat(neg, ToLimbs(w), 0))
    ensures Value(DecFloat(neg, ToLimbs(w), 0)) == Signed(neg, w) as real
  {
  }

  lemma UnitValues()
    ensures Tidy(One) && Value(One) == 1.0
  {
    assert Val([1]) == 1;
  }

  /** The integer part, plus one when rounding up, is the source's rounding. */
  lemma RoundStep(neg: bool, v: nat, dp: int, up: bool, w: real, r: real, one: real)
    requires dp > 0 && up == RoundsUp(v, dp) && one == 1.0
    requires w == Signed(neg, IntPart(v, dp)) as real
    requires r == if up then w + one else w
    ensures r == RoundedAsWritten(neg, v, dp) as real
  {
  }

  /** The integer part, moved one away from zero when rounding up, is rounding half away from zero. */
  lemma HalfAwayStep(neg: bool, v: nat, dp: int, up: bool, w: real, r: real, unit: real)
    requires dp > 0 && up == RoundsUp(v, dp) && unit == if neg then -1.0 else 1.0
    requires w == Signed(neg, IntPart(v, dp)) as real
    requires r == if up then w + unit else w
    ensures r == RoundedHalfAway(neg, v, dp) as real
  {
  }

  /**
   * Shifting keeps the sign and the digits and moves the point k places, so
   * both roundings of the shifted value are the roundings of x at dp - k.
   */
  lemma SameArgs(x: DecFloat, y: DecFloat, k: int)
    requires y.neg == x.neg && Val(y.num) == Val(x.num) && y.dp == x.dp - k
    ensures RoundedAsWritten(y.neg, Val(y.num), y.dp) == RoundedAsWritten(x.neg, Val(x.num), x.dp - k)
    ensures RoundedHalfAway(y.neg, Val(y.num), y.dp) == RoundedHalfAway(x.neg, Val(x.num), x.dp - k)
  {
  }

  lemma Unscaled(v: real, n: int, k: int)
    requires k == 0 && v == n as real
    ensures Scaled(v, n, -k)
  {
  }

  /** Moving the point of a value n by k places to the left makes it n * 10^(-k). */
  lemma ShiftedValue(x: DecFloat, y: DecFloat, k: int, n: int)
    requires y.neg == x.neg && Val(y.num) == Val(x.num) && y.dp == x.dp + k
    requires Value(x) == n as real
    ensures Scaled(Value(y), n, -k)
  {
    ValueIs(x, SignedVal(x));
    ValueIs(y, SignedVal(x));
    ScaledShift(Value(x), Value(y), SignedVal(x), n, -x.dp, -y.dp, -k);
  }

  lemma ScaledShift(vx: real, vy: real, s: int, n: int, ex: int, ey: int, e: int)
    requires Scaled(vx, s, ex) && Scaled(vy, s, ey) && ey == ex + e && vx == n as real
    ensures Scaled(vy, n, e)
  {
    Scale10Sum(ex, e, ey);
    assert vy == s as real * (Scale10(ex) * Scale10(e));
    assert vy == (s as real * Scale10(ex)) * Scale10(e);
  }

  lemma {:induction false} AsWrittenBack(x: DecFloat, y: DecFloat, z: DecFloat, r: DecFloat, k: int)
    requires y.neg == x.neg && Val(y.num) == Val(x.num) && y.dp == x.dp - k
    requires Value(z) == RoundedAsWritten(y.neg, Val(y.num), y.dp) as real
    requires r.neg == z.neg && Val(r.num) == Val(z.num) && r.dp == z.dp - -k
    ensures Scaled(Value(r), RoundedAsWritten(x.neg, Val(x.num), x.dp - k), -k)
  {
    SameArgs(x, y, k);
    ghost var n := RoundedAsWritten(x.neg, Val(x.num), x.dp - k);
    ShiftedValue(z, r, k, n);
  }

  lemma {:induction false} HalfAwayBack(x: DecFloat, y: DecFloat, z: DecFloat, r: DecFloat, k: int)
    requires y.neg == x.neg && Val(y.num) == Val(x.num) && y.dp == x.dp - k
    requires Value(z) == RoundedHalfAway(y.neg, Val(y.num), y.dp) as real
    requires r.neg == z.neg && Val(r.num) == Val(z.num) && r.dp == z.dp - -k
    ensures Scaled(Value(r), RoundedHalfAway(x.neg, Val(x.num), x.dp - k), -k)
  {
    SameArgs(x, y, k);
    ghost var n := RoundedHalfAway(x.neg, Val(x.num), x.dp - k);
    ShiftedValue(z, r, k, n);
  }

  /** DecFloat(false, [1], -k) stands for 10^k; with k = 0 it is One. */
  lemma PowerValue(k: int)
    ensures Val([1]) == 1
    ensures Value(DecFloat(false, [1], k)) == Scale10(-k)
    ensures Scale10(0) == 1.0
  {
  }

  /** DecFloat(false, [1], -k) stands for 10^k. */
  lemma TenToThe(k: int)
    ensures Val([1]) == 1 && Value(DecFloat(false, [1], -k)) == Scale10(k)
  {
    PowerValue(-k);
  }

  lemma SignedIs(x: DecFloat)
    ensures SignedVal(x) == Signed(x.neg, Val(x.num))
    ensures Scaled(Value(x), Signed(x.neg, Val(x.num)), -x.dp)
  {
    ValueIs(x, Signed(x.neg, Val(x.num)));
  }

  /** A value equal to the corrected rounding of x is within one half of x. */
  lemma Near(x: DecFloat, v: real)
    requires v == RoundedHalfAway(x.neg, Val(x.num), x.dp) as real
    ensures -0.5 <= v - Value(x) <= 0.5
  {
    SignedIs(x);
    NearAt(x.neg, Val(x.num), x.dp, v, Value(x));
  }

  /** Near on plain numbers: vx is the number and v its corrected rounding. */
  lemma NearAt(neg: bool, m: nat, dp: int, v: real, vx: real)
    requires v == RoundedHalfAway(neg, m, dp) as real && Scaled(vx, Signed(neg, m), -dp)
    ensures -0.5 <= v - vx <= 0.5
  {
    HalfAwayClose(neg, m, dp);
  }


  /** Rounding at the k-th decimal place is off by at most half of 10^(-k). */
  lemma RoundToClose(neg: bool, v: nat, dp: int, k: int, e: int)
    requires e == dp - k
    ensures -0.5 * Scale10(-k) <= RoundedHalfAway(neg, v, e) as real * Scale10(-k) - Signed(neg, v) as real * Scale10(-dp) <= 0.5 * Scale10(-k)
  {
    HalfAwayClose(neg, v, e);
    ShiftClose(RoundedHalfAway(neg, v, e), Signed(neg, v), dp, k, e);
  }

  /** Closeness to within one half at exponent e is closeness to within half of 10^(-k) at e + k. */
  lemma ShiftClose(n: int, s: int, dp: int, k: int, e: int)
    requires e == dp - k
    requires -0.5 <= n as real - s as real * Scale10(-e) <= 0.5
    ensures -0.5 * Scale10(-k) <= n as real * Scale10(-k) - s as real * Scale10(-dp) <= 0.5 * Scale10(-k)
  {
    Scale10Sum(-e, -k, -dp);
    Scale10Positive(-k);
    Widen(n as real, s as real, Scale10(-e), Scale10(-k), Scale10(-dp));
  }

  lemma Widen(a: real, b: real, c: real, t: real, w: real)
    requires -0.5 <= a - b * c <= 0.5 && t > 0.0 && w == c * t
    ensures -0.5 * t <= a * t - b * w <= 0.5 * t
  {
    var d := a - b * c;
    assert b * w == b * c * t;
    assert a * t - b * w == d * t;
    assert d * t <= 0.5 * t;
    assert -0.5 * t <= d * t;
  }

  /** A result scaled from the corrected rounding at the k-th place is within half of 10^(-k) of x. */
  lemma RoundedToNear(x: DecFloat, r: DecFloat, k: int)
    requires Scaled(Value(r), RoundedHalfAway(x.neg, Val(x.num), x.dp - k), -k)
    ensures -0.5 * Scale10(-k) <= Value(r) - Value(x) <= 0.5 * Scale10(-k)
  {
    SignedIs(x);
    NearTo(x.neg, Val(x.num), x.dp, k, Value(r), Value(x));
  }

  /** RoundedToNear on plain numbers: vx is the number and vr its corrected rounding. */
  lemma NearTo(neg: bool, m: nat, dp: int, k: int, vr: real, vx: real)
    requires Scaled(vr, RoundedHalfAway(neg, m, dp - k), -k) && Scaled(vx, Signed(neg, m), -dp)
    ensures -0.5 * Scale10(-k) <= vr - vx <= 0.5 * Scale10(-k)
  {
    RoundToClose(neg, m, dp, k, dp - k);
  }

  /**
   * Scaled by 10^dp, the source's rounding lies from half a unit below the number
   * to less than two units above it; above by more than a half only for negatives.
   */
  lemma AsWrittenGap(neg: bool, v: nat, dp: int)
    requires dp > 0
    ensures var p: int := Pow(10, dp);
            -p <= 2 * (RoundedAsWritten(neg, v, dp) * p - Signed(neg, v)) < 4 * p
  {
    var p := Pow(10, dp);
    var w, f := v / p, v % p;
    assert v == w * p + f;
    var u := if RoundsUp(v, dp) then 1 else 0;
    if neg {
      assert RoundedAsWritten(neg, v, dp) * p - Signed(neg, v) == u * p + f;
    } else {
      assert RoundedAsWritten(neg, v, dp) * p - Signed(neg, v) == u * p - f;
    }
  }

  /** The integer n lies from one half below s * 10^(-e) to less than two above it. */
  ghost predicate OpenNear(n: int, s: int, e: int)
  {
    -0.5 <= n as real - s as real * Scale10(-e) < 2.0
  }

  /** The source's rounding is at most one half below the number and less than two above it. */
  lemma AsWrittenClose(neg: bool, v: nat, dp: int)
    ensures OpenNear(RoundedAsWritten(neg, v, dp), Signed(neg, v), dp)
  {
    if dp <= 0 {
      WholeNear(neg, v, dp);
    } else {
      AsWrittenGap(neg, v, dp);
      Within(RoundedAsWritten(neg, v, dp), Signed(neg, v), dp, Pow(10, dp));
    }
  }

  /** With no places to drop, the source's rounding is the number itself. */
  lemma WholeNear(neg: bool, v: nat, dp: int)
    requires dp <= 0
    ensures OpenNear(RoundedAsWritten(neg, v, dp), Signed(neg, v), dp)
  {
    WholeClose(neg, v, dp);
    assert RoundedAsWritten(neg, v, dp) == RoundedHalfAway(neg, v, dp);
  }

  /** An integer n with -10^dp <= 2(n * 10^dp - s) < 4 * 10^dp lies in [-1/2, 2) around s * 10^(-dp). */
  lemma Within(n: int, s: int, dp: int, p: int)
    requires dp > 0 && p == Pow(10, dp)
    requires -p <= 2 * (n * p - s) < 4 * p
    ensures OpenNear(n, s, dp)
  {
    var t := Scale10(-dp);
    Scale10Sum(dp, -dp, 0);
    Scale10Natural(dp);
    Scale10Positive(-dp);
    assert p as real * t == 1.0;
    var d := n * p - s;
    assert n as real - s as real * t == d as real * t by {
      assert d as real == n as real * p as real - s as real;
    }
    BoundedOpen(d as real, p as real, t);
  }

  lemma BoundedOpen(d: real, p: real, t: real)
    requires t > 0.0 && p * t == 1.0 && -p <= 2.0 * d < 4.0 * p
    ensures -0.5 <= d * t < 2.0
  {
    var g, h := 4.0 * p - 2.0 * d, 2.0 * d + p;
    assert g > 0.0 && g * t > 0.0;
    assert h >= 0.0 && h * t >= 0.0;
    assert g * t == 4.0 - 2.0 * (d * t);
    assert h * t == 2.0 * (d * t) + 1.0;
  }

  /**
   * ShiftClose for the interval [-1/2, 2): if n is within [-1/2, 2) of s·10^(-e), then
   * n·10^(-k) is within [-1/2, 2) times 10^(-k) of s·10^(-dp).
   */
  lemma ShiftOpen(n: int, s: int, dp: int, k: int, e: int, vr: real, vx: real)
    requires e == dp - k
    requires OpenNear(n, s, e)
    requires Scaled(vr, n, -k) && Scaled(vx, s, -dp)
    ensures -0.5 * Scale10(-k) <= vr - vx < 2.0 * Scale10(-k)
  {
    Scale10Sum(-e, -k, -dp);
    Scale10Positive(-k);
    WidenOpen(n as real, s as real, Scale10(-e), Scale10(-k), Scale10(-dp));
  }

  lemma WidenOpen(a: real, b: real, c: real, t: real, w: real)
    requires -0.5 <= a - b * c < 2.0 && t > 0.0 && w == c * t
    ensures -0.5 * t <= a * t - b * w < 2.0 * t
  {
    var d := a - b * c;
    assert b * w == b * c * t;
    assert a * t - b * w == d * t;
    assert d * t < 2.0 * t;
    assert -0.5 * t <= d * t;
  }

  /**
   * A result scaled from the source's rounding at the k-th place lies from half of
   * 10^(-k) below x to less than two units of 10^(-k) above it.
   */
  lemma AsWrittenToNear(x: DecFloat, r: DecFloat, k: int)
    requires Scaled(Value(r), RoundedAsWritten(x.neg, Val(x.num), x.dp - k), -k)
    ensures -0.5 * Scale10(-k) <= Value(r) - Value(x) < 2.0 * Scale10(-k)
  {
    SignedIs(x);
    AsWrittenClose(x.neg, Val(x.num), x.dp - k);
    ShiftOpen(RoundedAsWritten(x.neg, Val(x.num), x.dp - k), Signed(x.neg, Val(x.num)), x.dp, k, x.dp - k, Value(r), Value(x));
  }

  /** On a value that is not negative the source's rounding is the corrected one. */
  lemma NonnegativeAgree(x: DecFloat, e: int)
    requires Value(x) >= 0.0
    ensures RoundedAsWritten(x.neg, Val(x.num), e) == RoundedHalfAway(x.neg, Val(x.num), e)
  {
    MagnitudeSign(x);
    Scale10Positive(-x.dp);
    HalfAwayMirrors(x.neg, Val(x.num), e);
  }
}

=== FILE: text.dfy ===
/**
 * Decimal digit strings: the text side of DecFloat's parsing and formatting.
 * A digit string is read most significant digit first, as the parser feeds it
 * to AddDigit and as ToString prepends the digits it peels off.
 */
module DecimalText {
  import opened Powers

  predicate IsDigit(c: char)
  {
    '0' <= c <= '9'
  }

  predicate AllDigits(s: string)
  {
    forall i :: 0 <= i < |s| ==> IsDigit(s[i])
  }

  /** The digit a character stands for (the `c - '0'` of Dec2Bin). */
  function DigitOf(c: char): int
  {
    c as int - '0' as int
  }

  function DigitChar(d: nat): (c: char)
    requires d <= 9
    ensures IsDigit(c) && DigitOf(c) == d
  {
    ('0' as int + d) as char
  }

  /** The value of a digit string, most significant digit first; "" reads as 0. */
  function DigitsVal(s: string): (v: nat)
    requires AllDigits(s)
    ensures v < Pow(10, |s|)
  {
    if |s| == 0 then 0 else 10 * DigitsVal(s[..|s| - 1]) + DigitOf(s[|s| - 1])
  }

  /** The decimal digits of n without leading zeros; 0 is written "0". */
  function Digits(n: nat): (s: string)
    ensures AllDigits(s) && |s| > 0
  {
    if n < 10 then [DigitChar(n)] else Digits(n / 10) + [DigitChar(n % 10)]
  }

  /** k zero digits (the `new string('0', k)` of the source). */
  function Zeros(k: nat): (z: string)
    ensures |z| == k && forall i :: 0 <= i < k ==> z[i] == '0'
  {
    seq(k, _ => '0')
  }

  /**
   * The string with its leading '0' characters removed (TrimStart('0')): what is
   * left is a suffix that does not start with '0', and everything cut was '0'.
   */
  function TrimLeadingZeros(s: string): (t: string)
    ensures |t| <= |s| && t == s[|s| - |t|..]
    ensures |t| > 0 ==> t[0] != '0'
    ensures forall i :: 0 <= i < |s| - |t| ==> s[i] == '0'
  {
    if |s| > 0 && s[0] == '0' then TrimLeadingZeros(s[1..]) else s
  }

  lemma {:induction false} DigitsValAppend(s: string, t: string)
    requires AllDigits(s) && AllDigits(t)
    ensures AllDigits(s + t)
    ensures DigitsVal(s + t) == DigitsVal(s) * Pow(10, |t|) + DigitsVal(t)
  {
    assert AllDigits(s + t) by {
      forall i | 0 <= i < |s + t|
        ensures IsDigit((s + t)[i])
      {
        if i < |s| { assert (s + t)[i] == s[i]; } else { assert (s + t)[i] == t[i - |s|]; }
      }
    }
    if |t| == 0 {
      assert s + t == s;
    } else {
      var t' := t[..|t| - 1];
      assert (s + t)[..|s + t| - 1] == s + t';
      DigitsValAppend(s, t');
      var a, b, p := DigitsVal(s), DigitsVal(t'), Pow(10, |t'|);
      var d := DigitOf(t[|t| - 1]);
      assert DigitsVal(s + t) == 10 * (a * p + b) + d;
      assert DigitsVal(t) == 10 * b + d by { assert t[..|t| - 1] == t'; }
      assert Pow(10, |t|) == 10 * p;
      ShiftDigit(a, b, d, p);
    }
  }

  lemma ShiftDigit(a: int, b: int, d: int, p: int)
    ensures 10 * (a * p + b) + d == a * (10 * p) + (10 * b + d)
  {
  }

  lemma MulAtLeast(d: int, p: int)
    requires d >= 1 && p >= 0
    ensures d * p >= p
  {
    assert d * p == p + (d - 1) * p;
  }

  lemma DigitsValSingle(c: char)
    requires IsDigit(c)
    ensures DigitsVal([c]) == DigitOf(c)
  {
    assert [c][..0] == [];
  }

  /** Leading zeros do not change the value of a digit string. */
  lemma {:induction false} ZerosValue(k: nat, s: string)
    requires AllDigits(s)
    ensures AllDigits(Zeros(k) + s) && DigitsVal(Zeros(k) + s) == DigitsVal(s)
  {
    DigitsValAppend(Zeros(k), s);
    if k > 0 {
      assert Zeros(k) == Zeros(k - 1) + ['0'];
      DigitsValAppend(Zeros(k - 1), ['0']);
      DigitsValSingle('0');
      ZerosValue(k - 1, []);
      assert Zeros(k - 1) + [] == Zeros(k - 1);
    }
  }

  /** A trimmed digit string is the original minus some leading zeros. */
  lemma TrimSplit(s: string)
    ensures s == Zeros(|s| - |TrimLeadingZeros(s)|) + TrimLeadingZeros(s)
  {
    var t := TrimLeadingZeros(s);
    assert s == s[..|s| - |t|] + t;
    assert s[..|s| - |t|] == Zeros(|s| - |t|);
  }

  lemma TrimValue(s: string)
    requires AllDigits(s)
    ensures AllDigits(TrimLeadingZeros(s))
    ensures DigitsVal(TrimLeadingZeros(s)) == DigitsVal(s)
  {
    var t := TrimLeadingZeros(s);
    TrimSplit(s);
    assert AllDigits(t) by {
      forall i | 0 <= i < |t|
        ensures IsDigit(t[i])
      {
        assert t[i] == s[|s| - |t| + i];
      }
    }
    ZerosValue(|s| - |t|, t);
  }

  /** Trimming is exact: all-zero strings trim to "", and trimming twice trims once. */
  lemma TrimEmpty(s: string)
    ensures TrimLeadingZeros(s) == "" <==> forall i :: 0 <= i < |s| ==> s[i] == '0'
    ensures TrimLeadingZeros(TrimLeadingZeros(s)) == TrimLeadingZeros(s)
  {
    var t := TrimLeadingZeros(s);
    if |t| > 0 {
      assert s[|s| - |t|] == t[0];
    }
  }

  lemma TrimZeros(k: nat, s: string)
    ensures TrimLeadingZeros(Zeros(k) + s) == TrimLeadingZeros(s)
  {
    if k > 0 {
      assert (Zeros(k) + s)[1..] == Zeros(k - 1) + s;
      TrimZeros(k - 1, s);
    } else {
      assert Zeros(k) + s == s;
    }
  }

  /** Trimming a concatenation whose right part starts with a non-zero character. */
  lemma {:induction false} TrimAppend(s: string, t: string)
    requires |t| > 0 && t[0] != '0'
    ensures TrimLeadingZeros(s + t) == TrimLeadingZeros(s) + t
  {
    if |s| == 0 {
      assert s + t == t;
    } else if s[0] == '0' {
      assert (s + t)[1..] == s[1..] + t;
      TrimAppend(s[1..], t);
    } else {
      assert (s + t)[0] == s[0];
    }
  }

  /** A digit string with no leading zero is at least 10^(length - 1). */
  lemma LeadingDigitBound(s: string)
    requires AllDigits(s) && |s| > 0 && s[0] != '0'
    ensures DigitsVal(s) >= Pow(10, |s| - 1)
  {
    assert s == [s[0]] + s[1..];
    DigitsValAppend([s[0]], s[1..]);
    DigitsValSingle(s[0]);
    MulAtLeast(DigitOf(s[0]), Pow(10, |s| - 1));
  }

  /** Reading the written digits of n gives n back. */
  lemma {:induction false} DigitsValue(n: nat)
    ensures DigitsVal(Digits(n)) == n
    ensures Digits(n)[0] == '0' <==> n == 0
  {
    if n < 10 {
      DigitsValSingle(DigitChar(n));
    } else {
      DigitsValue(n / 10);
      var s := Digits(n / 10);
      var c := DigitChar(n % 10);
      assert (s + [c])[..|s + [c]| - 1] == s;
      assert (s + [c])[0] == s[0];
    }
  }

  /** Writing the value of a digit string without leading zeros gives the string back. */
  lemma {:induction false} ValueDigits(s: string)
    requires AllDigits(s) && |s| > 0 && s[0] != '0'
    ensures Digits(DigitsVal(s)) == s
  {
    var v := DigitsVal(s);
    var init, c := s[..|s| - 1], s[|s| - 1];
    assert s == init + [c];
    if |init| == 0 {
      assert DigitsVal(init) == 0;
      assert DigitChar(DigitOf(c)) == c;
    } else {
      assert init[0] == s[0];
      LeadingDigitBound(init);
      ValueDigits(init);
      assert v / 10 == DigitsVal(init) && v % 10 == DigitOf(c);
      assert DigitChar(DigitOf(c)) == c;
    }
  }

  /** A digit string denotes the number its trimmed form writes out. */
  lemma TrimmedDigits(s: string)
    requires AllDigits(s)
    ensures AllDigits(TrimLeadingZeros(s))
    ensures TrimLeadingZeros(s) == (if DigitsVal(s) == 0 then "" else Digits(DigitsVal(s)))
  {
    var t := TrimLeadingZeros(s);
    TrimValue(s);
    if |t| > 0 {
      LeadingDigitBound(t);
      ValueDigits(t);
    } else {
      assert DigitsVal(t) == 0;
    }
  }

  /** Splitting a digit string: the head holds the quotient, the tail the remainder. */
  lemma DigitsSplit(s: string, k: nat)
    requires AllDigits(s) && k <= |s|
    ensures AllDigits(s[..|s| - k]) && AllDigits(s[|s| - k..])
    ensures DigitsVal(s[..|s| - k]) == DigitsVal(s) / Pow(10, k)
    ensures DigitsVal(s[|s| - k..]) == DigitsVal(s) % Pow(10, k)
  {
    var hi, lo := s[..|s| - k], s[|s| - k..];
    assert AllDigits(hi) by {
      forall i | 0 <= i < |hi| ensures IsDigit(hi[i]) { assert hi[i] == s[i]; }
    }
    assert AllDigits(lo) by {
      forall i | 0 <= i < |lo| ensures IsDigit(lo[i]) { assert lo[i] == s[|s| - k + i]; }
    }
    assert s == hi + lo;
    DigitsValAppend(hi, lo);
    DivMod(DigitsVal(s), DigitsVal(hi), DigitsVal(lo), Pow(10, k));
  }

  lemma DivMod(v: int, q: int, r: int, p: int)
    requires p > 0 && 0 <= r < p && v == q * p + r
    ensures q == v / p && r == v % p
  {
    var q', r' := v / p, v % p;
    assert v == q' * p + r';
    if q > q' {
      MulAtLeast(q - q', p);
    } else if q < q' {
      MulAtLeast(q' - q, p);
    }
  }
}
